=== FILE: README.md ===
# PesaSoft wallet client — a Dafny model

PesaSoft is a React Native mobile-money client for the Kenyan market. Users
sign in, keep a session, send money to other users and top up by M-Pesa,
card or bank. They receive money through a scannable code and pay by
scanning one. They manage saved cards, read notifications and transaction
receipts, chat with support and contacts, and invite device contacts.

This project models the client's logic, screen by screen. There is one Dafny
module per source file, plus three shared modules:

- `Common`: `Option`, `Filter`, `Map` and subsequences.
- `Text`: JavaScript string behaviour, namely white space, `trim`, ASCII
  case mapping, `includes`, `split`, `parseFloat` and number printing.
- `Age`: the "how long ago" buckets that the notification and chat lists
  share.

How each part of the source is modelled:

- **Pure helpers** become Dafny functions with lemmas. This covers
  validators, formatters, colour and icon tables, filters, and the mask
  functions of the input fields.
- **Screens and the session provider** keep React state that their handlers
  replace step by step. Each becomes a `class` whose fields are that state,
  and each handler becomes a `method` with a `modifies` clause.
- **Derived lists** such as `filteredTransactions`, `filteredChats` and
  `filteredContacts` are kept equal to their specification function by a
  `Valid()` invariant.
- **The outside world** is passed in as parameters. This covers the backend's
  unwrapped replies, the clock (`now`), the permission answer, the device
  contact list and the random "registered" flags. A `Codec` value stands for
  `JSON.stringify`/`JSON.parse`.
- **Persistent storage** (AsyncStorage) is the `Storage.AsyncStore` class,
  which holds a map.

The receipt screen uses the same type icon and colour tables as the
transaction list, so `Transactions.KindIcon` and `Transactions.KindColor`
serve both.

Properties of the code that a reader might expect otherwise:

- The restore on start-up does not keep "token present exactly when user
  present": a stored token beside an unreadable user record leaves a token
  and no user (`Session.TokenWithoutUser`).
- A 401 from any call removes only the three stored keys. The in-memory
  session stays until the next start (`Api.OnRejected`), which then finds no
  stored session (`Session.UnauthorizedSignsOutOnRestart`). This holds for a
  failed login, registration or profile refresh too.
- The chat list opens a chat with only its id and name
  (`ChatList.ChatListScreen.OpenChat`), never a type. So the sample
  "PesaSoft Support" row opens a chat whose type is undefined: it never shows
  the typing indicator and never gets the canned support reply
  (`ChatView.ChatScreen.SendMessage` does both only for type 'support').
- A successful send does not trigger a profile refresh
  (`SendMoney.SendMoneyScreen.HandleSendMoney`).
- A rejected send stays on step 4 and clears the PIN.
- The back arrow steps back without clearing any field
  (`SendMoney.SendMoneyScreen.Back`).

## Model

| member | source | states |
|---|---|---|
| Storage.AsyncStore.constructor | src/context/AuthContext.tsx:51-53 | the store starts with the given entries |
| Storage.AsyncStore.GetItem | src/context/AuthContext.tsx:51-53 | a key is found exactly when stored, and yields its stored text |
| Storage.AsyncStore.SetItem | src/context/AuthContext.tsx:81-84 | the key maps to the new text; every other entry is unchanged |
| Storage.AsyncStore.MultiRemove | src/context/AuthContext.tsx:128 | every listed key is gone and every other entry stays |
| Api.BearerHeader | src/services/api.ts:16-22 | the header is "Bearer " followed by exactly the token |
| Api.AuthorizeRequest | src/services/api.ts:16-22 | Authorization is added exactly when a non-empty token is stored, and carries that token; otherwise the headers pass unchanged |
| Api.RejectionOf | src/services/api.ts:37 | a failed call rejects with the server's body when there is one, else with the raw error |
| Api.OnRejected | src/services/api.ts:33-37 | a 401 removes exactly the three session keys and no others; any other failure leaves storage untouched; the rejection value is that of RejectionOf |
| Session.Restore | src/context/AuthContext.tsx:49-67 | a failed read, or storage without both a token and a user, leaves the prior session untouched; otherwise the stored token is held, the user when its record parses (else the prior one), and the wallet only when the user parsed and a non-empty wallet record parses (else the prior one) |
| Session.Persist | src/context/AuthContext.tsx:81-84 | the user is always written, the token and wallet only when present (else their old entries stay); keys other than the three session keys are untouched |
| Session.FailureMessage | src/context/AuthContext.tsx:86-92 | a declined reply's own message is rethrown, with the default when it is empty; a failed call rethrows what the interceptor rejected with (`Api.RejectionOf`) |
| Session.RestartRestoresLogin | src/context/AuthContext.tsx:49-93 | what a login writes, a restart reads back as the same token, user and wallet (given a codec that reads back what it writes) |
| Session.RestartRestoresLoginWithoutWallet | src/context/AuthContext.tsx:49-93 | a login without a wallet, on a store with no wallet record, restarts with its user and token and no wallet |
| Session.TokenWithoutUser | src/context/AuthContext.tsx:55-60 | a stored token with an unreadable user record restores a token without a user, so "token iff user" is not kept and the result is not authenticated |
| Session.AuthProvider.IsAuthenticated | src/context/AuthContext.tsx:161 | authenticated exactly when a user and a non-empty token are held |
| Session.AuthProvider.constructor | src/context/AuthContext.tsx:40-43 | nothing held; loading |
| Session.AuthProvider.LoadStoredAuth | src/context/AuthContext.tsx:49-67 | the session becomes Restore of the stored entries, so the stored token, then the user, then the wallet are taken as far as each parses; loading ends; storage is not written |
| Session.AuthProvider.SignIn | src/context/AuthContext.tsx:69-93 | an accepted reply's token, user and wallet are held and persisted with no error; any other reply leaves memory unchanged and yields FailureMessage; storage is unchanged too, except that a 401 has removed exactly the three session keys |
| Session.AuthProvider.Login | src/context/AuthContext.tsx:69-93 | as SignIn, with 'Login failed' as the fallback message: a 401 clears the stored keys and keeps memory |
| Session.AuthProvider.Register | src/context/AuthContext.tsx:95-119 | as SignIn, with 'Registration failed' as the fallback message: a 401 clears the stored keys and keeps memory |
| Session.AuthProvider.Logout | src/context/AuthContext.tsx:121-132 | nothing is held, the provider is not authenticated, and exactly the three session keys are removed |
| Session.AuthProvider.RefreshProfile | src/context/AuthContext.tsx:134-155 | without a token nothing changes; a refused or failed reply leaves memory unchanged and storage too, except that a 401 removes exactly the three session keys; an accepted reply replaces and persists the user and wallet; the token is always kept |
| Session.UnauthorizedSignsOutOnRestart | src/services/api.ts:33-35 | once a 401 has removed the three keys, no stored session is left, so the next start keeps the signed-out state and is not authenticated |
| Payload.Lookup | src/screens/qr/QRScannerScreen.tsx:63 | a field is found exactly when the object has the key, with its value |
| PinPad.Press | src/screens/send/SendMoneyScreen.tsx:95-99 | a digit is appended only while fewer than 4 are held; the old buffer is a prefix; a buffer of at most 4 digits stays one |
| PinPad.Backspace | src/screens/send/SendMoneyScreen.tsx:101-103 | exactly the last character goes (none from an empty buffer), and the result is a prefix |
| PinPad.BackspaceUndoesPress | src/screens/auth/PinSetupScreen.tsx:17-35 | backspace after an accepted press restores the buffer |
| PinPad.PressAllKeepsFirstFour | src/screens/auth/PinSetupScreen.tsx:17-27 | a run of presses keeps the first digits up to 4, in order, and ignores the rest |
| PinSetup.PinSetupScreen.constructor | src/screens/auth/PinSetupScreen.tsx:13-15 | step 1 with both buffers empty |
| PinSetup.PinSetupScreen.HandleNumberPress | src/screens/auth/PinSetupScreen.tsx:17-27 | the digit goes to the active step's buffer by Press; the other buffer and the step are unchanged |
| PinSetup.PinSetupScreen.HandleBackspace | src/screens/auth/PinSetupScreen.tsx:29-35 | the active buffer loses its last digit; the other is unchanged |
| PinSetup.PinSetupScreen.HandleContinue | src/screens/auth/PinSetupScreen.tsx:37-56 | a full PIN moves step 1 to 2; a full confirmation reports match exactly when the two PINs are equal; otherwise nothing happens |
| PinSetup.PinSetupScreen.AcknowledgeMismatch | src/screens/auth/PinSetupScreen.tsx:46-53 | back to step 1 with both buffers cleared |
| SendMoney.SelectionText | src/screens/send/SendMoneyScreen.tsx:48-53 | the text a selection writes into the field is long enough to set off a search again |
| SendMoney.AmountRefusal | src/screens/send/SendMoneyScreen.tsx:73-87 | the step-2 amount checks; SendMoney.AmountRefusalIff states exactly which parsed amounts pass |
| SendMoney.AmountRefusalIff | src/screens/send/SendMoneyScreen.tsx:73-87 | a parsed amount passes the step-2 checks exactly when it lies in (0, balance] |
| SendMoney.NonPositiveAmountRefused | src/screens/send/SendMoneyScreen.tsx:73-79 | zero or a negative number is refused as invalid, whatever the balance |
| SendMoney.LoneDotPassesAmountCheck | src/screens/send/SendMoneyScreen.tsx:73-87 | "." is a value the field accepts, parses to NaN and passes both checks |
| SendMoney.OverBalanceScenario | src/screens/send/SendMoneyScreen.tsx:81-87 | 1500 against a balance of 1000 is refused for insufficient balance |
| SendMoney.WithinBalanceScenario | src/screens/send/SendMoneyScreen.tsx:81-87 | 500 against a balance of 1000 passes both checks |
| SendMoney.DisabledOnlyWhenRefused | src/screens/send/SendMoneyScreen.tsx:404-407 | a disabled Continue button only hides a press that the handler would refuse anyway |
| SendMoney.SendMoneyScreen.constructor | src/screens/send/SendMoneyScreen.tsx:20-27 | step 1, every field empty, nothing selected |
| SendMoney.SendMoneyScreen.SetRecipientText | src/screens/send/SendMoneyScreen.tsx:205 | only the recipient text changes |
| SendMoney.SendMoneyScreen.SearchEffect | src/screens/send/SendMoneyScreen.tsx:29-46 | a search runs exactly for text longer than 2; short text clears the results; a found list replaces them; a failure keeps them |
| SendMoney.SendMoneyScreen.HandleRecipientSelect | src/screens/send/SendMoneyScreen.tsx:48-53 | the user is selected, the field shows SelectionText, the results are cleared and step 2 begins; amount, PIN and note are kept |
| SendMoney.SendMoneyScreen.HandleAmountChange | src/screens/send/SendMoneyScreen.tsx:55-59 | the field keeps exactly the digits and dots typed, in order |
| SendMoney.SendMoneyScreen.HandleQuickAmount | src/screens/send/SendMoneyScreen.tsx:270-274 | the field becomes the button's amount |
| SendMoney.SendMoneyScreen.SetDescription | src/screens/send/SendMoneyScreen.tsx:263 | the note becomes the typed text |
| SendMoney.SendMoneyScreen.HandleContinue | src/screens/send/SendMoneyScreen.tsx:61-93 | step 1 advances only with a recipient; step 2 advances exactly when AmountRefusal passes against the balance (0 without a wallet) and reports its message otherwise; step 3 goes to 4; step 4 stays |
| SendMoney.SendMoneyScreen.HandlePinInput | src/screens/send/SendMoneyScreen.tsx:95-99 | the PIN becomes Press of the old PIN |
| SendMoney.SendMoneyScreen.HandlePinBackspace | src/screens/send/SendMoneyScreen.tsx:101-103 | the PIN becomes Backspace of the old PIN |
| SendMoney.SendMoneyScreen.HandleSendMoney | src/screens/send/SendMoneyScreen.tsx:105-143 | without 4 digits nothing is sent and the PIN error is shown; otherwise recipient, parsed amount, note and PIN are sent, loading ends, success keeps the PIN and failure clears it with the server's or the default message |
| SendMoney.SendMoneyScreen.Back | src/screens/send/SendMoneyScreen.tsx:362-368 | from steps 2 to 4 the step goes back by one; from step 1 the screen is left |
| QRScanner.SplitName | src/screens/qr/QRScannerScreen.tsx:68-69 | the first name is the text up to the first space; the last name is the space-free text after it up to the next space, or "" when there is no space |
| QRScanner.SplitNameOfOneWord | src/screens/qr/QRScannerScreen.tsx:68-69 | a name without spaces is all first name, with an empty last name |
| QRScanner.SplitNameOfTwoWords | src/screens/qr/QRScannerScreen.tsx:68-69 | "first last" splits back into its two parts |
| QRScanner.SplitNameDropsExtraWords | src/screens/qr/QRScannerScreen.tsx:68-69 | words after the second are lost |
| QRScanner.PaymentPrompt | src/screens/qr/QRScannerScreen.tsx:77 | the alert starts "Pay <amount part> to " and ends " to <merchant part>?" |
| QRScanner.AmountText | src/screens/qr/QRScannerScreen.tsx:77 | "KES <amount>" for a truthy amount, else 'amount' |
| QRScanner.MerchantText | src/screens/qr/QRScannerScreen.tsx:77 | the merchant name when truthy, else 'merchant' |
| QRScanner.PaymentPromptFallbacks | src/screens/qr/QRScannerScreen.tsx:77 | for every payload: "Pay KES <amount> to " for a truthy amount, else "Pay amount to "; " to <merchant>?" for a truthy merchant name, else " to merchant?" |
| QRScanner.PromptWithAmountAndMerchant | src/screens/qr/QRScannerScreen.tsx:77 | an amount and a merchant give "Pay KES 500 to Java House?" |
| QRScanner.PromptWithZeroAmount | src/screens/qr/QRScannerScreen.tsx:77 | a zero amount is falsy and reads as 'amount', and a missing merchant as 'merchant' |
| QRScanner.Classify | src/screens/qr/QRScannerScreen.tsx:60-92 | a 'receive' object goes to Send with its id, split name and phone; a 'payment' object prompts with its fields; everything else, unparsable text included, is invalid |
| QRScanner.QRScannerScreen.constructor | src/screens/qr/QRScannerScreen.tsx:21-22 | not scanned; torch off |
| QRScanner.QRScannerScreen.HandleBarCodeRead | src/screens/qr/QRScannerScreen.tsx:54-93 | while a code is being handled a read is ignored; otherwise the gate closes and the code is classified |
| QRScanner.QRScannerScreen.CancelPayment | src/screens/qr/QRScannerScreen.tsx:79 | Cancel reopens the gate |
| QRScanner.QRScannerScreen.DismissInvalid | src/screens/qr/QRScannerScreen.tsx:90 | OK on the invalid alert reopens the gate |
| QRScanner.QRScannerScreen.Pay | src/screens/qr/QRScannerScreen.tsx:95-100 | the payment object is forwarded unchanged; the gate stays closed |
| QRScanner.QRScannerScreen.ToggleFlash | src/screens/qr/QRScannerScreen.tsx:102-104 | the torch flips |
| ReceiveMoney.Show | src/screens/receive/ReceiveMoneyScreen.tsx:30 | a template literal prints a present field as itself and a missing one as "undefined" |
| ReceiveMoney.GenerateQRCode | src/screens/receive/ReceiveMoneyScreen.tsx:26-34 | the code is tagged 'receive' and named "first last"; it carries id and phone exactly when signed in; it has no other keys |
| ReceiveMoney.GeneratedCodeIsReceive | src/screens/receive/ReceiveMoneyScreen.tsx:26-34 | every generated code scans as a receive code |
| ReceiveMoney.ScanRoundTrip | src/screens/receive/ReceiveMoneyScreen.tsx:26-34 | scanning a user's code gives back that user's id, first and last name and phone, when the names hold no space |
| ReceiveMoney.ScanSignedOutCode | src/screens/receive/ReceiveMoneyScreen.tsx:26-34 | a signed-out code scans to a recipient named "undefined undefined" with no id and no phone |
| ReceiveMoney.ShareMessage | src/screens/receive/ReceiveMoneyScreen.tsx:38 | the shared text starts "Send money to " and contains the first name, last name and phone |
| AddCard.GroupFoursIsSpaced | src/screens/cards/AddCardScreen.tsx:32-38 | the regex grouping equals the spaced groups plus the trailing space a complete last group gets |
| AddCard.SpacedEnds | src/screens/cards/AddCardScreen.tsx:32-38 | spaced text starts and ends with characters of the input |
| AddCard.TrimOfPadded | src/screens/cards/AddCardScreen.tsx:32-38 | trim removes exactly the one padding space |
| AddCard.RemoveWhitespaceOfSpaced | src/screens/cards/AddCardScreen.tsx:32-38 | removing the spaces of spaced text gives back its characters |
| AddCard.SpacedLength | src/screens/cards/AddCardScreen.tsx:32-38 | spaced text has one space per extra group of four |
| AddCard.TakeSpaced | src/screens/cards/AddCardScreen.tsx:32-38 | cutting spaced text to 5k−1 characters keeps exactly the first k groups |
| AddCard.FormatCardNumberIsSpaced | src/screens/cards/AddCardScreen.tsx:32-38 | the mask is the first 16 non-space characters in groups of four |
| AddCard.FormatCardNumber | src/screens/cards/AddCardScreen.tsx:32-38 | the card-number mask; what it keeps is stated by AddCard.CardNumberMask and AddCard.FormatCardNumberIsSpaced, and that it is stable by AddCard.CardNumberMaskIdempotent |
| AddCard.CardNumberMask | src/screens/cards/AddCardScreen.tsx:32-38 | the masked number has at most 19 characters, keeps the first 16 non-space characters typed, and neither starts nor ends with a space |
| AddCard.CardNumberMaskIdempotent | src/screens/cards/AddCardScreen.tsx:32-38 | masking a masked number changes nothing |
| AddCard.FormatExpiryOfFirstFour | src/screens/cards/AddCardScreen.tsx:41-46 | the expiry mask is built from the first four digits typed |
| AddCard.KeepDigitsOfExpiry | src/screens/cards/AddCardScreen.tsx:41-46 | the digits of a masked expiry are the first four digits typed |
| AddCard.KeepDigitsAroundSlash | src/screens/cards/AddCardScreen.tsx:41-46 | the slash adds no digits |
| AddCard.FormatExpiry | src/screens/cards/AddCardScreen.tsx:41-46 | the expiry mask; AddCard.FormatExpiryOfFirstFour and AddCard.KeepDigitsOfExpiry state that it is built from the first four digits typed |
| AddCard.ExpiryMaskIdempotent | src/screens/cards/AddCardScreen.tsx:41-46 | masking a masked expiry changes nothing |
| AddCard.MaskedExpiryWellFormedIff | src/screens/cards/AddCardScreen.tsx:77-80 | a masked expiry matches MM/YY exactly when four digits were typed |
| AddCard.FormatCvv | src/screens/cards/AddCardScreen.tsx:49-51 | the CVV field holds the first four digits typed, and only digits |
| AddCard.CardData.With | src/screens/cards/AddCardScreen.tsx:58 | the edited field takes the value; every other field is kept |
| AddCard.Errors.Cleared | src/screens/cards/AddCardScreen.tsx:60-63 | the edited field's error is gone; the other errors are kept |
| AddCard.CardNumberError | src/screens/cards/AddCardScreen.tsx:70-75 | a number passes exactly with 13 to 19 non-space characters; with none it is "required" |
| AddCard.ExpiryError | src/screens/cards/AddCardScreen.tsx:77-94 | an expiry passes exactly when it is MM/YY with month 1..12 and not before the current month; empty is "required" |
| AddCard.CvvError | src/screens/cards/AddCardScreen.tsx:97-101 | a CVV passes exactly with at least 3 characters |
| AddCard.RequiredErrorIff | src/screens/cards/AddCardScreen.tsx:103-111 | a required field passes exactly when its trimmed text is non-empty, that is when it holds a non-white-space character |
| AddCard.BlankIff | src/screens/cards/AddCardScreen.tsx:103-111 | a text is blank exactly when every character is white space |
| AddCard.TrimAllWhitespaceIff | src/screens/cards/AddCardScreen.tsx:103-111 | trim gives "" exactly for all-white-space text |
| AddCard.ValidateCard | src/screens/cards/AddCardScreen.tsx:66-115 | one error per field from that field's rule; AddCard.ValidateCardIff states when the record is empty |
| AddCard.RequiredError | src/screens/cards/AddCardScreen.tsx:103-111 | the holder-name and bank-name rule; AddCard.RequiredErrorIff states exactly when it passes |
| AddCard.ValidateCardIff | src/screens/cards/AddCardScreen.tsx:66-115 | the form is valid exactly when all five rules pass |
| AddCard.MaskedNumberNeverTooLong | src/screens/cards/AddCardScreen.tsx:70-75 | a number typed through the mask never fails as too long |
| AddCard.DetectCardType | src/screens/cards/AddCardScreen.tsx:117-126 | with white space removed, the brand is Visa exactly for a leading 4, Mastercard exactly for 51 to 55, American Express exactly for 34 or 37, Discover exactly for a leading 6, and Unknown exactly when none of these applies |
| AddCard.BrandOfFirstTwo | src/screens/cards/AddCardScreen.tsx:117-126 | the brand depends only on the first two characters |
| AddCard.DetectCardTypeAfterMask | src/screens/cards/AddCardScreen.tsx:117-126 | the brand of the masked number is the brand of what was typed |
| AddCard.CardColor | src/screens/cards/AddCardScreen.tsx:183-195 | brands other than the three known ones are drawn grey |
| AddCard.SubmissionOf | src/screens/cards/AddCardScreen.tsx:140-146 | the request carries the form with the number's white space removed, and the detected brand |
| AddCard.AddCardForm.constructor | src/screens/cards/AddCardScreen.tsx:18-26 | empty form, no errors, not loading |
| AddCard.FormatField | src/screens/cards/AddCardScreen.tsx:28-58 | the mask each field applies (upper case for the holder name, none for the bank); AddCard.FormatFieldIdempotent states that each is stable |
| AddCard.FormatFieldIdempotent | src/screens/cards/AddCardScreen.tsx:28-58 | every field's mask leaves an already masked value unchanged, so retyping through the field is stable |
| AddCard.AddCardForm.HandleInputChange | src/screens/cards/AddCardScreen.tsx:28-64 | the field takes its masked value and loses its error; everything else is kept |
| AddCard.AddCardForm.HandleAddCard | src/screens/cards/AddCardScreen.tsx:128-167 | the errors become the validation's; an invalid form sends nothing; a valid one sends SubmissionOf and reports the reply's message or the default |
| TopUp.AmountValue | src/screens/topup/TopUpScreen.tsx:61 | an empty field has no value (NaN) |
| TopUp.TopUpRefusal | src/screens/topup/TopUpScreen.tsx:61-86 | the top-up checks in order; TopUp.TopUpRefusalIff and TopUp.TopUpRefusalOrder state them |
| TopUp.TopUpRefusalIff | src/screens/topup/TopUpScreen.tsx:61-86 | an amount passes exactly when it is a number from 10 to 150000 |
| TopUp.TopUpRefusalOrder | src/screens/topup/TopUpScreen.tsx:61-86 | zero is invalid rather than too small; too small and too large give their own messages |
| TopUp.EnabledButtonOnlyFailsMaximum | src/screens/topup/TopUpScreen.tsx:303 | with the button enabled only the maximum check can still fail |
| TopUp.ButtonDisabled | src/screens/topup/TopUpScreen.tsx:303 | the button's disabled rule; TopUp.DisabledIffRefusedBelowMinimum ties it to the checks |
| TopUp.DisabledIffRefusedBelowMinimum | src/screens/topup/TopUpScreen.tsx:303 | the idle button is disabled exactly for the amounts the first two checks refuse |
| TopUp.TopUpScreen.constructor | src/screens/topup/TopUpScreen.tsx:20-23 | empty amount, the user's phone or "", M-Pesa selected |
| TopUp.TopUpScreen.HandleAmountChange | src/screens/topup/TopUpScreen.tsx:51-54 | the field keeps only the digits typed |
| TopUp.TopUpScreen.HandleQuickAmount | src/screens/topup/TopUpScreen.tsx:56-58 | the field's text reads back as the chosen amount |
| TopUp.TopUpScreen.SetPhoneNumber | src/screens/topup/TopUpScreen.tsx:266 | the phone field becomes the typed text |
| TopUp.TopUpScreen.SelectMethod | src/screens/topup/TopUpScreen.tsx:227 | the chosen method is selected |
| TopUp.TopUpScreen.HandleTopUp | src/screens/topup/TopUpScreen.tsx:60-138 | a refused amount reports its message and sends nothing; M-Pesa sends amount, phone and 'mpesa' and reports the reply; card and bank send nothing; loading ends after every attempt past the checks |
| Register.RegisterForm.With | src/screens/auth/RegisterScreen.tsx:32-34 | the edited field takes the value; every other field is kept |
| Register.ValidEmail | src/screens/auth/RegisterScreen.tsx:66-74 | the email check; Register.ValidEmailIff states that it agrees with the pattern |
| Register.ValidEmailIff | src/screens/auth/RegisterScreen.tsx:66-74 | the executable email check accepts exactly the addresses the pattern matches |
| Register.ValidEmailMatches | src/screens/auth/RegisterScreen.tsx:66-74 | an accepted address matches the pattern |
| Register.PatternPassesCheck | src/screens/auth/RegisterScreen.tsx:66-74 | an address matching the pattern is accepted |
| Register.KenyanPhone | src/screens/auth/RegisterScreen.tsx:76-84 | the phone check; Register.KenyanPrefixesAgree and Register.KenyanPhoneLength state what it accepts |
| Register.KenyanPrefixesAgree | src/screens/auth/RegisterScreen.tsx:76-84 | '0' and '+254' admit the same subscriber numbers |
| Register.KenyanPhoneLength | src/screens/auth/RegisterScreen.tsx:76-84 | an accepted number has 10 or 13 characters |
| Register.ValidateForm | src/screens/auth/RegisterScreen.tsx:36-87 | the first failing check's message; Register.ValidateFormIff and Register.ValidateFormOrder state it |
| Register.ValidateFormIff | src/screens/auth/RegisterScreen.tsx:36-87 | the form passes exactly when all fields are filled, the passwords match and have at least 6 characters, and the email and phone match their patterns |
| Register.ValidateFormOrder | src/screens/auth/RegisterScreen.tsx:36-87 | a missing field is reported first, and each later message implies that the earlier checks passed |
| Register.RegisterDataOf | src/screens/auth/RegisterScreen.tsx:94-95 | the submission carries every field except the confirmation |
| Register.RegisterScreen.constructor | src/screens/auth/RegisterScreen.tsx:19-28 | empty form, not loading |
| Register.RegisterScreen.HandleInputChange | src/screens/auth/RegisterScreen.tsx:32-34 | one field takes the typed value |
| Register.RegisterScreen.HandleRegister | src/screens/auth/RegisterScreen.tsx:89-110 | an invalid form shows its first failure and submits nothing; a valid form submits RegisterDataOf and reports the session's failure message |
| Cards.SetDefault | src/screens/cards/CardsScreen.tsx:83-86 | same cards in the same order, each otherwise unchanged, and a card is default exactly when it has the chosen id |
| Cards.SetDefaultSingle | src/screens/cards/CardsScreen.tsx:83-86 | with unique ids exactly one card is default afterwards: the chosen one |
| Cards.SetDefaultIdempotent | src/screens/cards/CardsScreen.tsx:83-86 | setting the same default twice changes nothing more |
| Cards.RemoveCard | src/screens/cards/CardsScreen.tsx:118 | no card with the id remains, and every other card stays |
| Cards.RemoveCardKeepsOrder | src/screens/cards/CardsScreen.tsx:118 | the remaining cards keep their order |
| Cards.RemoveAbsentCard | src/screens/cards/CardsScreen.tsx:118 | removing an id no card has changes nothing |
| Cards.OffersAfterSetDefault | src/screens/cards/CardsScreen.tsx:202 | afterwards "Set Default" is offered on every card except the chosen one |
| Cards.CardGradient | src/screens/cards/CardsScreen.tsx:140-151 | the card face gradient for a brand name; Cards.CardGradientTable states the whole table |
| Cards.CardGradientIgnoresCase | src/screens/cards/CardsScreen.tsx:140-151 | the gradient ignores case |
| Cards.CardGradientTable | src/screens/cards/CardsScreen.tsx:140-151 | each brand gradient goes to exactly the names that lower-case to its brand; every other name gets the default |
| Cards.GradientOfVisa | src/screens/cards/CardsScreen.tsx:140-151 | the stored brand name "Visa" gets the Visa gradient |
| Cards.GradientOfAmericanExpress | src/screens/cards/CardsScreen.tsx:140-151 | "American Express" gets the default gradient, because the table matches 'amex' |
| Cards.NoBrandOfOtherLength | src/screens/cards/CardsScreen.tsx:140-151 | a type name that is neither 4 nor 10 characters long gets the default gradient |
| Cards.CardsScreen.constructor | src/screens/cards/CardsScreen.tsx:28-30 | no cards, not loading |
| Cards.CardsScreen.LoadCards | src/screens/cards/CardsScreen.tsx:58-69 | the two sample cards are shown |
| Cards.CardsScreen.HandleSetDefault | src/screens/cards/CardsScreen.tsx:77-102 | the cards become SetDefault of the old cards |
| Cards.CardsScreen.ConfirmRemoveCard | src/screens/cards/CardsScreen.tsx:104-135 | the cards become RemoveCard of the old cards |
| Age.AgeOf | src/screens/notifications/NotificationsScreen.tsx:126-143 | each bucket holds exactly its range of ages: under a minute, 1–59 minutes, 1–23 hours, 1–6 days, or a week and over |
| Age.AgeMonotone | src/screens/notifications/NotificationsScreen.tsx:126-143 | an older item never falls in a younger bucket, nor shows a smaller count in the same bucket |
| Age.AgeEdges | src/screens/notifications/NotificationsScreen.tsx:126-143 | the bucket edges fall at 60000, 3600000, 86400000 and 604800000 ms |
| Age.NotificationLabel | src/screens/notifications/NotificationsScreen.tsx:126-143 | a label is made exactly for ages under a week |
| Age.ChatLabel | src/screens/chat/ChatListScreen.tsx:98-114 | a label is made exactly for ages under a week |
| Notifications.UnreadCount | src/screens/notifications/NotificationsScreen.tsx:145 | the number of unread notifications; Notifications.UnreadCountZeroIff and Notifications.MarkAsReadCount state how it behaves |
| Notifications.UnreadCountZeroIff | src/screens/notifications/NotificationsScreen.tsx:145 | the count is 0 exactly when every notification is read |
| Notifications.MarkAsRead | src/screens/notifications/NotificationsScreen.tsx:104-112 | the item with the id becomes read; everything else is unchanged |
| Notifications.MarkAsReadCount | src/screens/notifications/NotificationsScreen.tsx:104-112 | the unread count drops by exactly the number of unread items with that id |
| Notifications.MarkUnreadLowersCountByOne | src/screens/notifications/NotificationsScreen.tsx:104-112 | with unique ids, marking an unread item lowers the count by one |
| Notifications.OnlyOneWithId | src/screens/notifications/NotificationsScreen.tsx:104-112 | with unique ids an unread item is the only unread one with its id |
| Notifications.MarkAllAsRead | src/screens/notifications/NotificationsScreen.tsx:114-118 | every item becomes read and is otherwise unchanged |
| Notifications.MarkAllLeavesNothingUnread | src/screens/notifications/NotificationsScreen.tsx:193 | afterwards nothing is unread and the button is hidden |
| Notifications.MarkAllIdempotent | src/screens/notifications/NotificationsScreen.tsx:114-118 | marking all twice is the same as once |
| Notifications.DeleteNotification | src/screens/notifications/NotificationsScreen.tsx:120-124 | no item with the id remains, and every other item stays |
| Notifications.DeleteKeepsOrder | src/screens/notifications/NotificationsScreen.tsx:120-124 | the remaining items keep their order |
| Notifications.FormatTimestamp | src/screens/notifications/NotificationsScreen.tsx:126-143 | a relative label exactly for items under a week old |
| Notifications.FormatTimestampMinutes | src/screens/notifications/NotificationsScreen.tsx:126-143 | items 1–59 minutes old read "<n>m ago" with n whole minutes |
| Notifications.SampleUnreadCount | src/screens/notifications/NotificationsScreen.tsx:36-87 | the samples hold two unread notifications |
| Notifications.SampleLabelsAtLoadTime | src/screens/notifications/NotificationsScreen.tsx:36-87 | at load time the samples read 5m ago, 30m ago, 2h ago, 6h ago and 1d ago |
| Notifications.NotificationsScreen.constructor | src/screens/notifications/NotificationsScreen.tsx:28-33 | no items; the transaction, security and system switches on, promotions off |
| Notifications.NotificationsScreen.LoadNotifications | src/screens/notifications/NotificationsScreen.tsx:93-96 | the samples are shown |
| Notifications.NotificationsScreen.HandleMarkAsRead | src/screens/notifications/NotificationsScreen.tsx:104-112 | the list becomes MarkAsRead of the old list, and the count never rises |
| Notifications.NotificationsScreen.HandleMarkAllAsRead | src/screens/notifications/NotificationsScreen.tsx:114-118 | the list becomes MarkAllAsRead and the count is 0 |
| Notifications.NotificationsScreen.HandleDelete | src/screens/notifications/NotificationsScreen.tsx:120-124 | the list becomes DeleteNotification of the old list |
| Notifications.NotificationsScreen.SetSetting | src/screens/notifications/NotificationsScreen.tsx:217-279 | one switch takes the value; the others are kept |
| Transactions.Visible | src/screens/transactions/TransactionsScreen.tsx:60-78 | the transactions the list shows; Transactions.VisibleIff states exactly which |
| Transactions.VisibleIff | src/screens/transactions/TransactionsScreen.tsx:60-78 | a transaction is listed exactly when it matches the chip ('all' or its type) and the query (empty, or found in the lower-cased description or party name) |
| Transactions.VisibleKeepsOrder | src/screens/transactions/TransactionsScreen.tsx:60-78 | the list keeps the loaded order |
| Transactions.NothingFiltered | src/screens/transactions/TransactionsScreen.tsx:60-78 | with no query and 'all' everything is listed |
| Transactions.ChipShowsOnlyItsType | src/screens/transactions/TransactionsScreen.tsx:64-66 | a type chip lists only transactions of that type |
| Transactions.UnnamedNeverMatches | src/screens/transactions/TransactionsScreen.tsx:69-75 | a transaction without a description or a named party never matches a query |
| Transactions.SearchIgnoresCase | src/screens/transactions/TransactionsScreen.tsx:69-75 | an upper-cased query lists the same transactions |
| Transactions.ListAmountColor | src/screens/transactions/TransactionsScreen.tsx:239-244 | red for a send, green for a receive, dark grey otherwise; TransactionDetails.ReceiptAgreesWithList ties it to the receipt |
| Transactions.AmountSign | src/screens/transactions/TransactionsScreen.tsx:248 | "-" exactly for a send, "+" otherwise |
| Transactions.ListStatusColor | src/screens/transactions/TransactionsScreen.tsx:268-273 | the status text colour; Transactions.ListStatusRedIff states when it is red |
| Transactions.ListStatusRedIff | src/screens/transactions/TransactionsScreen.tsx:255-275 | the badge is red exactly for statuses other than completed and pending |
| Transactions.KindIcon | src/screens/transactions/TransactionsScreen.tsx:84-97 | the icon per transaction type, stated by Transactions.KindTables |
| Transactions.KindColor | src/screens/transactions/TransactionsScreen.tsx:99-112 | the colour per transaction type, stated by Transactions.KindTables |
| Transactions.KindTables | src/screens/transactions/TransactionsScreen.tsx:84-112 | the four types have their own icon and colour, pairwise different; any other type is drawn with swap-horiz in grey |
| Transactions.TransactionsScreen.constructor | src/screens/transactions/TransactionsScreen.tsx:17-21 | empty list, no query, 'all' selected |
| Transactions.TransactionsScreen.FilterTransactions | src/screens/transactions/TransactionsScreen.tsx:60-78 | the shown list becomes Visible of the loaded list, query and chip |
| Transactions.TransactionsScreen.LoadTransactions | src/screens/transactions/TransactionsScreen.tsx:39-52 | a listed reply replaces the list; a failure keeps it and reports the load error |
| Transactions.TransactionsScreen.SetSearchQuery | src/screens/transactions/TransactionsScreen.tsx:60-78 | the query changes and the shown list follows it |
| Transactions.TransactionsScreen.SelectFilter | src/screens/transactions/TransactionsScreen.tsx:23-29 | the chip changes and the shown list follows it |
| TransactionDetails.FeeOrZero | src/screens/transactions/TransactionDetailsScreen.tsx:192 | a missing fee counts as 0 |
| TransactionDetails.Total | src/screens/transactions/TransactionDetailsScreen.tsx:199 | the total minus the fee is the amount |
| TransactionDetails.TotalCoversAmount | src/screens/transactions/TransactionDetailsScreen.tsx:199 | with a non-negative fee the total is at least the amount |
| TransactionDetails.TypeLabel | src/screens/transactions/TransactionDetailsScreen.tsx:177 | the first letter is upper-cased and the rest is kept |
| TransactionDetails.TypeLabelKeepsWord | src/screens/transactions/TransactionDetailsScreen.tsx:177 | the label is the same word up to case, and labelling twice changes nothing more |
| TransactionDetails.KnownTypeLabels | src/screens/transactions/TransactionDetailsScreen.tsx:177 | the four types read Send, Receive, Topup and Payment |
| TransactionDetails.StatusColor | src/screens/transactions/TransactionDetailsScreen.tsx:32-43 | the receipt's status colour, stated by TransactionDetails.StatusTables |
| TransactionDetails.StatusIcon | src/screens/transactions/TransactionDetailsScreen.tsx:45-56 | the receipt's status icon, stated by TransactionDetails.StatusTables |
| TransactionDetails.StatusTables | src/screens/transactions/TransactionDetailsScreen.tsx:32-56 | the three statuses have their own icon and colour and agree with the list; others are grey with 'help', where the list shows red |
| TransactionDetails.AmountColor | src/screens/transactions/TransactionDetailsScreen.tsx:156 | red for a send, green otherwise; TransactionDetails.ReceiptAgreesWithList compares it with the list |
| TransactionDetails.ReceiptAgreesWithList | src/screens/transactions/TransactionDetailsScreen.tsx:156-158 | the receipt and the list both draw exactly a send in red with a minus sign |
| TransactionDetails.ShowsDescription | src/screens/transactions/TransactionDetailsScreen.tsx:230-235 | the description row appears exactly when the description is truthy, so an empty one draws none |
| TransactionDetails.PartiesHeading | src/screens/transactions/TransactionDetailsScreen.tsx:238-242 | the section appears exactly when a party is present, headed "Recipient Details" exactly for a send |
| TransactionDetails.SendAgain | src/screens/transactions/TransactionDetailsScreen.tsx:293-299 | offered exactly for a send with a recipient, and it targets that recipient |
| TransactionDetails.SendAgainUnderRecipientHeading | src/screens/transactions/TransactionDetailsScreen.tsx:238-299 | whenever Send Again is offered the section is headed "Recipient Details" |
| ChatList.VisibleChats | src/screens/chat/ChatListScreen.tsx:85-96 | the chats the list shows; ChatList.VisibleChatsIff states exactly which |
| ChatList.VisibleChatsIff | src/screens/chat/ChatListScreen.tsx:85-96 | a chat is listed exactly when the query is empty or is found in its lower-cased name or last message |
| ChatList.VisibleChatsKeepOrder | src/screens/chat/ChatListScreen.tsx:85-96 | the list keeps the loaded order |
| ChatList.EmptyQueryMatchesAll | src/screens/chat/ChatListScreen.tsx:85-89 | the early return for an empty query agrees with the filter |
| ChatList.SearchIgnoresCase | src/screens/chat/ChatListScreen.tsx:85-96 | an upper-cased query lists the same chats |
| ChatList.FormatTimestamp | src/screens/chat/ChatListScreen.tsx:98-114 | "now" under a minute; a label exactly for chats under a week old |
| ChatList.FormatTimestampHours | src/screens/chat/ChatListScreen.tsx:98-114 | chats 1–23 hours old read "<n>h" |
| Text.Initials | src/screens/chat/ChatListScreen.tsx:116-123 | the avatar placeholder is the first two word starts of the name, upper-cased, for every name (leading, doubled and trailing spaces add nothing); the contact list uses the same rule (src/screens/contacts/ContactsScreen.tsx:185-192) |
| Text.FirstLettersOfSplit | src/screens/chat/ChatListScreen.tsx:116-123 | the first characters of the pieces of `split(' ')` are exactly the word starts of the name |
| ChatList.InitialsOfSampleName | src/screens/chat/ChatListScreen.tsx:116-123 | "John Doe" gives "JD" |
| ChatList.ChatIcon | src/screens/chat/ChatListScreen.tsx:125-134 | the avatar icon per chat type, stated by ChatList.ChatIconTables |
| ChatList.ChatIconColor | src/screens/chat/ChatListScreen.tsx:136-145 | the avatar colour per chat type, stated by ChatList.ChatIconTables |
| ChatList.ChatIconTables | src/screens/chat/ChatListScreen.tsx:125-145 | everything except support and group is a grey person; support and group differ in icon and colour |
| ChatList.Badge | src/screens/chat/ChatListScreen.tsx:187-192 | no badge exactly at 0; up to 99 the badge reads back as the count; "99+" exactly above 99 |
| ChatList.ChatListScreen.constructor | src/screens/chat/ChatListScreen.tsx:17-20 | no chats and no query |
| ChatList.ChatListScreen.FilterChats | src/screens/chat/ChatListScreen.tsx:85-96 | the shown list becomes VisibleChats of the chats and query |
| ChatList.ChatListScreen.LoadChats | src/screens/chat/ChatListScreen.tsx:74-77 | the sample chats are loaded |
| ChatList.ChatListScreen.SetSearchQuery | src/screens/chat/ChatListScreen.tsx:70-72 | the query changes and the shown list follows it |
| ChatList.ChatListScreen.OpenChat | src/screens/chat/ChatListScreen.tsx:149 | the chat opens with its own id and name |
| ChatView.SenderId | src/screens/chat/ChatScreen.tsx:94 | never empty; the user's id when there is one |
| ChatView.Outgoing | src/screens/chat/ChatScreen.tsx:90-97 | a text message holding the trimmed input, stamped now |
| ChatView.IsMe | src/screens/chat/ChatScreen.tsx:162 | a bubble is the user's own when its sender is the user's id or 'me'; ChatView.OutgoingIsMine, ChatView.SupportReply and ChatView.SampleSides state it |
| ChatView.SampleSides | src/screens/chat/ChatScreen.tsx:162 | in the sample conversation the user's two messages are drawn as theirs and the other party's two are not (when the user's id is not the other party's) |
| ChatView.OutgoingIsMine | src/screens/chat/ChatScreen.tsx:90-97 | the user's own message is drawn as theirs |
| ChatView.OutgoingIsTrimmed | src/screens/chat/ChatScreen.tsx:90-97 | a sent text has no white space at either end |
| ChatView.SupportReply | src/screens/chat/ChatScreen.tsx:107-114 | a support text that is never drawn as the user's own |
| ChatView.AsWrittenShowsOnlyFirst | src/screens/chat/ChatScreen.tsx:163-164 | in a chronological list the code shows a time above the first message only |
| ChatView.AsWrittenHidesGap | src/screens/chat/ChatScreen.tsx:163-164 | two messages 10 minutes apart get no time separator |
| ChatView.ShowTimestamp | src/screens/chat/ChatScreen.tsx:163-164 | a time shows exactly above the first message and after a gap over 5 minutes |
| ChatView.EveryGapSeparated | src/screens/chat/ChatScreen.tsx:163-164 | in a chronological list, every message more than 5 minutes after the one before gets a separator under the corrected rule and none as written; the corrected rule adds no other |
| ChatView.SampleTimestamps | src/screens/chat/ChatScreen.tsx:38-76 | the samples show times at messages 0, 1 and 2 and not at 3 |
| ChatView.PaymentStatusText | src/screens/chat/ChatScreen.tsx:197 | "Payment sent" exactly for a completed payment, "Payment pending" otherwise |
| ChatView.PaymentStatusIcon | src/screens/chat/ChatScreen.tsx:201 | the check icon exactly when the payment is shown as sent |
| ChatView.ChatScreen.constructor | src/screens/chat/ChatScreen.tsx:30-35 | the route's chat, no messages, empty input |
| ChatView.ChatScreen.LoadMessages | src/screens/chat/ChatScreen.tsx:82-85 | the sample messages are shown |
| ChatView.ChatScreen.SetInputText | src/screens/chat/ChatScreen.tsx:34 | the input becomes the typed text |
| ChatView.ChatScreen.SendMessage | src/screens/chat/ChatScreen.tsx:87-123 | blank input changes nothing; otherwise the outgoing message is appended, the input cleared, and typing starts exactly in a support chat |
| ChatView.ChatScreen.DeliverSupportReply | src/screens/chat/ChatScreen.tsx:103-117 | the support reply is appended and typing ends |
| Contacts.ContactName | src/screens/contacts/ContactsScreen.tsx:101 | the display name of a device contact; Contacts.ContactNameTidy and the ContactNameOf lemmas state it |
| Contacts.ContactNameTidy | src/screens/contacts/ContactsScreen.tsx:101 | the name has no white space at its ends; it is the trimmed join, or the fallback name |
| Contacts.ContactNameOfBoth | src/screens/contacts/ContactsScreen.tsx:101 | tidy given and family names give "given family" |
| Contacts.ContactNameOfFamilyOnly | src/screens/contacts/ContactsScreen.tsx:101 | a family name alone gives itself |
| Contacts.ContactNameOfGivenOnly | src/screens/contacts/ContactsScreen.tsx:101 | a given name alone gives itself |
| Contacts.ContactNameOfNeither | src/screens/contacts/ContactsScreen.tsx:101 | a contact with neither name is called 'Unknown' |
| Contacts.RowFields | src/screens/contacts/ContactsScreen.tsx:92-103 | a row has the record id, the name, the first phone without white space, and the flag |
| Contacts.Processed | src/screens/contacts/ContactsScreen.tsx:92-103 | the rows built from the device contacts; Contacts.KeptIff, Contacts.ProcessedCount and Contacts.RowFields state which and what they hold |
| Contacts.KeptIff | src/screens/contacts/ContactsScreen.tsx:92-103 | an entry is kept exactly when it is a device contact with a phone, paired with its own flag |
| Contacts.ProcessedCount | src/screens/contacts/ContactsScreen.tsx:92-103 | one row per device contact with a phone |
| Contacts.KeptCount | src/screens/contacts/ContactsScreen.tsx:92-103 | as many kept entries as device contacts with a phone |
| Contacts.ProcessedSnoc | src/screens/contacts/ContactsScreen.tsx:92-103 | one more device contact adds its row at the end when it has a phone, and nothing otherwise |
| Contacts.ProcessDeviceContacts | src/screens/contacts/ContactsScreen.tsx:92-103 | the loop builds exactly the rows of the device contacts with a phone, in device order, each with its own registration flag |
| Contacts.NameLeTotal | src/screens/contacts/ContactsScreen.tsx:112 | any two names are ordered one way or the other |
| Contacts.NameLeTransitive | src/screens/contacts/ContactsScreen.tsx:112 | the name order is transitive |
| Contacts.Before | src/screens/contacts/ContactsScreen.tsx:109-113 | the sort comparator; Contacts.BeforeTotal, Contacts.BeforeTransitive and Contacts.SortedGroups state its order |
| Contacts.BeforeTotal | src/screens/contacts/ContactsScreen.tsx:109-113 | any two contacts are ordered one way or the other |
| Contacts.BeforeTransitive | src/screens/contacts/ContactsScreen.tsx:109-113 | the contact order is transitive |
| Contacts.Insert | src/screens/contacts/ContactsScreen.tsx:109-113 | inserting into a sorted list gives a sorted permutation with the new contact |
| Contacts.SortContacts | src/screens/contacts/ContactsScreen.tsx:109-113 | a sorted permutation of the input |
| Contacts.SortedGroups | src/screens/contacts/ContactsScreen.tsx:109-113 | registered contacts come before unregistered ones, and names ascend within each group |
| Contacts.VisibleContacts | src/screens/contacts/ContactsScreen.tsx:127-138 | the contacts the search shows; Contacts.VisibleContactsIff states exactly which |
| Contacts.VisibleContactsIff | src/screens/contacts/ContactsScreen.tsx:127-138 | a contact is listed exactly when the query is empty or is found in the lower-cased name or the phone |
| Contacts.VisibleContactsStaySorted | src/screens/contacts/ContactsScreen.tsx:127-138 | a search of a sorted list is sorted |
| Contacts.SubsequenceSorted | src/screens/contacts/ContactsScreen.tsx:127-138 | part of a sorted list, in order, is sorted |
| Contacts.HandleContactSelect | src/screens/contacts/ContactsScreen.tsx:140-158 | registered contacts go to Send with their name and phone; others get an invite prompt naming them |
| Contacts.InviteMessage | src/screens/contacts/ContactsScreen.tsx:160-167 | "Invitation sent to " followed by exactly the name |
| Contacts.StartNewChat | src/screens/contacts/ContactsScreen.tsx:169-183 | a personal chat with the contact opens exactly for registered contacts |
| Contacts.ContactsScreen.constructor | src/screens/contacts/ContactsScreen.tsx:28-32 | nothing loaded; no permission |
| Contacts.ContactsScreen.FilterContacts | src/screens/contacts/ContactsScreen.tsx:127-138 | the shown list becomes VisibleContacts |
| Contacts.ContactsScreen.LoadContacts | src/screens/contacts/ContactsScreen.tsx:84-125 | loaded contacts become the sorted rows of the device contacts with a phone; a failed read keeps the list and reports the error |
| Contacts.ContactsScreen.RequestContactsPermission | src/screens/contacts/ContactsScreen.tsx:42-71 | the permission is remembered; a refusal shows the alert and changes nothing else; a grant loads the contacts and ends loading, a failed read keeping the rows and reporting the load error; the search text is never touched |
| Contacts.ContactsScreen.SetSearchQuery | src/screens/contacts/ContactsScreen.tsx:127-138 | the query changes and the shown list follows it |
| Text.Trim | src/screens/chat/ChatScreen.tsx:88 | the result has no white space at either end |
| Text.TrimIsSlice | src/screens/chat/ChatScreen.tsx:88 | the result is a slice of the input, and all it cut away on either side is white space |
| Text.NatToString | src/screens/topup/TopUpScreen.tsx:57 | `toString()` of a whole number: non-empty digits, with no leading zero except for 0 itself |
| Text.NatToStringRoundTrip | src/screens/topup/TopUpScreen.tsx:57 | the decimal text of a number reads back as that number |
| Text.ParseFloat | src/screens/send/SendMoneyScreen.tsx:73 | `parseFloat` of the amount field never gives a negative number, and gives NaN exactly when the text starts neither with a digit nor with '.' and a digit |
| Text.ParseFloatOfDecimal | src/screens/send/SendMoneyScreen.tsx:73 | text of the form digits '.' digits, with a digit on some side, parses to the integer part plus the fraction over the matching power of ten |
| Text.ParseFloatOfDigits | src/screens/topup/TopUpScreen.tsx:61 | parseFloat of a digit string is its value |
| Text.InitialsOfTwoNames | src/screens/contacts/ContactsScreen.tsx:185-192 | two words give their two upper-cased first letters |
| Text.Split | src/screens/qr/QRScannerScreen.tsx:68-69 | `split` gives at least one piece, no piece holds the separator, the first piece is the text up to the first separator (all of it when there is none) |
| Text.JoinSplit | src/screens/qr/QRScannerScreen.tsx:68-69 | joining the pieces of `split` with the separator gives back the text |
| Text.SplitRest | src/screens/qr/QRScannerScreen.tsx:68-69 | the pieces after the first are the split of what follows the first separator |
| Text.SplitTwoWords | src/screens/qr/QRScannerScreen.tsx:68-69 | splitting "a b" at spaces gives back a and b |

## Left out

- Rendering, styles, layout, navigation transitions, toasts and alert
  styling. Where an alert button changes state, the handler is modelled
  (`CancelPayment`, `DismissInvalid`, `AcknowledgeMismatch`).
- The camera and the Android permission dialogs. The answer is a parameter,
  and on iOS permission counts as granted. The vibration on scan is not
  modelled.
- JSON text. `JSON.stringify`/`JSON.parse` are an abstract `Codec`, and a
  scanned code arrives already parsed, or marked unreadable.
- Timers. The delayed support reply is its own method
  (`DeliverSupportReply`). The scroll-to-end and the refresh spinners are
  not modelled.
- Floating-point rounding. Amounts are `real` and `parseFloat` is exact on
  the text it reads.
- `toLocaleString`, `toLocaleDateString` and the currency and date
  formatters. Items a week old or more carry the `Dated` age with no text.
- `localeCompare` is modelled as code-unit order (`NameLe`). Locale
  collation rules are not modelled.
- Contacts.SortContacts: states a sorted permutation, not the stability of
  `Array.sort`.
- Case mapping beyond ASCII, and UTF-16 surrogate pairs. Characters are
  single code units.
- Storage write failures. `setItem`/`multiRemove` always succeed, while
  read failures are modelled.
- The endpoint table of src/services/api.ts. Each call is its reply value.
- The fulfilled side of the response interceptor (src/services/api.ts:31,
  `response => response.data`). Every handler's reply parameter is already
  that unwrapped body, so no member models the unwrapping itself.
- Api.OnRejected: the 401 branch starts `multiRemove` without waiting for it
  and rejects at once. The model removes the keys before the rejection is
  returned, so it does not capture a caller's catch block, or the next
  request's token read, running while the keys are still stored.
- Interleaving of asynchronous handlers. Each handler is one atomic step, so
  the model does not capture a second tap while `isLoading` is set, or the
  contact loader started without `await` at src/screens/contacts/ContactsScreen.tsx:57,68
  overlapping other handlers.
- `Math.random()` in the contact loader is the `registered` parameter.
- HomeScreen, ProfileScreen, SettingsScreen, LoadingScreen and App.tsx are
  not part of this model.
- The password-visibility toggles of the registration form.
- getCardIcon, in both AddCardScreen.tsx and CardsScreen.tsx
  (src/screens/cards/CardsScreen.tsx:153-160), answers 'credit-card' for every
  card type, so there is no logic to model.
- The amount field's `maxLength={6}` on the top-up screen
  (src/screens/topup/TopUpScreen.tsx:180): an input-widget limit on what can
  be typed, applied before `handleAmountChange`; the model accepts any text.
- A permission request that throws on Android
  (src/screens/contacts/ContactsScreen.tsx:62-64): the error is only logged,
  with no alert and `hasPermission` untouched. The model's
  `Contacts.ContactsScreen.RequestContactsPermission` takes the request's
  answer as a granted or refused flag and has no such third outcome.
- The receipt's share, download and report buttons.
- The chat's payment button, which only navigates to Send.
- The card list's backend calls, which are commented out in the source; the
  screen works on its sample cards.
- Session.AuthProvider.RefreshProfile: a failure is swallowed after the
  interceptor has run, and the logged error text is not modelled.

## Findings

| source | as written | input that shows it | evidently intended | confidence | as-written member | corrected member |
|---|---|---|---|---|---|---|
| src/screens/chat/ChatScreen.tsx:163-164 | a time separator shows when the previous message's time minus this message's time exceeds 5 minutes | two messages 10 minutes apart, oldest first (the order the list is kept in): no separator above the second | show it when this message is more than 5 minutes after the previous one | not executed; high | ChatView.AsWrittenHidesGap | ChatView.ShowTimestamp |

=== FILE: add_card.dfy ===
/** The add-card form (src/screens/cards/AddCardScreen.tsx): per-field input
    masks, the validation that builds an error per field, brand detection and
    the submission. The form's state (field values, errors, loading flag) is
    one object; the current date and the backend's reply are parameters. */
module AddCard {
  import opened Common
  import opened Text

  // ---------------------------------------------------------------------
  // Card number mask

  /** `.replace(/(.{4})/g, '$1 ')` on text without line breaks: a space after
      every complete group of four characters. */
  function GroupFours(s: string): string
    decreases |s|
  {
    if |s| < 4 then s else s[..4] + " " + GroupFours(s[4..])
  }

  /** Groups of four separated by single spaces, with no trailing space. */
  function Spaced(s: string): string
    decreases |s|
  {
    if |s| <= 4 then s else s[..4] + " " + Spaced(s[4..])
  }

  /** The card-number field's mask: white space removed, grouped by four,
      trimmed, cut to 19 characters. */
  function FormatCardNumber(value: string): string {
    Take(Trim(GroupFours(RemoveWhitespace(value))), 19)
  }

  /** `GroupFours` is `Spaced` plus the one trailing space a last complete group gets. */
  lemma {:induction false} GroupFoursIsSpaced(s: string)
    ensures GroupFours(s) == Spaced(s) + (if |s| > 0 && |s| % 4 == 0 then " " else "")
    decreases |s|
  {
    if |s| == 4 {
      assert s[4..] == [];
    } else if |s| > 4 {
      GroupFoursIsSpaced(s[4..]);
    }
  }

  /** The first and last character of `Spaced(s)` are characters of `s`. */
  lemma {:induction false} SpacedEnds(s: string)
    requires s != []
    ensures Spaced(s) != [] && Spaced(s)[0] == s[0] && Spaced(s)[|Spaced(s)| - 1] == s[|s| - 1]
    decreases |s|
  {
    if |s| > 4 {
      SpacedEnds(s[4..]);
    }
  }

  /** Trimming text whose ends are not white space, with at most one space
      appended, gives that text back. */
  lemma TrimOfPadded(x: string, pad: string)
    requires x == [] || (!IsWhitespace(x[0]) && !IsWhitespace(x[|x| - 1]))
    requires pad == "" || pad == " "
    requires x == [] ==> pad == ""
    ensures Trim(x + pad) == x
  {
    if x != [] {
      var s := x + pad;
      assert s[0] == x[0];
      assert TrimStart(s) == s;
      if pad == " " {
        assert s[|s| - 1] == ' ';
        assert s[..|s| - 1] == x;
        assert TrimEnd(s) == TrimEnd(x);
      } else {
        assert s == x;
      }
      assert TrimEnd(x) == x;
    }
  }

  /** Removing the spaces of a spaced group gives the characters back. */
  lemma {:induction false} RemoveWhitespaceOfSpaced(s: string)
    requires NoWhitespace(s)
    ensures RemoveWhitespace(Spaced(s)) == s
    decreases |s|
  {
    if |s| <= 4 {
      RemoveWhitespaceOfNone(s);
    } else {
      RemoveWhitespaceOfSpaced(s[4..]);
      RemoveWhitespaceOfNone(s[..4]);
      FilterConcat(s[..4] + " ", Spaced(s[4..]), IsNotWhitespace);
      FilterConcat(s[..4], " ", IsNotWhitespace);
      assert Filter(" ", IsNotWhitespace) == [] + Filter(" "[1..], IsNotWhitespace);
      assert s[..4] + s[4..] == s;
    }
  }

  /** The length of `Spaced(s)`: the characters plus one space per extra group. */
  lemma {:induction false} SpacedLength(s: string)
    ensures |Spaced(s)| == if s == [] then 0 else |s| + (|s| - 1) / 4
    decreases |s|
  {
    if |s| > 4 {
      SpacedLength(s[4..]);
    }
  }

  /** Cutting `Spaced(s)` to `5k - 1` characters keeps exactly the first `k` groups. */
  lemma {:induction false} TakeSpaced(s: string, k: nat)
    requires k >= 1
    ensures Take(Spaced(s), 5 * k - 1) == Spaced(Take(s, 4 * k))
    decreases k
  {
    if |s| <= 4 {
      assert Take(s, 4 * k) == s;
    } else if k == 1 {
      assert Take(s, 4) == s[..4];
    } else {
      TakeSpaced(s[4..], k - 1);
      var t := Take(s, 4 * k);
      assert |t| > 4 && t[..4] == s[..4] && t[4..] == Take(s[4..], 4 * (k - 1));
      assert Take(Spaced(s), 5 * k - 1) == s[..4] + " " + Take(Spaced(s[4..]), 5 * (k - 1) - 1);
    }
  }

  /** The mask keeps the first 16 non-space characters, grouped by four. */
  lemma FormatCardNumberIsSpaced(value: string)
    ensures FormatCardNumber(value) == Spaced(Take(RemoveWhitespace(value), 16))
  {
    var d := RemoveWhitespace(value);
    var pad: string := if |d| > 0 && |d| % 4 == 0 then " " else "";
    GroupFoursIsSpaced(d);
    assert GroupFours(d) == Spaced(d) + pad;
    assert Trim(GroupFours(d)) == Spaced(d) by {
      if d != [] {
        SpacedEnds(d);
      }
      TrimOfPadded(Spaced(d), pad);
    }
    TakeSpaced(d, 4);
    assert Take(Spaced(d), 19) == Spaced(Take(d, 16));
  }

  /** The mask's promises: at most 19 characters, of which at most 16 are not
      spaces (removing the spaces gives the first 16 non-space characters
      typed), never a space at either end. */
  lemma CardNumberMask(value: string)
    ensures |FormatCardNumber(value)| <= 19
    ensures RemoveWhitespace(FormatCardNumber(value)) == Take(RemoveWhitespace(value), 16)
    ensures var r := FormatCardNumber(value); r == [] || (r[0] != ' ' && r[|r| - 1] != ' ')
  {
    FormatCardNumberIsSpaced(value);
    var d := Take(RemoveWhitespace(value), 16);
    assert NoWhitespace(d);
    SpacedLength(d);
    RemoveWhitespaceOfSpaced(d);
    if d != [] {
      SpacedEnds(d);
    }
  }

  /** The field feeds its output back in: masking a masked number changes nothing. */
  lemma CardNumberMaskIdempotent(value: string)
    ensures FormatCardNumber(FormatCardNumber(value)) == FormatCardNumber(value)
  {
    CardNumberMask(value);
    FormatCardNumberIsSpaced(FormatCardNumber(value));
    FormatCardNumberIsSpaced(value);
  }

  // ---------------------------------------------------------------------
  // Expiry and CVV masks, holder name

  /** "MM/YY" from up to four digits: the slash goes after the first two
      digits once a third is there. */
  function SlashAfterMonth(e: string): string {
    if |e| >= 3 then e[..2] + "/" + e[2..] else e
  }

  /** The expiry field's mask: digits only, `/` after the first two when a
      third follows, cut to 5 characters. */
  function FormatExpiry(value: string): string {
    Take(SlashAfterMonth(KeepDigits(value)), 5)
  }

  /** The mask keeps the first four digits typed. */
  lemma FormatExpiryOfFirstFour(value: string)
    ensures FormatExpiry(value) == SlashAfterMonth(Take(KeepDigits(value), 4))
  {
    var e := KeepDigits(value);
    if |e| >= 3 {
      assert Take(e[..2] + "/" + e[2..], 5) == e[..2] + "/" + Take(e, 4)[2..];
    }
  }

  /** The digits of a masked expiry are the first four digits typed. */
  lemma KeepDigitsOfExpiry(value: string)
    ensures KeepDigits(FormatExpiry(value)) == Take(KeepDigits(value), 4)
  {
    FormatExpiryOfFirstFour(value);
    var e := Take(KeepDigits(value), 4);
    assert AllDigits(e);
    if |e| >= 3 {
      KeepDigitsAroundSlash(e[..2], e[2..]);
      assert e[..2] + e[2..] == e;
    } else {
      KeepDigitsOfDigits(e);
    }
  }

  /** The digits of "a/b" for digit strings a and b are a then b. */
  lemma KeepDigitsAroundSlash(a: string, b: string)
    requires AllDigits(a) && AllDigits(b)
    ensures KeepDigits(a + "/" + b) == a + b
  {
    var slash: string := "/";
    assert Filter(slash, IsDigit) == [] by {
      assert !IsDigit(slash[0]) && slash[1..] == [];
    }
    assert Filter(a + slash + b, IsDigit) == Filter(a, IsDigit) + Filter(slash, IsDigit) + Filter(b, IsDigit) by {
      FilterConcat(a, slash, IsDigit);
      FilterConcat(a + slash, b, IsDigit);
    }
    assert Filter(a, IsDigit) == a by {
      KeepDigitsOfDigits(a);
    }
    assert Filter(b, IsDigit) == b by {
      KeepDigitsOfDigits(b);
    }
  }

  /** Masking a masked expiry changes nothing. */
  lemma ExpiryMaskIdempotent(value: string)
    ensures FormatExpiry(FormatExpiry(value)) == FormatExpiry(value)
  {
    KeepDigitsOfExpiry(value);
    FormatExpiryOfFirstFour(FormatExpiry(value));
    FormatExpiryOfFirstFour(value);
  }

  /** `^\d{2}\/\d{2}$`. */
  predicate ExpiryWellFormed(s: string) {
    |s| == 5 && IsDigit(s[0]) && IsDigit(s[1]) && s[2] == '/' && IsDigit(s[3]) && IsDigit(s[4])
  }

  /** A masked expiry is well formed exactly when four digits were typed. */
  lemma MaskedExpiryWellFormedIff(value: string)
    ensures ExpiryWellFormed(FormatExpiry(value)) <==> |KeepDigits(value)| >= 4
  {
    FormatExpiryOfFirstFour(value);
  }

  /** The CVV field's mask: digits only, at most four. */
  function FormatCvv(value: string): (r: string)
    ensures AllDigits(r) && |r| <= 4
    ensures r == Take(KeepDigits(value), 4)
  {
    Take(KeepDigits(value), 4)
  }

  // ---------------------------------------------------------------------
  // The form

  datatype Field = CardNumber | ExpiryDate | Cvv | CardholderName | BankName

  datatype CardData = CardData(
    cardNumber: string, expiryDate: string, cvv: string, cardholderName: string, bankName: string)
  {
    function Get(f: Field): string {
      match f
      case CardNumber => cardNumber
      case ExpiryDate => expiryDate
      case Cvv => cvv
      case CardholderName => cardholderName
      case BankName => bankName
    }

    /** `{ ...prev, [field]: value }`. */
    function With(f: Field, value: string): (r: CardData)
      ensures r.Get(f) == value
      ensures forall g :: g != f ==> r.Get(g) == Get(g)
    {
      match f
      case CardNumber => this.(cardNumber := value)
      case ExpiryDate => this.(expiryDate := value)
      case Cvv => this.(cvv := value)
      case CardholderName => this.(cardholderName := value)
      case BankName => this.(bankName := value)
    }
  }

  const EmptyCard: CardData := CardData("", "", "", "", "")

  /** The error shown under each field, `None` for none. */
  datatype Errors = Errors(
    cardNumber: Option<string>, expiryDate: Option<string>, cvv: Option<string>,
    cardholderName: Option<string>, bankName: Option<string>)
  {
    function Get(f: Field): Option<string> {
      match f
      case CardNumber => cardNumber
      case ExpiryDate => expiryDate
      case Cvv => cvv
      case CardholderName => cardholderName
      case BankName => bankName
    }

    /** `{ ...prev, [field]: null }`. */
    function Cleared(f: Field): (r: Errors)
      ensures r.Get(f).None?
      ensures forall g :: g != f ==> r.Get(g) == Get(g)
    {
      match f
      case CardNumber => this.(cardNumber := None)
      case ExpiryDate => this.(expiryDate := None)
      case Cvv => this.(cvv := None)
      case CardholderName => this.(cardholderName := None)
      case BankName => this.(bankName := None)
    }

    /** `Object.keys(errors).length === 0` for the record `validateCard` builds. */
    predicate IsEmpty() {
      cardNumber.None? && expiryDate.None? && cvv.None? && cardholderName.None? && bankName.None?
    }
  }

  const NoErrors: Errors := Errors(None, None, None, None, None)

  /** The mask `handleInputChange` applies to a field; the bank name is taken as typed. */
  function FormatField(f: Field, value: string): string {
    match f
    case CardNumber => FormatCardNumber(value)
    case ExpiryDate => FormatExpiry(value)
    case Cvv => FormatCvv(value)
    case CardholderName => Upper(value)
    case BankName => value
  }

  /** Every field's mask is stable: the field feeds its own text back through
      the mask on the next keystroke, and a masked value comes back unchanged. */
  lemma FormatFieldIdempotent(f: Field, value: string)
    ensures FormatField(f, FormatField(f, value)) == FormatField(f, value)
  {
    match f
    case CardNumber => CardNumberMaskIdempotent(value);
    case ExpiryDate => ExpiryMaskIdempotent(value);
    case Cvv =>
      var r := FormatCvv(value);
      KeepDigitsOfDigits(r);
    case CardholderName =>
      var u := Upper(value);
      assert Upper(u) == u;
    case BankName =>
  }

  /** The card-number rule: some non-space characters, 13 to 19 of them. */
  function CardNumberError(cardNumber: string): (e: Option<string>)
    ensures e.None? <==> 13 <= |RemoveWhitespace(cardNumber)| <= 19
    ensures RemoveWhitespace(cardNumber) == "" ==> e == Some("Card number is required")
  {
    var digits := RemoveWhitespace(cardNumber);
    if digits == "" then Some("Card number is required")
    else if |digits| < 13 || |digits| > 19 then Some("Invalid card number")
    else None
  }

  /** The month and year of a well-formed expiry (`parseInt` of two digits). */
  function ExpiryMonth(s: string): nat
    requires ExpiryWellFormed(s)
  {
    DigitValue(s[0]) * 10 + DigitValue(s[1])
  }

  function ExpiryYear(s: string): nat
    requires ExpiryWellFormed(s)
  {
    DigitValue(s[3]) * 10 + DigitValue(s[4])
  }

  /** The expiry rule against the current full year and month (1..12): present,
      "MM/YY", a month in 1..12, and (year, month) not before (current year
      mod 100, current month). */
  function ExpiryError(expiry: string, currentYear: nat, currentMonth: nat): (e: Option<string>)
    ensures e.None? <==> (ExpiryWellFormed(expiry) && 1 <= ExpiryMonth(expiry) <= 12
      && (ExpiryYear(expiry) > currentYear % 100
          || (ExpiryYear(expiry) == currentYear % 100 && ExpiryMonth(expiry) >= currentMonth)))
    ensures expiry == "" ==> e == Some("Expiry date is required")
  {
    if expiry == "" then Some("Expiry date is required")
    else if !ExpiryWellFormed(expiry) then Some("Invalid expiry date format")
    else
      var month, year, thisYear := ExpiryMonth(expiry), ExpiryYear(expiry), currentYear % 100;
      if month < 1 || month > 12 then Some("Invalid month")
      else if year < thisYear || (year == thisYear && month < currentMonth) then Some("Card has expired")
      else None
  }

  /** The CVV rule: present and at least 3 characters. */
  function CvvError(cvv: string): (e: Option<string>)
    ensures e.None? <==> |cvv| >= 3
  {
    if cvv == "" then Some("CVV is required")
    else if |cvv| < 3 then Some("Invalid CVV")
    else None
  }

  /** Text made of white space only. */
  predicate Blank(s: string)
    decreases |s|
  {
    s == [] || (IsWhitespace(s[0]) && Blank(s[1..]))
  }

  lemma {:induction false} BlankIff(s: string)
    ensures Blank(s) <==> forall i :: 0 <= i < |s| ==> IsWhitespace(s[i])
    decreases |s|
  {
    if s != [] {
      BlankIff(s[1..]);
      assert forall i :: 1 <= i < |s| ==> s[i] == s[1..][i - 1];
    }
  }

  /** A name rule: `value.trim()` must not be empty, that is, the value must
      not be blank (`RequiredErrorIff`). */
  function RequiredError(value: string, message: string): Option<string> {
    if Blank(value) then Some(message) else None
  }

  /** A name passes exactly when its trim is not empty, which is exactly when it
      holds a character other than white space. */
  lemma RequiredErrorIff(value: string, message: string)
    ensures RequiredError(value, message).None? <==> Trim(value) != ""
    ensures RequiredError(value, message).None? <==> exists i :: 0 <= i < |value| && !IsWhitespace(value[i])
  {
    BlankIff(value);
    TrimAllWhitespaceIff(value);
  }

  /** `trim()` gives "" exactly for text made of white space. */
  lemma TrimAllWhitespaceIff(s: string)
    ensures Trim(s) == "" <==> forall i :: 0 <= i < |s| ==> IsWhitespace(s[i])
  {
    var t := TrimStart(s);
    if t != [] {
      assert t[0] == s[|s| - |t|];
    }
  }

  /** `validateCard`: every field's rule is checked, each giving that field's error. */
  function ValidateCard(card: CardData, currentYear: nat, currentMonth: nat): Errors {
    Errors(
      CardNumberError(card.cardNumber),
      ExpiryError(card.expiryDate, currentYear, currentMonth),
      CvvError(card.cvv),
      RequiredError(card.cardholderName, "Cardholder name is required"),
      RequiredError(card.bankName, "Bank name is required"))
  }

  /** The form is valid exactly when every rule passes: 13 to 19 card-number
      characters, a current or future "MM/YY" expiry, a CVV of at least 3,
      and names that are not blank. */
  lemma ValidateCardIff(card: CardData, currentYear: nat, currentMonth: nat)
    ensures ValidateCard(card, currentYear, currentMonth).IsEmpty() <==>
      (13 <= |RemoveWhitespace(card.cardNumber)| <= 19
      && ExpiryError(card.expiryDate, currentYear, currentMonth).None?
      && |card.cvv| >= 3
      && (exists i :: 0 <= i < |card.cardholderName| && !IsWhitespace(card.cardholderName[i]))
      && (exists i :: 0 <= i < |card.bankName| && !IsWhitespace(card.bankName[i])))
  {
    RequiredErrorIff(card.cardholderName, "Cardholder name is required");
    RequiredErrorIff(card.bankName, "Bank name is required");
  }

  /** A card number that went through the mask is never rejected as too long. */
  lemma MaskedNumberNeverTooLong(value: string)
    ensures |RemoveWhitespace(FormatCardNumber(value))| <= 16
  {
    CardNumberMask(value);
  }

  // ---------------------------------------------------------------------
  // Brand detection

  /** `detectCardType` on the number with white space removed, prefixes in
      order: 4 Visa, 51-55 Mastercard, 34/37 American Express, 6 Discover. */
  function DetectCardType(cardNumber: string): (brand: string)
    ensures brand in {"Visa", "Mastercard", "American Express", "Discover", "Unknown"}
    ensures var n := RemoveWhitespace(cardNumber);
      brand == "Visa" <==> |n| >= 1 && n[0] == '4'
    ensures var n := RemoveWhitespace(cardNumber);
      brand == "Mastercard" <==> |n| >= 2 && n[0] == '5' && '1' <= n[1] <= '5'
    ensures var n := RemoveWhitespace(cardNumber);
      brand == "American Express" <==> |n| >= 2 && n[0] == '3' && (n[1] == '4' || n[1] == '7')
    ensures var n := RemoveWhitespace(cardNumber);
      brand == "Discover" <==> |n| >= 1 && n[0] == '6'
    ensures var n := RemoveWhitespace(cardNumber);
      brand == "Unknown" <==> (!(|n| >= 1 && n[0] in "46")
        && !(|n| >= 2 && n[0] == '5' && '1' <= n[1] <= '5')
        && !(|n| >= 2 && n[0] == '3' && (n[1] == '4' || n[1] == '7')))
  {
    BrandOf(RemoveWhitespace(cardNumber))
  }

  function BrandOf(n: string): string {
    if |n| >= 1 && n[0] == '4' then "Visa"
    else if |n| >= 2 && n[0] == '5' && '1' <= n[1] <= '5' then "Mastercard"
    else if |n| >= 2 && n[0] == '3' && (n[1] == '4' || n[1] == '7') then "American Express"
    else if |n| >= 1 && n[0] == '6' then "Discover"
    else "Unknown"
  }

  /** The brand depends on the first two characters only. */
  lemma BrandOfFirstTwo(n: string)
    ensures BrandOf(n) == BrandOf(Take(n, 2))
  {
  }

  /** The brand of a masked number is the brand of what was typed. */
  lemma DetectCardTypeAfterMask(value: string)
    ensures DetectCardType(FormatCardNumber(value)) == DetectCardType(value)
  {
    var d := RemoveWhitespace(value);
    assert RemoveWhitespace(FormatCardNumber(value)) == Take(d, 16) by {
      CardNumberMask(value);
    }
    assert BrandOf(Take(d, 16)) == BrandOf(d) by {
      assert Take(Take(d, 16), 2) == Take(d, 2);
      BrandOfFirstTwo(d);
      BrandOfFirstTwo(Take(d, 16));
    }
  }

  /** The preview colour for a brand. */
  function CardColor(brand: string): (color: string)
    ensures brand !in {"Visa", "Mastercard", "American Express"} ==> color == "#374151"
  {
    if brand == "Visa" then "#1A1F71"
    else if brand == "Mastercard" then "#EB001B"
    else if brand == "American Express" then "#006FCF"
    else "#374151"
  }

  // ---------------------------------------------------------------------
  // Submission

  /** The body of `/wallet/cards`: the form with the card number's spaces removed, and the brand. */
  datatype AddCardRequest = AddCardRequest(card: CardData, cardType: string)

  /** How the add call ended: `success: true`, or an error with its message (`""` when none). */
  datatype AddReply = Added | AddFailed(message: string)

  /** The submission a valid form sends. */
  function SubmissionOf(card: CardData): (request: AddCardRequest)
    ensures request.card == card.(cardNumber := RemoveWhitespace(card.cardNumber))
    ensures NoWhitespace(request.card.cardNumber)
    ensures request.cardType == DetectCardType(card.cardNumber)
  {
    AddCardRequest(card.(cardNumber := RemoveWhitespace(card.cardNumber)), DetectCardType(card.cardNumber))
  }

  class AddCardForm {
    var cardData: CardData
    var errors: Errors
    var isLoading: bool

    constructor ()
      ensures cardData == EmptyCard && errors == NoErrors && !isLoading
    {
      cardData, errors, isLoading := EmptyCard, NoErrors, false;
    }

    /** `handleInputChange`: the field takes its masked value and loses its
        error; every other field and error is kept. */
    method HandleInputChange(f: Field, value: string)
      modifies this`cardData, this`errors
      ensures cardData == old(cardData).With(f, FormatField(f, value))
      ensures errors == old(errors).Cleared(f)
    {
      cardData := cardData.With(f, FormatField(f, value));
      if errors.Get(f).Some? {
        errors := errors.Cleared(f);
      } else {
        assert errors.Cleared(f) == errors by {
          match f
          case CardNumber =>
          case ExpiryDate =>
          case Cvv =>
          case CardholderName =>
          case BankName =>
        }
      }
    }

    /** `handleAddCard`: the errors become the validation's; an invalid form
        sends nothing. A valid one sends `SubmissionOf(cardData)`; a failure
        shows the error's message or 'Failed to add card'; loading ends
        either way. */
    method HandleAddCard(currentYear: nat, currentMonth: nat, reply: AddReply)
      returns (request: Option<AddCardRequest>, error: Option<string>)
      modifies this`errors, this`isLoading
      ensures errors == ValidateCard(cardData, currentYear, currentMonth)
      ensures !errors.IsEmpty() ==>
        request.None? && error == Some("Please fix the errors and try again") && isLoading == old(isLoading)
      ensures errors.IsEmpty() ==> request == Some(SubmissionOf(cardData)) && !isLoading
      ensures errors.IsEmpty() && reply.Added? ==> error.None?
      ensures errors.IsEmpty() && reply.AddFailed? ==>
        error == Some(if reply.message != "" then reply.message else "Failed to add card")
    {
      errors := ValidateCard(cardData, currentYear, currentMonth);
      if !errors.IsEmpty() {
        request := None;
        error := Some("Please fix the errors and try again");
        return;
      }
      isLoading := true;
      request := Some(SubmissionOf(cardData));
      match reply {
        case Added => error := None;
        case AddFailed(message) =>
          error := Some(if message != "" then message else "Failed to add card");
      }
      isLoading := false;
    }
  }
}

=== FILE: age.dfy ===
/** The relative-age labels of the notification and chat lists: the
    millisecond difference between now and a timestamp, floored to minutes,
    hours and days, picks a bucket; a week or more shows a calendar date. */
module Age {
  import opened Common
  import opened Text

  const MinuteMs: nat := 60000
  const HourMs: nat := 3600000
  const DayMs: nat := 86400000

  /** The bucket of an age; `Dated` is shown as a locale date, not modelled. */
  datatype Age = Fresh | Minutes(n: nat) | Hours(n: nat) | Days(n: nat) | Dated

  /** `Math.floor(diff / 60000)` and so on (integer division rounds down for a
      positive divisor), checked in order: under a minute, under an hour,
      under a day, under a week. A timestamp in the future is `Fresh`. */
  function AgeOf(diff: int): (a: Age)
    ensures a.Fresh? <==> diff < MinuteMs
    ensures a.Minutes? ==> 1 <= a.n < 60 && a.n * MinuteMs <= diff < (a.n + 1) * MinuteMs
    ensures a.Hours? ==> 1 <= a.n < 24 && a.n * HourMs <= diff < (a.n + 1) * HourMs
    ensures a.Days? ==> 1 <= a.n < 7 && a.n * DayMs <= diff < (a.n + 1) * DayMs
    ensures a.Dated? <==> diff >= 7 * DayMs
  {
    var minutes, hours, days := diff / MinuteMs, diff / HourMs, diff / DayMs;
    if minutes < 1 then Fresh
    else if minutes < 60 then Minutes(minutes)
    else if hours < 24 then Hours(hours)
    else if days < 7 then Days(days)
    else Dated
  }

  /** The order of the buckets, youngest first. */
  function Rank(a: Age): nat {
    match a
    case Fresh => 0
    case Minutes(_) => 1
    case Hours(_) => 2
    case Days(_) => 3
    case Dated => 4
  }

  /** An older timestamp never lands in a younger bucket, and within a bucket
      its count is never smaller. */
  lemma AgeMonotone(d1: int, d2: int)
    requires d1 <= d2
    ensures Rank(AgeOf(d1)) <= Rank(AgeOf(d2))
    ensures Rank(AgeOf(d1)) == Rank(AgeOf(d2)) && !AgeOf(d1).Fresh? && !AgeOf(d1).Dated? ==>
      AgeOf(d1).n <= AgeOf(d2).n
  {
  }

  /** The bucket edges: 59.999 s is fresh, one minute is "1m", one hour "1h",
      one day "1d", one week a date. */
  lemma AgeEdges()
    ensures AgeOf(59999) == Fresh && AgeOf(60000) == Minutes(1)
    ensures AgeOf(3599999) == Minutes(59) && AgeOf(3600000) == Hours(1)
    ensures AgeOf(86400000) == Days(1) && AgeOf(604799999) == Days(6) && AgeOf(604800000) == Dated
  {
  }

  /** The notification list's wording; `None` for the calendar date. */
  function NotificationLabel(a: Age): (text: Option<string>)
    ensures text.None? <==> a.Dated?
  {
    match a
    case Fresh => Some("Just now")
    case Minutes(n) => Some(NatToString(n) + "m ago")
    case Hours(n) => Some(NatToString(n) + "h ago")
    case Days(n) => Some(NatToString(n) + "d ago")
    case Dated => None
  }

  /** The chat list's shorter wording; `None` for the calendar date. */
  function ChatLabel(a: Age): (text: Option<string>)
    ensures text.None? <==> a.Dated?
  {
    match a
    case Fresh => Some("now")
    case Minutes(n) => Some(NatToString(n) + "m")
    case Hours(n) => Some(NatToString(n) + "h")
    case Days(n) => Some(NatToString(n) + "d")
    case Dated => None
  }
}

=== FILE: api.dfy ===
/** The two interceptors of the HTTP client (src/services/api.ts): the request
    side adds the bearer token read from storage; the response side, on a
    rejected reply, clears the stored session when
    the status is 401 and rejects with the reply's body, or with the raw error
    when there is none. The endpoint table is a fixed mapping to URLs and is
    not modelled. */
module Api {
  import opened Common
  import opened Storage
  import Text

  /** A failed call: the server's reply when there was one (its body `None`
      when missing or falsy), and the error the HTTP client raised. */
  datatype HttpError<B> = HttpError(response: Option<ErrorReply<B>>, raw: B)
  datatype ErrorReply<B> = ErrorReply(status: int, data: Option<B>)

  /** The header a request carries for a stored token. */
  function BearerHeader(token: string): (h: string)
    ensures Text.StartsWith(h, "Bearer ") && h[7..] == token
  {
    "Bearer " + token
  }

  /** The request interceptor: `Authorization` is set exactly when a non-empty
      `authToken` is stored; every other header is kept. */
  method AuthorizeRequest(store: AsyncStore, headers: map<string, string>) returns (result: map<string, string>)
    ensures var t := store.GetItem(AuthTokenKey);
      Truthy(t) ==> result == headers["Authorization" := BearerHeader(t.value)]
    ensures !Truthy(store.GetItem(AuthTokenKey)) ==> result == headers
  {
    var token := store.GetItem(AuthTokenKey);
    result := headers;
    if Truthy(token) {
      result := result["Authorization" := BearerHeader(token.value)];
    }
  }

  /** `error.response?.data || error`: the value a failed call rejects with. */
  function RejectionOf<B>(error: HttpError<B>): (v: B)
    ensures error.response.Some? && error.response.value.data.Some? ==> v == error.response.value.data.value
    ensures error.response.None? || error.response.value.data.None? ==> v == error.raw
  {
    match error.response
    case Some(reply) => reply.data.GetOr(error.raw)
    case None => error.raw
  }

  /** Whether a failed call is an authorisation failure (`status === 401`). */
  predicate IsUnauthorized<B>(error: HttpError<B>) {
    error.response.Some? && error.response.value.status == 401
  }

  /** The rejected side of the response interceptor: a 401 removes exactly the
      three session keys, anything else leaves storage as it was; the call then
      rejects with `RejectionOf(error)`. The in-memory session is not touched. */
  method OnRejected<B>(store: AsyncStore, error: HttpError<B>) returns (rejection: B)
    modifies store
    ensures rejection == RejectionOf(error)
    ensures IsUnauthorized(error) ==> store.entries == old(store.entries) - SessionKeys
    ensures !IsUnauthorized(error) ==> store.entries == old(store.entries)
    ensures IsUnauthorized(error) ==> !Truthy(store.GetItem(AuthTokenKey))
  {
    if IsUnauthorized(error) {
      store.MultiRemove(SessionKeys);
    }
    rejection := RejectionOf(error);
  }
}

=== FILE: auth_context.dfy ===
/** The session store (AuthProvider in src/context/AuthContext.tsx): the
    signed-in user, the wallet snapshot and the bearer token held in memory,
    mirrored into three storage keys. Each handler is a method; the backend's
    reply is a parameter, and the JSON text of the two stored records is
    produced and read by a codec given to the store. */
module Session {
  import opened Common
  import opened Storage
  import Api

  datatype User = User(
    id: string, firstName: string, lastName: string, email: string,
    phoneNumber: string, role: string, isVerified: bool)

  datatype Wallet = Wallet(balance: real, currency: string, isPinSet: bool)

  /** `JSON.stringify` and `JSON.parse` for the two stored records; reading
      answers `None` where `JSON.parse` throws. */
  datatype Codec = Codec(
    showUser: User -> string, readUser: string -> Option<User>,
    showWallet: Wallet -> string, readWallet: string -> Option<Wallet>)

  /** Reading back what was written gives the record that was written, and
      the text of a record is never empty (it is a JSON object). */
  ghost predicate Sound(codec: Codec) {
    (forall u :: codec.readUser(codec.showUser(u)) == Some(u) && codec.showUser(u) != "")
    && (forall w :: codec.readWallet(codec.showWallet(w)) == Some(w) && codec.showWallet(w) != "")
  }

  /** The unwrapped reply of `/auth/login` or `/auth/register`: `success: true`
      with the session, `success: false` with its message (`""` when absent),
      or a call the HTTP client failed, which passes through the response
      interceptor (`Api.OnRejected`) before the handler sees it. */
  datatype AuthReply =
    | Accepted(user: User, wallet: Option<Wallet>, token: string)
    | Declined(message: string)
    | Rejected(error: Api.HttpError<string>)

  /** The unwrapped reply of `/auth/profile`. */
  datatype ProfileReply =
    | ProfileAccepted(user: User, wallet: Option<Wallet>)
    | ProfileDeclined
    | ProfileRejected(error: Api.HttpError<string>)

  /** A call that failed with status 401, on which the interceptor clears the
      stored session. */
  predicate Unauthorized(reply: AuthReply) {
    reply.Rejected? && Api.IsUnauthorized(reply.error)
  }

  predicate ProfileUnauthorized(reply: ProfileReply) {
    reply.ProfileRejected? && Api.IsUnauthorized(reply.error)
  }

  /** The in-memory part of the session. */
  datatype SessionState = SessionState(user: Option<User>, wallet: Option<Wallet>, token: Option<string>)

  /** `!!user && !!token`. */
  predicate Authenticated(s: SessionState) {
    s.user.Some? && s.token.Some? && s.token.value != ""
  }

  /** `storedToken && storedUser`: both keys hold non-empty text. */
  predicate StoredSession(entries: map<string, string>) {
    AuthTokenKey in entries && entries[AuthTokenKey] != ""
    && UserDataKey in entries && entries[UserDataKey] != ""
  }

  /** What `loadStoredAuth` leaves in memory, from `prior`, when storage holds
      `entries` (`readFails`: a `getItem` call rejected). The token is set before
      the user record is parsed, and the user before the wallet record, so a
      record that fails to parse stops the restore halfway. */
  function Restore(entries: map<string, string>, codec: Codec, readFails: bool, prior: SessionState): (s: SessionState)
    ensures readFails ==> s == prior
    ensures !readFails && !StoredSession(entries) ==> s == prior
    ensures !readFails && StoredSession(entries) ==> s.token == Some(entries[AuthTokenKey])
    ensures !readFails && StoredSession(entries) ==>
      s.user == (if codec.readUser(entries[UserDataKey]).Some? then codec.readUser(entries[UserDataKey]) else prior.user)
    ensures !readFails && StoredSession(entries) ==>
      s.wallet == (if codec.readUser(entries[UserDataKey]).Some? && WalletDataKey in entries
        && entries[WalletDataKey] != "" && codec.readWallet(entries[WalletDataKey]).Some?
        then codec.readWallet(entries[WalletDataKey]) else prior.wallet)
  {
    var t := if AuthTokenKey in entries then Some(entries[AuthTokenKey]) else None;
    var u := if UserDataKey in entries then Some(entries[UserDataKey]) else None;
    var w := if WalletDataKey in entries then Some(entries[WalletDataKey]) else None;
    if readFails || !(Truthy(t) && Truthy(u)) then prior
    else
      var withToken := prior.(token := t);
      var user := codec.readUser(u.value);
      if user.None? then withToken
      else
        var withUser := withToken.(user := user);
        if !Truthy(w) then withUser
        else
          var wallet := codec.readWallet(w.value);
          if wallet.None? then withUser else withUser.(wallet := wallet)
  }

  /** The storage writes of a successful login, registration or refresh:
      `authToken` when a token is given, `userData` always, `walletData` only
      when there is a wallet. */
  function Persist(entries: map<string, string>, codec: Codec, token: Option<string>, user: User, wallet: Option<Wallet>): (e: map<string, string>)
    ensures UserDataKey in e && e[UserDataKey] == codec.showUser(user)
    ensures token.Some? ==> AuthTokenKey in e && e[AuthTokenKey] == token.value
    ensures token.None? ==> (AuthTokenKey in e <==> AuthTokenKey in entries)
    ensures token.None? && AuthTokenKey in e ==> e[AuthTokenKey] == entries[AuthTokenKey]
    ensures wallet.Some? ==> WalletDataKey in e && e[WalletDataKey] == codec.showWallet(wallet.value)
    ensures wallet.None? ==> (WalletDataKey in e <==> WalletDataKey in entries)
    ensures wallet.None? && WalletDataKey in e ==> e[WalletDataKey] == entries[WalletDataKey]
    ensures forall k :: k in entries && k !in SessionKeys ==> k in e && e[k] == entries[k]
    ensures forall k :: k in e && k !in SessionKeys ==> k in entries
  {
    var e0 := if token.Some? then entries[AuthTokenKey := token.value] else entries;
    var e1 := e0[UserDataKey := codec.showUser(user)];
    if wallet.Some? then e1[WalletDataKey := codec.showWallet(wallet.value)] else e1
  }

  /** The error a failed login or registration rethrows: the server's message,
      or the given default when it sent none; a failed call rethrows the value
      the interceptor rejected with. */
  function FailureMessage(reply: AuthReply, default: string): (m: string)
    requires !reply.Accepted?
    ensures reply.Declined? && reply.message != "" ==> m == reply.message
    ensures reply.Declined? && reply.message == "" ==> m == default
    ensures reply.Rejected? ==> m == Api.RejectionOf(reply.error)
  {
    match reply
    case Declined(message) => if message != "" then message else default
    case Rejected(error) => Api.RejectionOf(error)
  }

  /** A fresh login followed by a restart restores the same session, provided
      the codec reads back what it writes and the token is not empty. */
  lemma {:induction false} RestartRestoresLogin(entries: map<string, string>, codec: Codec, user: User, wallet: Wallet, token: string)
    requires Sound(codec) && token != ""
    ensures var e := Persist(entries, codec, Some(token), user, Some(wallet));
      Restore(e, codec, false, SessionState(None, None, None)) == SessionState(Some(user), Some(wallet), Some(token))
  {
    var e := Persist(entries, codec, Some(token), user, Some(wallet));
    assert codec.readUser(e[UserDataKey]) == Some(user);
    assert codec.readWallet(e[WalletDataKey]) == Some(wallet);
  }

  /** A login that brought no wallet, on a store holding no wallet record (as
      after a logout), restores the user and the token and still no wallet. */
  lemma {:induction false} RestartRestoresLoginWithoutWallet(entries: map<string, string>, codec: Codec, user: User, token: string)
    requires Sound(codec) && token != "" && WalletDataKey !in entries
    ensures var e := Persist(entries, codec, Some(token), user, None);
      Restore(e, codec, false, SessionState(None, None, None)) == SessionState(Some(user), None, Some(token))
  {
    var e := Persist(entries, codec, Some(token), user, None);
    assert codec.readUser(e[UserDataKey]) == Some(user);
  }

  /** The restore does not keep the invariant "token present iff user present":
      a stored token with an unreadable user record leaves a token and no user,
      and the store reports itself unauthenticated. */
  lemma {:induction false} TokenWithoutUser(entries: map<string, string>, codec: Codec)
    requires AuthTokenKey in entries && entries[AuthTokenKey] != ""
    requires UserDataKey in entries && entries[UserDataKey] != ""
    requires codec.readUser(entries[UserDataKey]).None?
    ensures var s := Restore(entries, codec, false, SessionState(None, None, None));
      s.token == Some(entries[AuthTokenKey]) && s.user.None? && !Authenticated(s)
  {
  }

  /** After a 401 the interceptor has removed the three keys, so the next
      start finds no stored session and keeps the signed-out state it mounts
      with, whatever the session in memory was before. */
  lemma {:induction false} UnauthorizedSignsOutOnRestart(entries: map<string, string>, codec: Codec)
    ensures !StoredSession(entries - SessionKeys)
    ensures Restore(entries - SessionKeys, codec, false, SessionState(None, None, None)) == SessionState(None, None, None)
    ensures !Authenticated(Restore(entries - SessionKeys, codec, false, SessionState(None, None, None)))
  {
    assert AuthTokenKey in SessionKeys;
  }

  class AuthProvider {
    var user: Option<User>
    var wallet: Option<Wallet>
    var token: Option<string>
    var isLoading: bool
    const store: AsyncStore
    const codec: Codec

    function State(): SessionState
      reads this
    {
      SessionState(user, wallet, token)
    }

    /** `isAuthenticated`: both a user and a non-empty token are held. */
    function IsAuthenticated(): (b: bool)
      reads this
      ensures b <==> user.Some? && token.Some? && token.value != ""
    {
      Authenticated(State())
    }

    /** The provider as mounted: nothing held, still loading. */
    constructor (store: AsyncStore, codec: Codec)
      ensures this.store == store && this.codec == codec
      ensures user == None && wallet == None && token == None && isLoading
    {
      this.store := store;
      this.codec := codec;
      user, wallet, token := None, None, None;
      isLoading := true;
    }

    /** `loadStoredAuth`: restores from storage as `Restore` describes and always
        ends loading, whatever failed; storage is only read. */
    method LoadStoredAuth(readFails: bool)
      modifies this
      ensures State() == Restore(old(store.entries), codec, readFails, old(State()))
      ensures !isLoading
      ensures store.entries == old(store.entries)
    {
      if !readFails {
        var storedToken := store.GetItem(AuthTokenKey);
        var storedUser := store.GetItem(UserDataKey);
        var storedWallet := store.GetItem(WalletDataKey);
        if Truthy(storedToken) && Truthy(storedUser) {
          token := storedToken;
          var parsedUser := codec.readUser(storedUser.value);
          if parsedUser.Some? {
            user := parsedUser;
            if Truthy(storedWallet) {
              var parsedWallet := codec.readWallet(storedWallet.value);
              if parsedWallet.Some? {
                wallet := parsedWallet;
              }
            }
          }
        }
      }
      isLoading := false;
    }

    /** `login` and `register` share this body; `default` is the message thrown
        when the server refuses without one. A 401 has had the three session
        keys removed by the interceptor, while memory is left as it was. */
    method SignIn(reply: AuthReply, default: string) returns (error: Option<string>)
      modifies this, store
      ensures reply.Accepted? ==> (error.None?
        && State() == SessionState(Some(reply.user), reply.wallet, Some(reply.token))
        && store.entries == Persist(old(store.entries), codec, Some(reply.token), reply.user, reply.wallet))
      ensures !reply.Accepted? ==> (error == Some(FailureMessage(reply, default)) && State() == old(State()))
      ensures !reply.Accepted? && !Unauthorized(reply) ==> store.entries == old(store.entries)
      ensures Unauthorized(reply) ==> store.entries == old(store.entries) - SessionKeys
      ensures isLoading == old(isLoading)
    {
      match reply {
        case Accepted(u, w, t) =>
          user := Some(u);
          wallet := w;
          token := Some(t);
          store.SetItem(AuthTokenKey, t);
          store.SetItem(UserDataKey, codec.showUser(u));
          if w.Some? {
            store.SetItem(WalletDataKey, codec.showWallet(w.value));
          }
          error := None;
        case Declined(_) =>
          error := Some(FailureMessage(reply, default));
        case Rejected(e) =>
          var rejection := Api.OnRejected(store, e);
          error := Some(rejection);
      }
    }

    /** `login`: on success the reply's session is held and stored; otherwise
        memory is unchanged, the error is the server's message or 'Login failed',
        and a 401 has cleared the stored session. */
    method Login(reply: AuthReply) returns (error: Option<string>)
      modifies this, store
      ensures reply.Accepted? ==> (error.None?
        && State() == SessionState(Some(reply.user), reply.wallet, Some(reply.token))
        && store.entries == Persist(old(store.entries), codec, Some(reply.token), reply.user, reply.wallet))
      ensures !reply.Accepted? ==> (error == Some(FailureMessage(reply, "Login failed")) && State() == old(State()))
      ensures !reply.Accepted? && !Unauthorized(reply) ==> store.entries == old(store.entries)
      ensures Unauthorized(reply) ==> store.entries == old(store.entries) - SessionKeys
    {
      error := SignIn(reply, "Login failed");
    }

    /** `register`: as `Login`, with 'Registration failed'. */
    method Register(reply: AuthReply) returns (error: Option<string>)
      modifies this, store
      ensures reply.Accepted? ==> (error.None?
        && State() == SessionState(Some(reply.user), reply.wallet, Some(reply.token))
        && store.entries == Persist(old(store.entries), codec, Some(reply.token), reply.user, reply.wallet))
      ensures !reply.Accepted? ==> (error == Some(FailureMessage(reply, "Registration failed")) && State() == old(State()))
      ensures !reply.Accepted? && !Unauthorized(reply) ==> store.entries == old(store.entries)
      ensures Unauthorized(reply) ==> store.entries == old(store.entries) - SessionKeys
    {
      error := SignIn(reply, "Registration failed");
    }

    /** `logout`: nothing held, the three keys removed, other keys kept; it
        reports no error. */
    method Logout()
      modifies this, store
      ensures State() == SessionState(None, None, None) && !IsAuthenticated()
      ensures store.entries == old(store.entries) - SessionKeys
      ensures isLoading == old(isLoading)
    {
      user := None;
      wallet := None;
      token := None;
      store.MultiRemove(SessionKeys);
    }

    /** `refreshProfile`: nothing happens without a (non-empty) token; an
        accepted reply replaces user and wallet in memory and rewrites
        `userData` (and `walletData` when a wallet came back), never the token;
        a refused or failed call is swallowed and leaves memory as it was, but
        a 401 has had the stored session cleared by the interceptor. */
    method RefreshProfile(reply: ProfileReply)
      modifies this, store
      ensures token == old(token) && isLoading == old(isLoading)
      ensures !Truthy(old(token)) || !reply.ProfileAccepted? ==> State() == old(State())
      ensures !Truthy(old(token)) || (!reply.ProfileAccepted? && !ProfileUnauthorized(reply)) ==>
        store.entries == old(store.entries)
      ensures Truthy(old(token)) && ProfileUnauthorized(reply) ==>
        store.entries == old(store.entries) - SessionKeys
      ensures Truthy(old(token)) && reply.ProfileAccepted? ==>
        (user == Some(reply.user) && wallet == reply.wallet
        && store.entries == Persist(old(store.entries), codec, None, reply.user, reply.wallet))
    {
      if !Truthy(token) {
        return;
      }
      match reply {
        case ProfileAccepted(u, w) =>
          user := Some(u);
          wallet := w;
          store.SetItem(UserDataKey, codec.showUser(u));
          if w.Some? {
            store.SetItem(WalletDataKey, codec.showWallet(w.value));
          }
        case ProfileDeclined =>
        case ProfileRejected(e) =>
          var _ := Api.OnRejected(store, e);
      }
    }
  }
}

=== FILE: cards.dfy ===
/** The saved-cards list (src/screens/cards/CardsScreen.tsx): making one card
    the default, removing a card after confirmation, and the gradient each
    brand is drawn with. The list is loaded from a fixed sample. */
module Cards {
  import opened Common
  import opened Text

  datatype Card = Card(
    id: string, cardNumber: string, cardType: string, expiryDate: string,
    cardholderName: string, isDefault: bool, bankName: string)

  /** The list `loadCards` shows. */
  const SampleCards: seq<Card> := [
    Card("1", "4532 **** **** 1234", "Visa", "12/25", "John Doe", true, "KCB Bank"),
    Card("2", "5555 **** **** 5678", "Mastercard", "08/26", "John Doe", false, "Equity Bank")
  ]

  /** `cards.map(card => ({ ...card, isDefault: card._id === cardId }))`: the
      cards with that id become the default, all others stop being it; order,
      length and every other field are kept. */
  function SetDefault(cards: seq<Card>, cardId: string): (r: seq<Card>)
    ensures |r| == |cards|
    ensures forall i :: 0 <= i < |r| ==> (r[i].isDefault <==> cards[i].id == cardId)
    ensures forall i :: 0 <= i < |r| ==> r[i] == cards[i].(isDefault := r[i].isDefault)
  {
    Map(cards, (c: Card) => c.(isDefault := c.id == cardId))
  }

  predicate UniqueIds(cards: seq<Card>) {
    forall i, j :: 0 <= i < j < |cards| ==> cards[i].id != cards[j].id
  }

  /** With distinct ids, choosing a card in the list leaves exactly that one as default. */
  lemma SetDefaultSingle(cards: seq<Card>, k: nat)
    requires UniqueIds(cards) && k < |cards|
    ensures var r := SetDefault(cards, cards[k].id);
      r[k].isDefault && forall i :: 0 <= i < |r| && i != k ==> !r[i].isDefault
  {
  }

  /** Choosing the same default twice is the same as choosing it once. */
  lemma SetDefaultIdempotent(cards: seq<Card>, cardId: string)
    ensures SetDefault(SetDefault(cards, cardId), cardId) == SetDefault(cards, cardId)
  {
  }

  /** `cards.filter(card => card._id !== cardId)`. */
  function RemoveCard(cards: seq<Card>, cardId: string): (r: seq<Card>)
    ensures forall i :: 0 <= i < |r| ==> r[i].id != cardId && r[i] in cards
    ensures forall i :: 0 <= i < |cards| && cards[i].id != cardId ==> cards[i] in r
  {
    Filter(cards, (c: Card) => c.id != cardId)
  }

  /** Removal keeps the remaining cards in their order. */
  lemma RemoveCardKeepsOrder(cards: seq<Card>, cardId: string)
    ensures IsSubsequence(RemoveCard(cards, cardId), cards)
  {
    FilterIsSubsequence(cards, (c: Card) => c.id != cardId);
  }

  /** Removing an id no card has changes nothing. */
  lemma RemoveAbsentCard(cards: seq<Card>, cardId: string)
    requires forall i :: 0 <= i < |cards| ==> cards[i].id != cardId
    ensures RemoveCard(cards, cardId) == cards
  {
    FilterKeepsAll(cards, (c: Card) => c.id != cardId);
  }

  /** The Set Default action is offered only for a card that is not the default. */
  predicate OffersSetDefault(card: Card) {
    !card.isDefault
  }

  /** After choosing a default, the action is offered on exactly the other cards. */
  lemma OffersAfterSetDefault(cards: seq<Card>, cardId: string)
    ensures var r := SetDefault(cards, cardId);
      forall i :: 0 <= i < |r| ==> (OffersSetDefault(r[i]) <==> cards[i].id != cardId)
  {
  }

  datatype Gradient = Gradient(from: string, to: string)

  const DefaultGradient: Gradient := Gradient("#374151", "#1F2937")

  /** `getCardGradient`: the brand name lower-cased is matched against
      'visa', 'mastercard' and 'amex'. */
  function CardGradient(cardType: string): Gradient {
    var brand := Lower(cardType);
    if brand == "visa" then Gradient("#1A1F71", "#0F4C75")
    else if brand == "mastercard" then Gradient("#EB001B", "#F79E1B")
    else if brand == "amex" then Gradient("#006FCF", "#0099CC")
    else DefaultGradient
  }

  /** The match ignores case. */
  lemma CardGradientIgnoresCase(cardType: string)
    ensures CardGradient(Upper(cardType)) == CardGradient(cardType)
    ensures CardGradient(Lower(cardType)) == CardGradient(cardType)
  {
    LowerIdempotent(cardType);
    LowerOfUpper(cardType);
  }

  /** Each brand gradient goes to exactly the names that lower-case to its
      brand, and every other name gets the default. */
  lemma CardGradientTable(cardType: string)
    ensures CardGradient(cardType) == Gradient("#1A1F71", "#0F4C75") <==> Lower(cardType) == "visa"
    ensures CardGradient(cardType) == Gradient("#EB001B", "#F79E1B") <==> Lower(cardType) == "mastercard"
    ensures CardGradient(cardType) == Gradient("#006FCF", "#0099CC") <==> Lower(cardType) == "amex"
    ensures CardGradient(cardType) == DefaultGradient <==> Lower(cardType) !in ["visa", "mastercard", "amex"]
  {
  }

  /** The name "Visa" that the add-card form stores gets the Visa gradient. */
  lemma GradientOfVisa()
    ensures CardGradient("Visa") == Gradient("#1A1F71", "#0F4C75")
  {
    var v := Lower("Visa");
    assert v[0] == 'v' && v[1] == 'i' && v[2] == 's' && v[3] == 'a';
  }

  /** "American Express", the name the add-card form stores for that brand, is
      not 'amex', so those cards get the default gradient. */
  lemma GradientOfAmericanExpress()
    ensures CardGradient("American Express") == DefaultGradient
  {
    NoBrandOfOtherLength("American Express");
  }

  /** A name whose length is not that of a known brand gets the default gradient. */
  lemma NoBrandOfOtherLength(cardType: string)
    requires |cardType| != 4 && |cardType| != 10
    ensures CardGradient(cardType) == DefaultGradient
  {
    var b := Lower(cardType);
    assert |b| == |cardType|;
    assert b != "visa" && b != "mastercard" && b != "amex";
  }

  class CardsScreen {
    var cards: seq<Card>
    var isLoading: bool

    constructor ()
      ensures cards == [] && !isLoading
    {
      cards, isLoading := [], false;
    }

    /** `loadCards` (and pull-to-refresh): the sample list. */
    method LoadCards()
      modifies this`cards
      ensures cards == SampleCards
    {
      cards := SampleCards;
    }

    /** `handleSetDefault`. */
    method HandleSetDefault(cardId: string)
      modifies this
      ensures cards == SetDefault(old(cards), cardId) && !isLoading
    {
      isLoading := true;
      cards := SetDefault(cards, cardId);
      isLoading := false;
    }

    /** The Remove choice of the confirmation in `handleRemoveCard` (Cancel
        changes nothing). */
    method ConfirmRemoveCard(cardId: string)
      modifies this
      ensures cards == RemoveCard(old(cards), cardId) && !isLoading
    {
      isLoading := true;
      cards := RemoveCard(cards, cardId);
      isLoading := false;
    }
  }
}

=== FILE: chat.dfy ===
/** One conversation (src/screens/chat/ChatScreen.tsx): sending a text
    message, the support agent's canned reply, and the rules each bubble is
    drawn with — whose side it sits on, when a timestamp separates it from the
    one before, and how a payment bubble reads. */
module ChatView {
  import opened Common
  import opened Text
  import opened Age
  import Session
  import ReceiveMoney

  datatype MessageKind = TextMessage | PaymentMessage | SystemMessage

  datatype PaymentData = PaymentData(amount: real, status: string)

  /** A message; `timestamp` is in milliseconds. */
  datatype Message = Message(
    id: string, text: string, timestamp: int, senderId: string, senderName: string,
    kind: MessageKind, payment: Option<PaymentData>)

  /** `user?._id || 'me'`: the user's id, or 'me' when there is no user or the
      id is empty. */
  function SenderId(user: Option<Session.User>): (id: string)
    ensures id != ""
    ensures user.Some? && user.value.id != "" ==> id == user.value.id
  {
    if user.Some? && user.value.id != "" then user.value.id else "me"
  }

  /** `${user?.firstName} ${user?.lastName}`. */
  function SenderName(user: Option<Session.User>): string {
    ReceiveMoney.Show(ReceiveMoney.FirstName(user)) + " " + ReceiveMoney.Show(ReceiveMoney.LastName(user))
  }

  /** `isMe`: the bubble is the user's own when its sender is the user's id or 'me'. */
  predicate IsMe(m: Message, user: Option<Session.User>) {
    (user.Some? && m.senderId == user.value.id) || m.senderId == "me"
  }

  /** The message typed in the box, as `sendMessage` builds it at time `now`. */
  function Outgoing(input: string, now: nat, user: Option<Session.User>): (m: Message)
    ensures m.text == Trim(input) && m.kind == TextMessage && m.timestamp == now
    ensures m.payment.None?
  {
    Message(NatToString(now), Trim(input), now, SenderId(user), SenderName(user), TextMessage, None)
  }

  /** What the user sends is always drawn on their own side, whatever the
      user record holds. */
  lemma OutgoingIsMine(input: string, now: nat, user: Option<Session.User>)
    ensures IsMe(Outgoing(input, now, user), user)
  {
  }

  /** A sent message is never blank and carries no surrounding white space. */
  lemma OutgoingIsTrimmed(input: string, now: nat, user: Option<Session.User>)
    requires Trim(input) != ""
    ensures var t := Outgoing(input, now, user).text;
      t != "" && !IsWhitespace(t[0]) && !IsWhitespace(t[|t| - 1])
  {
  }

  const SupportReplyText: string := "Thank you for your message. Our team will get back to you shortly."

  /** The support agent's reply, delivered two seconds after a message in a support chat. */
  function SupportReply(now: nat): (m: Message)
    ensures m.senderId == "support" && m.kind == TextMessage && m.text == SupportReplyText
    ensures forall user: Option<Session.User> :: user.Some? ==> user.value.id != "support" ==> !IsMe(m, user)
  {
    Message(NatToString(now + 1), SupportReplyText, now, "support", "Support Agent", TextMessage, None)
  }

  /** The four messages `loadMessages` shows. */
  function SampleMessages(now: int, chatId: string, chatName: string, user: Option<Session.User>): seq<Message> {
    var otherId := if chatId == "support" then "support" else "other";
    var otherName := if chatId == "support" then "Support Agent" else chatName;
    [ Message("1", "Hi! How can I help you today?", now - 60 * MinuteMs, otherId, otherName, TextMessage, None),
      Message("2", "I need help with my recent transaction", now - 50 * MinuteMs,
        SenderId(user), SenderName(user), TextMessage, None),
      Message("3", "Payment sent successfully", now - 30 * MinuteMs,
        SenderId(user), SenderName(user), PaymentMessage, Some(PaymentData(1500.0, "completed"))),
      Message("4", "Thank you for the payment!", now - 25 * MinuteMs, otherId, otherName, TextMessage, None) ]
  }

  /** Which side each sample message is drawn on: the user's two in the
      middle are the user's own, and the other party's two are not, as long as
      the user's id is not the other party's id. */
  lemma SampleSides(now: int, chatId: string, chatName: string, user: Option<Session.User>)
    requires user.Some? ==> user.value.id != "other" && user.value.id != "support"
    ensures var ms := SampleMessages(now, chatId, chatName, user);
      !IsMe(ms[0], user) && IsMe(ms[1], user) && IsMe(ms[2], user) && !IsMe(ms[3], user)
  {
    var ms := SampleMessages(now, chatId, chatName, user);
    assert ms[0].senderId in {"other", "support"} && ms[3].senderId == ms[0].senderId;
  }

  const TimestampGap: nat := 300000

  /** The timestamp rule as the screen writes it: shown for the first message,
      or when the previous message's time minus this one's exceeds five minutes. */
  predicate ShowTimestampAsWritten(ms: seq<Message>, index: nat)
    requires index < |ms|
  {
    index == 0 || ms[index - 1].timestamp - ms[index].timestamp > TimestampGap
  }

  /** The list is in the order messages happened: oldest first. */
  predicate Chronological(ms: seq<Message>) {
    forall i, j :: 0 <= i < j < |ms| ==> ms[i].timestamp <= ms[j].timestamp
  }

  /** As written, a list in chronological order (the order loading and sending
      build) shows a timestamp above its first message only. */
  lemma AsWrittenShowsOnlyFirst(ms: seq<Message>, index: nat)
    requires Chronological(ms) && 0 < index < |ms|
    ensures !ShowTimestampAsWritten(ms, index)
  {
  }

  /** Two messages ten minutes apart: as written, no timestamp separates them. */
  lemma AsWrittenHidesGap()
    ensures var ms := [Message("1", "a", 0, "me", "", TextMessage, None),
                       Message("2", "b", 600000, "me", "", TextMessage, None)];
      Chronological(ms) && ms[1].timestamp - ms[0].timestamp > TimestampGap &&
      !ShowTimestampAsWritten(ms, 1)
  {
  }

  /** The timestamp rule as intended: shown for the first message and for every
      message sent more than five minutes after the one before it. */
  function ShowTimestamp(ms: seq<Message>, index: nat): (show: bool)
    requires index < |ms|
    ensures show <==> index == 0 || ms[index].timestamp - ms[index - 1].timestamp > TimestampGap
  {
    index == 0 || ms[index].timestamp > ms[index - 1].timestamp + TimestampGap
  }

  /** Over a whole chronological list: every message more than five minutes
      after its predecessor gets a time separator under the corrected rule and
      none as written, and the corrected rule adds no other separator. */
  lemma EveryGapSeparated(ms: seq<Message>)
    requires Chronological(ms)
    ensures forall i :: 0 < i < |ms| && ms[i].timestamp - ms[i - 1].timestamp > TimestampGap ==>
      ShowTimestamp(ms, i) && !ShowTimestampAsWritten(ms, i)
    ensures forall i :: 0 < i < |ms| && ShowTimestamp(ms, i) ==> ms[i].timestamp - ms[i - 1].timestamp > TimestampGap
  {
    forall i | 0 < i < |ms| && ms[i].timestamp - ms[i - 1].timestamp > TimestampGap
      ensures !ShowTimestampAsWritten(ms, i)
    {
      AsWrittenShowsOnlyFirst(ms, i);
    }
  }

  /** In the sample conversation the corrected rule separates the messages
      10 and 20 minutes apart, but not the last one, exactly five minutes
      after its predecessor. */
  lemma SampleTimestamps(now: int, chatId: string, chatName: string, user: Option<Session.User>)
    ensures var ms := SampleMessages(now, chatId, chatName, user);
      Chronological(ms) &&
      ShowTimestamp(ms, 0) && ShowTimestamp(ms, 1) && ShowTimestamp(ms, 2) && !ShowTimestamp(ms, 3)
  {
  }

  /** A payment bubble's status line and icon: 'Payment sent' with a check for a
      completed payment, 'Payment pending' with a clock otherwise, a missing
      payment included. */
  function PaymentStatusText(m: Message): (text: string)
    ensures text == "Payment sent" <==> m.payment.Some? && m.payment.value.status == "completed"
    ensures text == "Payment sent" || text == "Payment pending"
  {
    if m.payment.Some? && m.payment.value.status == "completed" then "Payment sent" else "Payment pending"
  }

  function PaymentStatusIcon(m: Message): (icon: string)
    ensures icon == "check-circle" <==> PaymentStatusText(m) == "Payment sent"
  {
    if m.payment.Some? && m.payment.value.status == "completed" then "check-circle" else "schedule"
  }

  class ChatScreen {
    const chatId: string
    const chatName: string
    /** The route's `type`; a 'support' chat gets the canned reply. */
    const chatType: string
    const user: Option<Session.User>
    var messages: seq<Message>
    var inputText: string
    var isTyping: bool

    constructor (chatId: string, chatName: string, chatType: string, user: Option<Session.User>)
      ensures this.chatId == chatId && this.chatName == chatName
      ensures this.chatType == chatType && this.user == user
      ensures messages == [] && inputText == "" && !isTyping
    {
      this.chatId, this.chatName, this.chatType, this.user := chatId, chatName, chatType, user;
      messages, inputText, isTyping := [], "", false;
    }

    /** `loadMessages`. */
    method LoadMessages(now: int)
      modifies this`messages
      ensures messages == SampleMessages(now, chatId, chatName, user)
    {
      messages := SampleMessages(now, chatId, chatName, user);
    }

    method SetInputText(text: string)
      modifies this`inputText
      ensures inputText == text
    {
      inputText := text;
    }

    /** `sendMessage` at time `now`. A blank input changes nothing. Otherwise
        one message with the trimmed text is appended after the existing ones,
        the box is cleared, and a support chat starts showing the typing
        indicator. */
    method SendMessage(now: nat)
      modifies this`messages, this`inputText, this`isTyping
      ensures Trim(old(inputText)) == "" ==>
        messages == old(messages) && inputText == old(inputText) && isTyping == old(isTyping)
      ensures Trim(old(inputText)) != "" ==>
        messages == old(messages) + [Outgoing(old(inputText), now, user)] && inputText == "" &&
        isTyping == (chatType == "support" || old(isTyping))
    {
      var text := Trim(inputText);
      if text == "" {
        return;
      }
      messages := messages + [Outgoing(inputText, now, user)];
      inputText := "";
      if chatType == "support" {
        isTyping := true;
      }
    }

    /** The timer a support chat starts: two seconds later the indicator stops
        and the agent's reply is appended. */
    method DeliverSupportReply(now: nat)
      requires chatType == "support"
      modifies this`messages, this`isTyping
      ensures messages == old(messages) + [SupportReply(now)] && !isTyping
    {
      isTyping := false;
      messages := messages + [SupportReply(now)];
    }
  }
}

=== FILE: chat_list.dfy ===
/** The conversation list (src/screens/chat/ChatListScreen.tsx): the search
    over names and last messages, each row's relative age, initials, icon and
    unread badge. The list is loaded from a fixed sample. */
module ChatList {
  import opened Common
  import opened Text
  import opened Age

  /** A conversation; `kind` is its `type` ('personal', 'support', 'group' or
      anything else), `timestamp` is in milliseconds. */
  datatype Chat = Chat(
    id: string, name: string, lastMessage: string, timestamp: int,
    unreadCount: nat, avatar: Option<string>, isOnline: bool, kind: string)

  /** The sample `loadChats` shows at time `now`. */
  function SampleChats(now: int): seq<Chat> {
    [ Chat("1", "John Doe", "Thanks for the payment!", now - 5 * MinuteMs, 2, None, true, "personal"),
      Chat("2", "Sarah Wilson", "Can you send me KES 500?", now - 30 * MinuteMs, 0, None, false, "personal"),
      Chat("3", "PesaSoft Support", "How can we help you today?", now - 2 * HourMs, 0, None, true, "support"),
      Chat("4", "Mike Johnson", "Payment received successfully", now - DayMs, 1, None, false, "personal") ]
  }

  /** A chat matches a query when its name or its last message contains it,
      ignoring case. */
  predicate MatchesQuery(c: Chat, query: string) {
    ContainsIgnoringCase(c.name, query) || ContainsIgnoringCase(c.lastMessage, query)
  }

  /** The rows on screen: every chat for an empty query, otherwise the
      matching ones in their order. */
  function VisibleChats(chats: seq<Chat>, query: string): seq<Chat> {
    if query == "" then chats else Filter(chats, (c: Chat) => MatchesQuery(c, query))
  }

  /** A chat is on screen exactly when it is loaded and the query is empty or matches it. */
  lemma VisibleChatsIff(chats: seq<Chat>, query: string, c: Chat)
    ensures c in VisibleChats(chats, query) <==> c in chats && (query == "" || MatchesQuery(c, query))
  {
    if query != "" {
      var r := VisibleChats(chats, query);
      if c in r {
        var i :| 0 <= i < |r| && r[i] == c;
      }
      if c in chats && MatchesQuery(c, query) {
        var i :| 0 <= i < |chats| && chats[i] == c;
      }
    }
  }

  /** The rows keep the list's order. */
  lemma VisibleChatsKeepOrder(chats: seq<Chat>, query: string)
    ensures IsSubsequence(VisibleChats(chats, query), chats)
  {
    if query != "" {
      FilterIsSubsequence(chats, (c: Chat) => MatchesQuery(c, query));
    } else {
      SubsequenceOfItself(chats);
    }
  }

  lemma {:induction false} SubsequenceOfItself<T>(s: seq<T>)
    ensures IsSubsequence(s, s)
  {
    if s != [] {
      SubsequenceOfItself(s[1..]);
    }
  }

  /** Every chat's name contains the empty string, so an empty query and the
      filter agree. */
  lemma EmptyQueryMatchesAll(chats: seq<Chat>)
    ensures Filter(chats, (c: Chat) => MatchesQuery(c, "")) == VisibleChats(chats, "")
  {
    forall c | c in chats
      ensures MatchesQuery(c, "")
    {
      assert StartsWith(Lower(c.name)[0..], Lower(""));
    }
    FilterKeepsAll(chats, (c: Chat) => MatchesQuery(c, ""));
  }

  /** The search ignores the case of the query. */
  lemma SearchIgnoresCase(chats: seq<Chat>, query: string)
    ensures VisibleChats(chats, Upper(query)) == VisibleChats(chats, query)
  {
    LowerOfUpper(query);
    assert (Upper(query) == "") == (query == "");
    FilterCongruent(chats, (c: Chat) => MatchesQuery(c, Upper(query)), (c: Chat) => MatchesQuery(c, query));
  }

  /** `formatTimestamp`: the short relative age; `None` where a day-month date is shown. */
  function FormatTimestamp(now: int, timestamp: int): (text: Option<string>)
    ensures text.None? <==> now - timestamp >= 7 * DayMs
    ensures now - timestamp < MinuteMs ==> text == Some("now")
  {
    ChatLabel(AgeOf(now - timestamp))
  }

  /** Between one hour and one day the label is the whole hours, "Nh". */
  lemma FormatTimestampHours(now: int, timestamp: int)
    requires HourMs <= now - timestamp < DayMs
    ensures FormatTimestamp(now, timestamp) == Some(NatToString((now - timestamp) / HourMs) + "h")
  {
  }

  /** "John Doe" is shown as "JD". */
  lemma InitialsOfSampleName()
    ensures Initials("John Doe") == "JD"
  {
    assert "John" + " " + "Doe" == "John Doe";
    assert ' ' !in "John" && ' ' !in "Doe";
    InitialsOfTwoNames("John", "Doe");
    assert UpperChar('J') == 'J' && UpperChar('D') == 'D';
  }

  /** `getChatIcon`. */
  function ChatIcon(kind: string): string {
    if kind == "support" then "support-agent" else if kind == "group" then "group" else "person"
  }

  /** `getChatIconColor`. */
  function ChatIconColor(kind: string): string {
    if kind == "support" then "#22C55E" else if kind == "group" then "#3B82F6" else "#6B7280"
  }

  /** Support and group chats have their own icon and colour; every other type
      is drawn as a person in grey. */
  lemma ChatIconTables(kind: string)
    ensures kind != "support" && kind != "group" <==> ChatIcon(kind) == "person"
    ensures ChatIcon(kind) == "person" <==> ChatIconColor(kind) == "#6B7280"
    ensures ChatIcon("support") != ChatIcon("group") && ChatIconColor("support") != ChatIconColor("group")
  {
  }

  /** The unread badge: hidden at zero, the count up to 99, '99+' above. */
  function Badge(unreadCount: nat): (text: Option<string>)
    ensures text.None? <==> unreadCount == 0
    ensures text.Some? ==> 1 <= |text.value| <= 3
    ensures text.Some? && unreadCount <= 99 ==> AllDigits(text.value) && DigitsValue(text.value) == unreadCount
    ensures text == Some("99+") <==> unreadCount > 99
  {
    if unreadCount == 0 then None
    else if unreadCount > 99 then Some("99+")
    else
      NatToStringRoundTrip(unreadCount);
      ShortNumber(unreadCount);
      Some(NatToString(unreadCount))
  }

  /** A number below 100 takes at most two digits. */
  lemma ShortNumber(n: nat)
    requires n < 100
    ensures |NatToString(n)| <= 2
  {
    if n >= 10 {
      assert NatToString(n) == NatToString(n / 10) + [DigitChar(n % 10)];
    }
  }

  class ChatListScreen {
    var chats: seq<Chat>
    var filteredChats: seq<Chat>
    var searchQuery: string
    var isRefreshing: bool

    /** The filtering effect has run since the last change of the list or the search. */
    ghost predicate Valid()
      reads this
    {
      filteredChats == VisibleChats(chats, searchQuery)
    }

    constructor ()
      ensures Valid() && chats == [] && searchQuery == "" && !isRefreshing
    {
      chats, filteredChats, searchQuery, isRefreshing := [], [], "", false;
    }

    /** `filterChats`: the whole list for an empty search, else the matches. */
    method FilterChats()
      modifies this`filteredChats
      ensures Valid()
    {
      if searchQuery == "" {
        filteredChats := chats;
        return;
      }
      var query := searchQuery;
      filteredChats := Filter(chats, (c: Chat) => MatchesQuery(c, query));
    }

    /** `loadChats` (also run by pull-to-refresh), then the filtering effect. */
    method LoadChats(now: int)
      modifies this`chats, this`filteredChats
      ensures Valid() && chats == SampleChats(now)
    {
      chats := SampleChats(now);
      FilterChats();
    }

    method SetSearchQuery(query: string)
      modifies this`searchQuery, this`filteredChats
      ensures Valid() && searchQuery == query
    {
      searchQuery := query;
      FilterChats();
    }

    /** Tapping a row opens that conversation, identified by id and name. */
    method OpenChat(c: Chat) returns (chatId: string, chatName: string)
      ensures chatId == c.id && chatName == c.name
    {
      chatId, chatName := c.id, c.name;
    }
  }
}

=== FILE: common.dfy ===
/** Values and list operations shared by every screen of the wallet client:
    an optional value (JavaScript's `null`/`undefined` next to a real value)
    and the array operations `filter` and `map` the screens rebuild their
    lists with. */
module Common {

  /** A value that may be absent: `null` or `undefined` in the client. */
  datatype Option<+T> = None | Some(value: T) {
    /** `x ?? default`: the value, or the default when absent. */
    function GetOr(default: T): T {
      match this
      case Some(v) => v
      case None => default
    }
  }

  /** `s.filter(p)`: the elements of `s` that satisfy `p`, in their order. */
  function Filter<T>(s: seq<T>, p: T -> bool): (r: seq<T>)
    ensures |r| <= |s|
    ensures forall i :: 0 <= i < |r| ==> r[i] in s && p(r[i])
    ensures forall i :: 0 <= i < |s| && p(s[i]) ==> s[i] in r
  {
    if s == [] then [] else (if p(s[0]) then [s[0]] else []) + Filter(s[1..], p)
  }

  /** `s.map(f)`: `f` applied to every element, length and order kept. */
  function Map<T, U>(s: seq<T>, f: T -> U): (r: seq<U>)
    ensures |r| == |s|
    ensures forall i :: 0 <= i < |s| ==> r[i] == f(s[i])
  {
    if s == [] then [] else [f(s[0])] + Map(s[1..], f)
  }

  /** `r` is `s` with some elements dropped and the rest kept in order. */
  ghost predicate IsSubsequence<T>(r: seq<T>, s: seq<T>)
    decreases |s|
  {
    if r == [] then true
    else if s == [] then false
    else if r[0] == s[0] then IsSubsequence(r[1..], s[1..])
    else IsSubsequence(r, s[1..])
  }

  /** Filtering never reorders: its result is a subsequence of its input. */
  lemma {:induction false} FilterIsSubsequence<T>(s: seq<T>, p: T -> bool)
    ensures IsSubsequence(Filter(s, p), s)
  {
    if s != [] {
      FilterIsSubsequence(s[1..], p);
      if p(s[0]) {
        assert Filter(s, p) == [s[0]] + Filter(s[1..], p);
        assert Filter(s, p)[1..] == Filter(s[1..], p);
      } else {
        assert Filter(s, p) == Filter(s[1..], p);
        SubsequenceOfTail(Filter(s[1..], p), s);
      }
    }
  }

  /** A subsequence of the tail of `s` is a subsequence of `s`. */
  lemma {:induction false} SubsequenceOfTail<T>(r: seq<T>, s: seq<T>)
    requires s != [] && IsSubsequence(r, s[1..])
    ensures IsSubsequence(r, s)
    decreases |s|, |r|
  {
    if r != [] && r[0] == s[0] {
      // s[1..] must contain r[0] somewhere and then the rest of r after it
      SubsequenceDropHead(r, s[1..]);
    }
  }

  /** Dropping the first element of a subsequence keeps it a subsequence. */
  lemma {:induction false} SubsequenceDropHead<T>(r: seq<T>, s: seq<T>)
    requires r != [] && IsSubsequence(r, s)
    ensures IsSubsequence(r[1..], s)
    decreases |s|, |r|
  {
    assert s != [];
    if r[0] == s[0] {
      assert IsSubsequence(r[1..], s[1..]);
      if r[1..] != [] {
        SubsequenceOfTail(r[1..], s);
      }
    } else {
      SubsequenceDropHead(r, s[1..]);
      if r[1..] != [] {
        SubsequenceOfTail(r[1..], s);
      }
    }
  }

  /** Keeping everything keeps the list as it is. */
  lemma {:induction false} FilterKeepsAll<T>(s: seq<T>, p: T -> bool)
    requires forall x :: x in s ==> p(x)
    ensures Filter(s, p) == s
  {
    if s != [] {
      FilterKeepsAll(s[1..], p);
    }
  }

  /** A filter keeps nothing exactly when no element passes it. */
  lemma {:induction false} FilterEmptyIff<T>(s: seq<T>, p: T -> bool)
    ensures Filter(s, p) == [] <==> forall x :: x in s ==> !p(x)
  {
    if s != [] {
      FilterEmptyIff(s[1..], p);
      assert forall x :: x in s <==> x == s[0] || x in s[1..];
    }
  }

  /** Filtering a concatenation filters each part. */
  lemma {:induction false} FilterConcat<T>(a: seq<T>, b: seq<T>, p: T -> bool)
    ensures Filter(a + b, p) == Filter(a, p) + Filter(b, p)
  {
    if a == [] {
      assert a + b == b;
    } else {
      assert (a + b)[0] == a[0] && (a + b)[1..] == a[1..] + b;
      FilterConcat(a[1..], b, p);
    }
  }

  /** Filters that agree on every element keep the same elements. */
  lemma {:induction false} FilterCongruent<T>(s: seq<T>, p: T -> bool, q: T -> bool)
    requires forall x :: x in s ==> p(x) == q(x)
    ensures Filter(s, p) == Filter(s, q)
  {
    if s != [] {
      FilterCongruent(s[1..], p, q);
    }
  }

  /** Filtering twice is filtering once by both conditions. */
  lemma {:induction false} FilterFilter<T>(s: seq<T>, p: T -> bool, q: T -> bool, both: T -> bool)
    requires forall x :: x in s ==> both(x) == (p(x) && q(x))
    ensures Filter(Filter(s, p), q) == Filter(s, both)
  {
    if s != [] {
      FilterFilter(s[1..], p, q, both);
      if p(s[0]) {
        assert Filter(s, p) == [s[0]] + Filter(s[1..], p);
        assert Filter(s, p)[1..] == Filter(s[1..], p);
      } else {
        assert Filter(s, p) == Filter(s[1..], p);
      }
    }
  }

  /** Mapping a list with one more element at the end. */
  lemma MapSnoc<T, U>(a: seq<T>, x: T, f: T -> U)
    ensures Map(a + [x], f) == Map(a, f) + [f(x)]
  {
    var l, r := Map(a + [x], f), Map(a, f) + [f(x)];
    assert |l| == |r|;
    forall i | 0 <= i < |l| ensures l[i] == r[i] {
      if i < |a| {
        assert (a + [x])[i] == a[i];
      }
    }
  }
}

=== FILE: contacts.dfy ===
/** The phone-book screen (src/screens/contacts/ContactsScreen.tsx): turning
    the device's contacts into rows, ordering them registered-first and by
    name, the search, and what tapping a row leads to. Which contacts are
    registered is a coin toss in the screen; here it is a parameter. */
module Contacts {
  import opened Common
  import opened Text

  /** A contact as the device's address book returns it. */
  datatype DeviceContact = DeviceContact(
    recordID: string, givenName: Option<string>, familyName: Option<string>,
    phoneNumbers: seq<string>)

  /** A row of the screen. */
  datatype Contact = Contact(id: string, name: string, phoneNumber: string, isRegistered: bool)

  const UnknownName: string := "Unknown"
  const LoadError: string := "Failed to load contacts"

  /** `x || ''`: a missing or empty name part prints as nothing. */
  function PartOrEmpty(part: Option<string>): string {
    part.GetOr("")
  }

  /** `${given || ''} ${family || ''}`.trim() || 'Unknown'. */
  function ContactName(dc: DeviceContact): string {
    var joined := Trim(PartOrEmpty(dc.givenName) + " " + PartOrEmpty(dc.familyName));
    if joined == "" then UnknownName else joined
  }

  /** A row's name is never empty and never starts or ends with white space:
      it is the joined name parts trimmed, or 'Unknown' exactly when those
      trim to nothing. */
  lemma ContactNameTidy(dc: DeviceContact)
    ensures Tidy(ContactName(dc))
    ensures var joined := Trim(PartOrEmpty(dc.givenName) + " " + PartOrEmpty(dc.familyName));
      ContactName(dc) == (if joined == "" then UnknownName else joined)
  {
  }

  /** A name part without white space at its ends. */
  predicate Tidy(part: string) {
    part != "" && !IsWhitespace(part[0]) && !IsWhitespace(part[|part| - 1])
  }

  /** Given and family name joined by one space. */
  lemma ContactNameOfBoth(dc: DeviceContact, given: string, family: string)
    requires dc.givenName == Some(given) && dc.familyName == Some(family)
    requires Tidy(given) && Tidy(family)
    ensures ContactName(dc) == given + " " + family
  {
    TrimOfTrimmed(given + " " + family);
  }

  /** With only a family name, the row shows just that name. */
  lemma ContactNameOfFamilyOnly(dc: DeviceContact, family: string)
    requires dc.givenName.None? && dc.familyName == Some(family) && Tidy(family)
    ensures ContactName(dc) == family
  {
    assert PartOrEmpty(dc.givenName) + " " + family == " " + family;
    TrimOfLeadingSpace(family);
  }

  /** With only a given name, the row shows just that name. */
  lemma ContactNameOfGivenOnly(dc: DeviceContact, given: string)
    requires dc.givenName == Some(given) && dc.familyName.None? && Tidy(given)
    ensures ContactName(dc) == given
  {
    assert given + " " + PartOrEmpty(dc.familyName) == given + " ";
    TrimOfTrailingSpace(given);
  }

  /** With no name at all the row says 'Unknown'. */
  lemma ContactNameOfNeither(dc: DeviceContact)
    requires dc.givenName.None? && dc.familyName.None?
    ensures ContactName(dc) == UnknownName
  {
    assert PartOrEmpty(dc.givenName) + " " + PartOrEmpty(dc.familyName) == " ";
    assert TrimStart(" ") == "";
  }

  predicate HasPhone(dc: DeviceContact) { dc.phoneNumbers != [] }

  /** `contact.phoneNumbers[0].number.replace(/\s+/g, '')`; only asked of a
      contact that has a number. */
  function PhoneOf(dc: DeviceContact): string {
    if dc.phoneNumbers == [] then "" else RemoveWhitespace(dc.phoneNumbers[0])
  }

  /** The row for a device contact and its draw. */
  function Row(entry: (DeviceContact, bool)): Contact {
    Contact(entry.0.recordID, ContactName(entry.0), PhoneOf(entry.0), entry.1)
  }

  /** A row carries the contact's record id, its name, the draw, and its first
      number with all white space removed. */
  lemma RowFields(dc: DeviceContact, registered: bool)
    requires HasPhone(dc)
    ensures var c := Row((dc, registered));
      c.id == dc.recordID && c.name == ContactName(dc) && c.isRegistered == registered &&
      NoWhitespace(c.phoneNumber) && c.phoneNumber == RemoveWhitespace(dc.phoneNumbers[0])
  {
  }

  /** The device contacts that give a row, each with its draw, in device order. */
  function Kept(device: seq<DeviceContact>, registered: seq<bool>): seq<(DeviceContact, bool)>
    requires |registered| == |device|
    decreases |device|
  {
    if device == [] then []
    else
      var n := |device| - 1;
      Kept(device[..n], registered[..n]) +
      (if HasPhone(device[n]) then [(device[n], registered[n])] else [])
  }

  /** The rows `loadContacts` builds, before sorting. */
  function Processed(device: seq<DeviceContact>, registered: seq<bool>): seq<Contact>
    requires |registered| == |device|
  {
    Map(Kept(device, registered), Row)
  }

  /** The k-th device contact has a number, and `entry` is it with its draw. */
  predicate EntryAt(device: seq<DeviceContact>, registered: seq<bool>, k: int, entry: (DeviceContact, bool))
    requires |registered| == |device|
  {
    0 <= k < |device| && HasPhone(device[k]) && entry == (device[k], registered[k])
  }

  /** Exactly the device contacts with a number are kept. */
  lemma {:induction false} KeptIff(device: seq<DeviceContact>, registered: seq<bool>, entry: (DeviceContact, bool))
    requires |registered| == |device|
    ensures entry in Kept(device, registered) <==> exists k :: EntryAt(device, registered, k, entry)
    decreases |device|
  {
    if device != [] {
      var n := |device| - 1;
      var front, rs := device[..n], registered[..n];
      KeptIff(front, rs, entry);
      if entry in Kept(device, registered) {
        if entry in Kept(front, rs) {
          var k :| EntryAt(front, rs, k, entry);
          assert EntryAt(device, registered, k, entry);
        } else {
          assert EntryAt(device, registered, n, entry);
        }
      }
      if exists k :: EntryAt(device, registered, k, entry) {
        var k :| EntryAt(device, registered, k, entry);
        if k < n {
          assert EntryAt(front, rs, k, entry);
        }
      }
    }
  }

  /** One more device contact adds its row exactly when it has a number. */
  lemma KeptSnoc(device: seq<DeviceContact>, registered: seq<bool>, k: nat)
    requires |registered| == |device| && k < |device|
    ensures Kept(device[..k + 1], registered[..k + 1]) ==
      Kept(device[..k], registered[..k]) + (if HasPhone(device[k]) then [(device[k], registered[k])] else [])
  {
    assert device[..k + 1][..k] == device[..k] && registered[..k + 1][..k] == registered[..k];
  }

  /** One more device contact adds its row exactly when it has a number. */
  lemma ProcessedSnoc(device: seq<DeviceContact>, registered: seq<bool>, k: nat)
    requires |registered| == |device| && k < |device|
    ensures Processed(device[..k + 1], registered[..k + 1]) ==
      Processed(device[..k], registered[..k]) + (if HasPhone(device[k]) then [Row((device[k], registered[k]))] else [])
  {
    KeptSnoc(device, registered, k);
    var kept := Kept(device[..k], registered[..k]);
    if HasPhone(device[k]) {
      MapSnoc(kept, (device[k], registered[k]), Row);
    } else {
      assert kept + [] == kept;
    }
  }

  /** The loop of `loadContacts`: one row per device contact with a number,
      in device order, its phone stripped of white space. */
  method ProcessDeviceContacts(device: seq<DeviceContact>, registered: seq<bool>) returns (processed: seq<Contact>)
    requires |registered| == |device|
    ensures processed == Processed(device, registered)
  {
    processed := [];
    var k := 0;
    while k < |device|
      invariant 0 <= k <= |device|
      invariant processed == Processed(device[..k], registered[..k])
    {
      ProcessedSnoc(device, registered, k);
      if HasPhone(device[k]) {
        processed := processed + [Row((device[k], registered[k]))];
      }
      k := k + 1;
    }
    assert device[..k] == device && registered[..k] == registered;
  }

  /** A device contact is kept exactly when it has a number. */
  lemma {:induction false} KeptCount(device: seq<DeviceContact>, registered: seq<bool>)
    requires |registered| == |device|
    ensures |Kept(device, registered)| == |Filter(device, HasPhone)|
    decreases |device|
  {
    if device != [] {
      var n := |device| - 1;
      KeptCount(device[..n], registered[..n]);
      assert device == device[..n] + [device[n]];
      FilterConcat(device[..n], [device[n]], HasPhone);
    }
  }

  /** Contacts without a phone number are dropped and no others. */
  lemma ProcessedCount(device: seq<DeviceContact>, registered: seq<bool>)
    requires |registered| == |device|
    ensures |Processed(device, registered)| == |Filter(device, HasPhone)|
  {
    KeptCount(device, registered);
  }

  predicate NameLe(a: string, b: string)
    decreases |a|
  {
    a == [] || (b != [] && (a[0] < b[0] || (a[0] == b[0] && NameLe(a[1..], b[1..]))))
  }

  lemma {:induction false} NameLeTotal(a: string, b: string)
    ensures NameLe(a, b) || NameLe(b, a)
    decreases |a|
  {
    if a != [] && b != [] && a[0] == b[0] {
      NameLeTotal(a[1..], b[1..]);
    }
  }

  lemma {:induction false} NameLeTransitive(a: string, b: string, c: string)
    requires NameLe(a, b) && NameLe(b, c)
    ensures NameLe(a, c)
    decreases |a|
  {
    if a != [] && b != [] && c != [] && a[0] == b[0] && b[0] == c[0] {
      NameLeTransitive(a[1..], b[1..], c[1..]);
    }
  }

  /** The sort's comparator: `a` may come before `b` when it is registered and
      `b` is not, or both are alike and its name does not sort after `b`'s. */
  predicate Before(a: Contact, b: Contact) {
    (a.isRegistered && !b.isRegistered) ||
    (a.isRegistered == b.isRegistered && NameLe(a.name, b.name))
  }

  lemma BeforeTotal(a: Contact, b: Contact)
    ensures Before(a, b) || Before(b, a)
  {
    NameLeTotal(a.name, b.name);
  }

  lemma BeforeTransitive(a: Contact, b: Contact, c: Contact)
    requires Before(a, b) && Before(b, c)
    ensures Before(a, c)
  {
    if a.isRegistered == b.isRegistered == c.isRegistered {
      NameLeTransitive(a.name, b.name, c.name);
    }
  }

  predicate Sorted(cs: seq<Contact>) {
    forall i, j :: 0 <= i < j < |cs| ==> Before(cs[i], cs[j])
  }

  /** A row that may precede the head of a sorted list may precede all of it. */
  lemma SortedCons(c: Contact, cs: seq<Contact>)
    requires Sorted(cs) && cs != [] && Before(c, cs[0])
    ensures Sorted([c] + cs)
  {
    forall j | 0 < j < |cs| ensures Before(c, cs[j]) {
      BeforeTransitive(c, cs[0], cs[j]);
    }
  }

  /** The head of a sorted list may precede a sorted list of its tail's rows
      and one row that it precedes. */
  lemma SortedConsRest(c: Contact, cs: seq<Contact>, rest: seq<Contact>)
    requires Sorted(cs) && cs != [] && Before(cs[0], c)
    requires Sorted(rest) && multiset(rest) == multiset(cs[1..]) + multiset{c}
    ensures Sorted([cs[0]] + rest)
    ensures multiset([cs[0]] + rest) == multiset(cs) + multiset{c}
  {
    forall j | 0 <= j < |rest| ensures Before(cs[0], rest[j]) {
      assert rest[j] in multiset(rest);
      if rest[j] != c {
        assert rest[j] in multiset(cs[1..]);
        var m :| 0 <= m < |cs[1..]| && cs[1..][m] == rest[j];
        assert cs[m + 1] == rest[j];
      }
    }
    assert cs == [cs[0]] + cs[1..];
  }

  /** `c` placed before the first row it may precede. */
  function Insert(c: Contact, cs: seq<Contact>): (r: seq<Contact>)
    requires Sorted(cs)
    ensures Sorted(r)
    ensures multiset(r) == multiset(cs) + multiset{c}
    decreases |cs|
  {
    if cs == [] then [c]
    else if Before(c, cs[0]) then
      SortedCons(c, cs);
      [c] + cs
    else
      BeforeTotal(c, cs[0]);
      var rest := Insert(c, cs[1..]);
      SortedConsRest(c, cs, rest);
      [cs[0]] + rest
  }

  /** `processedContacts.sort(...)`: the same rows, registered first and by name. */
  function SortContacts(cs: seq<Contact>): (r: seq<Contact>)
    ensures Sorted(r)
    ensures multiset(r) == multiset(cs)
    decreases |cs|
  {
    if cs == [] then []
    else
      assert cs == [cs[0]] + cs[1..];
      Insert(cs[0], SortContacts(cs[1..]))
  }

  /** After sorting, every registered row comes before every unregistered one,
      and rows of the same kind are in name order. */
  lemma SortedGroups(cs: seq<Contact>, i: nat, j: nat)
    requires i < j < |SortContacts(cs)|
    ensures var r := SortContacts(cs);
      (r[j].isRegistered ==> r[i].isRegistered) &&
      (r[i].isRegistered == r[j].isRegistered ==> NameLe(r[i].name, r[j].name))
  {
  }

  /** The search: everything for an empty query, otherwise the rows whose
      lower-cased name contains the lower-cased query or whose number contains
      the query as typed. */
  predicate MatchesQuery(c: Contact, query: string) {
    ContainsIgnoringCase(c.name, query) || Contains(c.phoneNumber, query)
  }

  function VisibleContacts(cs: seq<Contact>, query: string): seq<Contact> {
    if query == "" then cs else Filter(cs, (c: Contact) => MatchesQuery(c, query))
  }

  /** A row is shown exactly when it is loaded and the query is empty or matches it. */
  lemma VisibleContactsIff(cs: seq<Contact>, query: string, c: Contact)
    ensures c in VisibleContacts(cs, query) <==> c in cs && (query == "" || MatchesQuery(c, query))
  {
    if query != "" {
      var r := VisibleContacts(cs, query);
      if c in r {
        var i :| 0 <= i < |r| && r[i] == c;
      }
      if c in cs && MatchesQuery(c, query) {
        var i :| 0 <= i < |cs| && cs[i] == c;
      }
    }
  }

  /** Searching keeps the registered-first, by-name order. */
  lemma VisibleContactsStaySorted(cs: seq<Contact>, query: string)
    requires Sorted(cs)
    ensures Sorted(VisibleContacts(cs, query))
  {
    if query != "" {
      var p := (c: Contact) => MatchesQuery(c, query);
      FilterIsSubsequence(cs, p);
      SubsequenceSorted(Filter(cs, p), cs);
    }
  }

  lemma {:induction false} SubsequenceSorted(r: seq<Contact>, s: seq<Contact>)
    requires IsSubsequence(r, s) && Sorted(s)
    ensures Sorted(r)
    decreases |s|
  {
    if r != [] && s != [] {
      assert Sorted(s[1..]);
      if r[0] == s[0] {
        SubsequenceSorted(r[1..], s[1..]);
        forall j | 0 < j < |r| ensures Before(r[0], r[j]) {
          SubsequenceMembers(r[1..], s[1..], j - 1);
        }
      } else {
        SubsequenceSorted(r, s[1..]);
      }
    }
  }

  /** An element of a subsequence is an element of the sequence. */
  lemma {:induction false} SubsequenceMembers<T>(r: seq<T>, s: seq<T>, j: nat)
    requires IsSubsequence(r, s) && j < |r|
    ensures r[j] in s
    decreases |s|
  {
    if r[0] == s[0] {
      if j > 0 {
        SubsequenceMembers(r[1..], s[1..], j - 1);
      }
    } else {
      SubsequenceMembers(r, s[1..], j);
    }
  }

  /** What tapping a row leads to: the send screen with the contact's name and
      number, or the invitation prompt. */
  datatype Selection = SendTo(name: string, phoneNumber: string) | InvitePrompt(message: string)

  /** `handleContactSelect`. */
  function HandleContactSelect(c: Contact): (s: Selection)
    ensures s.SendTo? <==> c.isRegistered
    ensures s.SendTo? ==> s.name == c.name && s.phoneNumber == c.phoneNumber
    ensures s.InvitePrompt? ==> StartsWith(s.message, c.name)
  {
    if c.isRegistered then SendTo(c.name, c.phoneNumber)
    else InvitePrompt(c.name + " is not on PesaSoft yet. Would you like to invite them?")
  }

  /** The toast of the prompt's Invite button. */
  function InviteMessage(c: Contact): (text: string)
    ensures StartsWith(text, "Invitation sent to ") && text[19..] == c.name
  {
    "Invitation sent to " + c.name
  }

  /** `startNewChat`: a personal chat with a registered contact, or a notice. */
  datatype ChatStart = OpenChat(chatId: string, chatName: string, chatType: string) | NotAvailable(message: string)

  function StartNewChat(c: Contact): (s: ChatStart)
    ensures s.OpenChat? <==> c.isRegistered
    ensures s.OpenChat? ==> s == OpenChat(c.id, c.name, "personal")
  {
    if c.isRegistered then OpenChat(c.id, c.name, "personal")
    else NotAvailable(c.name + " is not on PesaSoft yet")
  }

  class ContactsScreen {
    var contacts: seq<Contact>
    var filteredContacts: seq<Contact>
    var searchQuery: string
    var isLoading: bool
    var hasPermission: bool

    /** The filtering effect has run since the last change of the rows or the
        search, and the rows are in sorted order. */
    ghost predicate Valid()
      reads this
    {
      Sorted(contacts) && filteredContacts == VisibleContacts(contacts, searchQuery)
    }

    constructor ()
      ensures Valid() && contacts == [] && searchQuery == "" && !isLoading && !hasPermission
    {
      contacts, filteredContacts, searchQuery := [], [], "";
      isLoading, hasPermission := false, false;
    }

    /** `filterContacts`. */
    method FilterContacts()
      requires Sorted(contacts)
      modifies this`filteredContacts
      ensures Valid()
    {
      if searchQuery == "" {
        filteredContacts := contacts;
        return;
      }
      var query := searchQuery;
      filteredContacts := Filter(contacts, (c: Contact) => MatchesQuery(c, query));
    }

    /** `loadContacts` then the filtering effect. `device` is what the address
        book returns (`None` when reading it fails); `registered[k]` is the
        draw for the k-th device contact. A failed read keeps the rows and
        reports 'Failed to load contacts'. */
    method LoadContacts(device: Option<seq<DeviceContact>>, registered: seq<bool>)
      returns (error: Option<string>)
      requires Valid()
      requires device.Some? ==> |registered| == |device.value|
      modifies this`contacts, this`filteredContacts, this`isLoading
      ensures Valid() && !isLoading
      ensures device.Some? ==>
        contacts == SortContacts(Processed(device.value, registered)) && error.None?
      ensures device.None? ==> contacts == old(contacts) && error == Some(LoadError)
    {
      isLoading := true;
      if device.None? {
        error := Some(LoadError);
      } else {
        var processed := ProcessDeviceContacts(device.value, registered);
        contacts := SortContacts(processed);
        error := None;
      }
      FilterContacts();
      isLoading := false;
    }

    /** `requestContactsPermission`: with access granted (always on iOS) the
        contacts are loaded; otherwise the screen explains why it needs them
        (the returned flag). */
    method RequestContactsPermission(granted: bool, device: Option<seq<DeviceContact>>, registered: seq<bool>)
      returns (permissionAlert: bool, error: Option<string>)
      requires Valid()
      requires device.Some? ==> |registered| == |device.value|
      modifies this`hasPermission, this`contacts, this`filteredContacts, this`isLoading
      ensures Valid() && hasPermission == granted && permissionAlert == !granted
      ensures !granted ==> contacts == old(contacts) && isLoading == old(isLoading) && error.None?
      ensures granted ==> !isLoading
      ensures granted && device.Some? ==>
        contacts == SortContacts(Processed(device.value, registered)) && error.None?
      ensures granted && device.None? ==> contacts == old(contacts) && error == Some(LoadError)
    {
      hasPermission := granted;
      if granted {
        permissionAlert := false;
        error := LoadContacts(device, registered);
      } else {
        permissionAlert, error := true, None;
      }
    }

    method SetSearchQuery(query: string)
      requires Valid()
      modifies this`searchQuery, this`filteredContacts
      ensures Valid() && searchQuery == query
    {
      searchQuery := query;
      FilterContacts();
    }
  }
}

=== FILE: notifications.dfy ===
/** The notification list (src/screens/notifications/NotificationsScreen.tsx):
    marking one or all notifications read, deleting one, the unread count that
    decides whether "Mark all as read" is offered, and the relative age shown
    beside each notification. */
module Notifications {
  import opened Common
  import opened Text
  import opened Age

  datatype Kind = Transaction | Security | Promotion | System

  /** A notification; `timestamp` is in milliseconds. */
  datatype Notification = Notification(
    id: string, title: string, message: string, kind: Kind,
    timestamp: int, isRead: bool, icon: string, color: string)

  /** The sample list `loadNotifications` shows, with ages 5 minutes, 30
      minutes, 2 hours, 6 hours and 1 day at load time `now`. */
  function SampleNotifications(now: int): seq<Notification> {
    [ Notification("1", "Payment Received", "You received KES 2,500 from John Doe",
        Transaction, now - 5 * MinuteMs, false, "arrow-downward", "#22C55E"),
      Notification("2", "Security Alert", "New device login detected from Nairobi",
        Security, now - 30 * MinuteMs, false, "security", "#EF4444"),
      Notification("3", "Payment Sent", "KES 1,000 sent to Sarah Wilson successfully",
        Transaction, now - 2 * HourMs, true, "arrow-upward", "#3B82F6"),
      Notification("4", "Special Offer", "Get 5% cashback on your next top-up!",
        Promotion, now - 6 * HourMs, true, "local-offer", "#F59E0B"),
      Notification("5", "System Maintenance", "Scheduled maintenance on Sunday 2AM - 4AM",
        System, now - DayMs, true, "build", "#8B5CF6") ]
  }

  predicate Unread(n: Notification) { !n.isRead }

  /** `notifications.filter(n => !n.isRead).length`. */
  function UnreadCount(ns: seq<Notification>): nat {
    |Filter(ns, Unread)|
  }

  /** The count is zero exactly when every notification is read. */
  lemma UnreadCountZeroIff(ns: seq<Notification>)
    ensures UnreadCount(ns) == 0 <==> forall i :: 0 <= i < |ns| ==> ns[i].isRead
  {
    FilterEmptyIff(ns, Unread);
  }

  /** "Mark all as read" is offered only while something is unread. */
  predicate OffersMarkAll(ns: seq<Notification>) {
    UnreadCount(ns) > 0
  }

  /** `markAsRead(id)`: notifications with that id become read; everything
      else, order and length included, is kept. */
  function MarkAsRead(ns: seq<Notification>, id: string): (r: seq<Notification>)
    ensures |r| == |ns|
    ensures forall i :: 0 <= i < |ns| ==>
      r[i] == if ns[i].id == id then ns[i].(isRead := true) else ns[i]
  {
    Map(ns, (n: Notification) => if n.id == id then n.(isRead := true) else n)
  }

  /** The unread notifications carrying `id`. */
  function UnreadWithId(ns: seq<Notification>, id: string): nat {
    |Filter(ns, (n: Notification) => !n.isRead && n.id == id)|
  }

  /** Marking one id read lowers the unread count by exactly the number of
      unread notifications with that id. */
  lemma {:induction false} MarkAsReadCount(ns: seq<Notification>, id: string)
    ensures UnreadCount(MarkAsRead(ns, id)) + UnreadWithId(ns, id) == UnreadCount(ns)
  {
    if ns != [] {
      MarkAsReadCount(ns[1..], id);
      assert MarkAsRead(ns, id) == [MarkAsRead(ns, id)[0]] + MarkAsRead(ns[1..], id);
      assert Filter(MarkAsRead(ns, id), Unread)
        == Filter([MarkAsRead(ns, id)[0]], Unread) + Filter(MarkAsRead(ns[1..], id), Unread) by {
        FilterConcat([MarkAsRead(ns, id)[0]], MarkAsRead(ns[1..], id), Unread);
      }
    }
  }

  /** With distinct ids, tapping an unread notification lowers the count by one. */
  lemma MarkUnreadLowersCountByOne(ns: seq<Notification>, k: nat)
    requires k < |ns| && !ns[k].isRead
    requires forall i :: 0 <= i < |ns| && i != k ==> ns[i].id != ns[k].id
    ensures UnreadCount(MarkAsRead(ns, ns[k].id)) == UnreadCount(ns) - 1
  {
    MarkAsReadCount(ns, ns[k].id);
    OnlyOneWithId(ns, k);
  }

  /** Exactly one unread notification carries the id of an unread notification
      whose id no other notification has. */
  lemma {:induction false} OnlyOneWithId(ns: seq<Notification>, k: nat)
    requires k < |ns| && !ns[k].isRead
    requires forall i :: 0 <= i < |ns| && i != k ==> ns[i].id != ns[k].id
    ensures UnreadWithId(ns, ns[k].id) == 1
  {
    var id := ns[k].id;
    var p := (n: Notification) => !n.isRead && n.id == id;
    assert ns == ns[..k] + [ns[k]] + ns[k + 1..];
    FilterConcat(ns[..k] + [ns[k]], ns[k + 1..], p);
    FilterConcat(ns[..k], [ns[k]], p);
    assert Filter(ns[..k], p) == [] by {
      FilterEmptyIff(ns[..k], p);
    }
    assert Filter(ns[k + 1..], p) == [] by {
      FilterEmptyIff(ns[k + 1..], p);
    }
  }

  /** `markAllAsRead`: every notification read, length, order and all other
      fields kept. */
  function MarkAllAsRead(ns: seq<Notification>): (r: seq<Notification>)
    ensures |r| == |ns|
    ensures forall i :: 0 <= i < |ns| ==> r[i] == ns[i].(isRead := true)
  {
    Map(ns, (n: Notification) => n.(isRead := true))
  }

  /** After marking all read nothing is unread and the button disappears. */
  lemma MarkAllLeavesNothingUnread(ns: seq<Notification>)
    ensures UnreadCount(MarkAllAsRead(ns)) == 0
    ensures !OffersMarkAll(MarkAllAsRead(ns))
  {
    UnreadCountZeroIff(MarkAllAsRead(ns));
  }

  /** Marking all read twice is marking all read once. */
  lemma MarkAllIdempotent(ns: seq<Notification>)
    ensures MarkAllAsRead(MarkAllAsRead(ns)) == MarkAllAsRead(ns)
  {
  }

  /** `deleteNotification(id)`. */
  function DeleteNotification(ns: seq<Notification>, id: string): (r: seq<Notification>)
    ensures forall i :: 0 <= i < |r| ==> r[i].id != id && r[i] in ns
    ensures forall i :: 0 <= i < |ns| && ns[i].id != id ==> ns[i] in r
  {
    Filter(ns, (n: Notification) => n.id != id)
  }

  /** Deletion keeps the remaining notifications in their order. */
  lemma DeleteKeepsOrder(ns: seq<Notification>, id: string)
    ensures IsSubsequence(DeleteNotification(ns, id), ns)
  {
    FilterIsSubsequence(ns, (n: Notification) => n.id != id);
  }

  /** `formatTimestamp`: the label for a notification `diff` milliseconds old;
      `None` where a calendar date is shown. */
  function FormatTimestamp(now: int, timestamp: int): (text: Option<string>)
    ensures text.None? <==> now - timestamp >= 7 * DayMs
  {
    NotificationLabel(AgeOf(now - timestamp))
  }

  /** Between one minute and one hour the label is the whole minutes, "Nm ago". */
  lemma FormatTimestampMinutes(now: int, timestamp: int)
    requires MinuteMs <= now - timestamp < HourMs
    ensures FormatTimestamp(now, timestamp) == Some(NatToString((now - timestamp) / MinuteMs) + "m ago")
  {
  }

  /** The sample list starts with two unread notifications. */
  lemma SampleUnreadCount(now: int)
    ensures UnreadCount(SampleNotifications(now)) == 2
  {
    var s := SampleNotifications(now);
    assert s == s[..2] + s[2..];
    FilterConcat(s[..2], s[2..], Unread);
    FilterKeepsAll(s[..2], Unread);
    FilterEmptyIff(s[2..], Unread);
  }

  /** At load time the sample list reads "5m ago", "30m ago", "2h ago", "6h ago"
      and "1d ago". */
  lemma SampleLabelsAtLoadTime(now: int)
    ensures var s := SampleNotifications(now);
      FormatTimestamp(now, s[0].timestamp) == Some("5m ago") &&
      FormatTimestamp(now, s[1].timestamp) == Some("30m ago") &&
      FormatTimestamp(now, s[2].timestamp) == Some("2h ago") &&
      FormatTimestamp(now, s[3].timestamp) == Some("6h ago") &&
      FormatTimestamp(now, s[4].timestamp) == Some("1d ago")
  {
    var s := SampleNotifications(now);
    assert now - s[0].timestamp == 5 * MinuteMs && AgeOf(5 * MinuteMs) == Minutes(5);
    assert NotificationLabel(Minutes(5)) == Some("5m ago") by { assert NatToString(5) == "5"; assert NatToString(5) + "m ago" == "5m ago"; }
    assert now - s[1].timestamp == 30 * MinuteMs && AgeOf(30 * MinuteMs) == Minutes(30);
    assert NotificationLabel(Minutes(30)) == Some("30m ago") by { assert NatToString(30) == "30"; assert NatToString(30) + "m ago" == "30m ago"; }
    assert now - s[2].timestamp == 2 * HourMs && AgeOf(2 * HourMs) == Hours(2);
    assert NotificationLabel(Hours(2)) == Some("2h ago") by { assert NatToString(2) == "2"; assert NatToString(2) + "h ago" == "2h ago"; }
    assert now - s[3].timestamp == 6 * HourMs && AgeOf(6 * HourMs) == Hours(6);
    assert NotificationLabel(Hours(6)) == Some("6h ago") by { assert NatToString(6) == "6"; assert NatToString(6) + "h ago" == "6h ago"; }
    assert now - s[4].timestamp == DayMs && AgeOf(DayMs) == Days(1);
    assert NotificationLabel(Days(1)) == Some("1d ago") by { assert NatToString(1) == "1"; assert NatToString(1) + "d ago" == "1d ago"; }
  }

  /** The four delivery switches of the settings section. */
  datatype Settings = Settings(transactions: bool, security: bool, promotions: bool, system: bool)

  class NotificationsScreen {
    var notifications: seq<Notification>
    var isRefreshing: bool
    var settings: Settings

    /** Promotions start switched off, the other three on. */
    constructor ()
      ensures notifications == [] && !isRefreshing
      ensures settings == Settings(true, true, false, true)
    {
      notifications, isRefreshing := [], false;
      settings := Settings(true, true, false, true);
    }

    /** `loadNotifications` (also run by pull-to-refresh). */
    method LoadNotifications(now: int)
      modifies this`notifications
      ensures notifications == SampleNotifications(now)
    {
      notifications := SampleNotifications(now);
    }

    /** Tapping a notification. */
    method HandleMarkAsRead(id: string)
      modifies this`notifications
      ensures notifications == MarkAsRead(old(notifications), id)
      ensures UnreadCount(notifications) <= UnreadCount(old(notifications))
    {
      MarkAsReadCount(notifications, id);
      notifications := MarkAsRead(notifications, id);
    }

    /** The "Mark all as read" button, shown only while something is unread. */
    method HandleMarkAllAsRead()
      requires OffersMarkAll(notifications)
      modifies this`notifications
      ensures notifications == MarkAllAsRead(old(notifications))
      ensures UnreadCount(notifications) == 0
    {
      notifications := MarkAllAsRead(notifications);
      MarkAllLeavesNothingUnread(old(notifications));
    }

    method HandleDelete(id: string)
      modifies this`notifications
      ensures notifications == DeleteNotification(old(notifications), id)
    {
      notifications := DeleteNotification(notifications, id);
    }

    /** One of the four switches. */
    method SetSetting(kind: Kind, value: bool)
      modifies this`settings
      ensures settings == match kind
        case Transaction => old(settings).(transactions := value)
        case Security => old(settings).(security := value)
        case Promotion => old(settings).(promotions := value)
        case System => old(settings).(system := value)
    {
      settings := match kind
        case Transaction => settings.(transactions := value)
        case Security => settings.(security := value)
        case Promotion => settings.(promotions := value)
        case System => settings.(system := value);
    }
  }
}

=== FILE: payload.dfy ===
/** The JSON objects the scannable codes carry, as flat field maps: a field
    absent from the map is `undefined`. A field's value is a JSON scalar, or a
    nested array or object kept only as the text a template literal prints
    for it. */
module Payload {
  import opened Common

  /** A field value. `Num` holds the number as JavaScript prints it (0 and -0
      print as "0"). */
  datatype Value = Null | Bool(b: bool) | Num(text: string) | Str(s: string) | Compound(text: string)

  type Fields = map<string, Value>

  /** `obj[key]`: the value, or `None` for `undefined`. */
  function Lookup(f: Fields, key: string): (v: Option<Value>)
    ensures v.Some? <==> key in f
    ensures v.Some? ==> v.value == f[key]
  {
    if key in f then Some(f[key]) else None
  }

  /** JavaScript truthiness of a field: `undefined`, `null`, `false`, `0` and
      `""` are falsy, everything else is truthy. */
  predicate IsTruthy(v: Option<Value>) {
    match v
    case None => false
    case Some(Null) => false
    case Some(Bool(b)) => b
    case Some(Num(t)) => t != "0"
    case Some(Str(s)) => s != ""
    case Some(Compound(_)) => true
  }

  /** How a template literal prints a value. */
  function Render(v: Value): string {
    match v
    case Null => "null"
    case Bool(b) => if b then "true" else "false"
    case Num(t) => t
    case Str(s) => s
    case Compound(t) => t
  }
}

=== FILE: pin_pad.dfy ===
/** The bounded 4-digit PIN buffer behind both number pads (the send-money
    PIN step and the PIN setup screen): a press appends a digit while the
    buffer is short, backspace drops the last character (`slice(0, -1)`). */
module PinPad {
  import opened Text

  const PinLength: nat := 4

  /** A buffer the pad can hold: at most 4 digits. */
  predicate IsPinBuffer(b: string) {
    |b| <= PinLength && AllDigits(b)
  }

  /** A digit press: appended only while the buffer is shorter than 4. */
  function Press(b: string, digit: char): (r: string)
    ensures |b| < PinLength ==> |r| == |b| + 1 && r[|b|] == digit
    ensures |b| >= PinLength ==> r == b
    ensures b <= r
    ensures IsPinBuffer(b) && IsDigit(digit) ==> IsPinBuffer(r)
  {
    if |b| < PinLength then b + [digit] else b
  }

  /** `b.slice(0, -1)`: everything but the last character; empty stays empty. */
  function Backspace(b: string): (r: string)
    ensures r <= b
    ensures |r| == if b == [] then 0 else |b| - 1
    ensures IsPinBuffer(b) ==> IsPinBuffer(r)
  {
    if b == [] then [] else b[..|b| - 1]
  }

  /** Backspace undoes a press that was taken. */
  lemma BackspaceUndoesPress(b: string, digit: char)
    requires |b| < PinLength
    ensures Backspace(Press(b, digit)) == b
  {
    assert (b + [digit])[..|b|] == b;
  }

  /** The buffer after pressing each of `digits` in turn. */
  function PressAll(b: string, digits: string): (r: string)
    decreases |digits|
  {
    if digits == [] then b else PressAll(Press(b, digits[0]), digits[1..])
  }

  /** Presses fill the free places with the first digits pressed, in order;
      the presses after the buffer is full are ignored. */
  lemma {:induction false} PressAllKeepsFirstFour(b: string, digits: string)
    requires |b| <= PinLength
    ensures PressAll(b, digits) == b + Take(digits, PinLength - |b|)
    decreases |digits|
  {
    if digits != [] {
      if |b| < PinLength {
        PressAllKeepsFirstFour(b + [digits[0]], digits[1..]);
        assert Take(digits, PinLength - |b|) == [digits[0]] + Take(digits[1..], PinLength - |b| - 1);
      } else {
        PressAllKeepsFirstFour(b, digits[1..]);
      }
    }
  }
}

=== FILE: pin_setup.dfy ===
/** The PIN setup screen (src/screens/auth/PinSetupScreen.tsx): step 1 fills
    `pin`, step 2 fills `confirmPin`; Confirm compares the two. The alerts and
    navigation are outcomes the handler returns. */
module PinSetup {
  import opened Text
  import opened PinPad

  /** What `handleContinue` does: nothing (the active buffer is not full),
      move to the confirm step, or raise the success or mismatch alert. */
  datatype ContinueOutcome = NotReady | ConfirmStep | PinsMatch | PinsMismatch

  class PinSetupScreen {
    var pin: string
    var confirmPin: string
    var step: int

    /** Both buffers hold at most 4 digits; the confirm step is reached only
        with a full `pin`, and `confirmPin` is empty outside it. */
    ghost predicate Valid()
      reads this
    {
      (step == 1 || step == 2)
      && IsPinBuffer(pin) && IsPinBuffer(confirmPin)
      && (step == 2 ==> |pin| == PinLength)
      && (step == 1 ==> confirmPin == "")
    }

    constructor ()
      ensures Valid() && step == 1 && pin == "" && confirmPin == ""
    {
      pin, confirmPin, step := "", "", 1;
    }

    /** `handleNumberPress`: the digit goes to the active buffer; `pin` is
        left alone in step 2. */
    method HandleNumberPress(digit: char)
      requires Valid() && IsDigit(digit)
      modifies this
      ensures Valid() && step == old(step)
      ensures step == 1 ==> pin == Press(old(pin), digit) && confirmPin == old(confirmPin)
      ensures step == 2 ==> confirmPin == Press(old(confirmPin), digit) && pin == old(pin)
    {
      if step == 1 {
        if |pin| < PinLength {
          pin := pin + [digit];
        }
      } else {
        if |confirmPin| < PinLength {
          confirmPin := confirmPin + [digit];
        }
      }
    }

    /** `handleBackspace`: the last character of the active buffer goes; the
        other buffer is left alone. */
    method HandleBackspace()
      requires Valid()
      modifies this
      ensures Valid() && step == old(step)
      ensures step == 1 ==> pin == Backspace(old(pin)) && confirmPin == old(confirmPin)
      ensures step == 2 ==> confirmPin == Backspace(old(confirmPin)) && pin == old(pin)
    {
      if step == 1 {
        pin := Backspace(pin);
      } else {
        confirmPin := Backspace(confirmPin);
      }
    }

    /** `handleContinue`: with a full `pin`, step 1 moves to step 2; with a full
        `confirmPin`, step 2 reports whether the two PINs are equal; with the
        active buffer not full, nothing happens. Only the step can change. */
    method HandleContinue() returns (outcome: ContinueOutcome)
      requires Valid()
      modifies this`step
      ensures Valid() && pin == old(pin) && confirmPin == old(confirmPin)
      ensures old(step) == 1 && |pin| == PinLength ==> outcome == ConfirmStep && step == 2
      ensures old(step) == 2 && |confirmPin| == PinLength ==>
        step == 2 && outcome == (if pin == confirmPin then PinsMatch else PinsMismatch)
      ensures (old(step) == 1 && |pin| != PinLength) || (old(step) == 2 && |confirmPin| != PinLength)
        ==> outcome == NotReady && step == old(step)
    {
      if step == 1 && |pin| == PinLength {
        step := 2;
        outcome := ConfirmStep;
      } else if step == 2 && |confirmPin| == PinLength {
        outcome := if pin == confirmPin then PinsMatch else PinsMismatch;
      } else {
        outcome := NotReady;
      }
    }

    /** The OK button of the mismatch alert, its only choice: back to step 1
        with both buffers empty. */
    method AcknowledgeMismatch()
      modifies this
      ensures Valid() && step == 1 && pin == "" && confirmPin == ""
    {
      step := 1;
      pin := "";
      confirmPin := "";
    }
  }
}

=== FILE: qr_scanner.dfy ===
/** The code scanner (src/screens/qr/QRScannerScreen.tsx). A decoded code is
    classified as a receive code (go to Send with that recipient), a payment
    request (ask before paying) or an invalid code; the `scanned` flag makes
    the camera ignore further codes until an alert choice clears it. Camera
    permission handling and vibration are not part of this model. */
module QRScanner {
  import opened Common
  import opened Text
  import opened Payload

  /** What `JSON.parse(event.data)` gives: no JSON at all, a JSON value that is
      not an object (`null`, a scalar or an array: reading `.type` of these
      throws or gives `undefined`), or an object. */
  datatype ScanData = Unreadable | NotAnObject | Object(fields: Fields)

  /** The recipient handed to Send for a receive code. */
  datatype ScannedRecipient = ScannedRecipient(
    id: Option<Value>, firstName: string, lastName: string, phoneNumber: Option<Value>)

  /** What a code leads to: Send with a recipient, the payment alert with its
      text and the payload, or the invalid-code alert. */
  datatype ScanResult =
    | SendTo(recipient: ScannedRecipient)
    | PaymentRequest(prompt: string, payment: Fields)
    | InvalidCode

  const ReceiveTag: Value := Str("receive")
  const PaymentTag: Value := Str("payment")

  /** A receive code's name split at spaces: the first piece and the second
      (or "" when there is none). */
  function SplitName(name: string): (r: (string, string))
    ensures ' ' !in r.0 && ' ' !in r.1
    ensures StartsWith(name, r.0) && (|r.0| < |name| ==> name[|r.0|] == ' ')
    ensures |r.0| == |name| ==> r.1 == ""
    ensures |r.0| < |name| ==> StartsWith(name[|r.0| + 1..], r.1)
    ensures |r.0| < |name| && |r.0| + 1 + |r.1| < |name| ==> name[|r.0| + 1 + |r.1|] == ' '
  {
    var parts := Split(name, ' ');
    if |parts| > 1 then
      SplitRest(name, ' ');
      (parts[0], parts[1])
    else (parts[0], "")
  }

  /** A name without spaces is all first name. */
  lemma SplitNameOfOneWord(name: string)
    requires ' ' !in name
    ensures SplitName(name) == (name, "")
  {
    SplitWithoutSeparator(name, ' ');
  }

  /** "first last" with space-free parts splits back into the two parts. */
  lemma SplitNameOfTwoWords(first: string, last: string)
    requires ' ' !in first && ' ' !in last
    ensures SplitName(first + " " + last) == (first, last)
  {
    assert first + " " + last == first + [' '] + last;
    SplitTwoWords(first, last, ' ');
  }

  /** Words after the second are dropped. */
  lemma SplitNameDropsExtraWords(first: string, last: string, rest: string)
    requires ' ' !in first && ' ' !in last
    ensures SplitName(first + " " + last + " " + rest) == (first, last)
  {
    assert first + " " + last + " " + rest == first + [' '] + (last + [' '] + rest);
    SplitAtFirst(first, ' ', last + [' '] + rest);
    SplitAtFirst(last, ' ', rest);
  }

  /** The amount part of the payment alert: "KES <amount>", or 'amount' when
      the field is falsy. */
  function AmountText(f: Fields): (t: string)
    ensures IsTruthy(Lookup(f, "amount")) ==> t == "KES " + Render(Lookup(f, "amount").value)
    ensures !IsTruthy(Lookup(f, "amount")) ==> t == "amount"
  {
    var amount := Lookup(f, "amount");
    if IsTruthy(amount) then "KES " + Render(amount.value) else "amount"
  }

  /** The merchant part of the payment alert: the name, or 'merchant' when
      the field is falsy. */
  function MerchantText(f: Fields): (t: string)
    ensures IsTruthy(Lookup(f, "merchantName")) ==> t == Render(Lookup(f, "merchantName").value)
    ensures !IsTruthy(Lookup(f, "merchantName")) ==> t == "merchant"
  {
    var merchant := Lookup(f, "merchantName");
    if IsTruthy(merchant) then Render(merchant.value) else "merchant"
  }

  /** The payment alert's text: "Pay KES <amount> to <merchant>?", with
      'amount' and 'merchant' standing in for falsy fields. */
  function PaymentPrompt(f: Fields): (m: string)
    ensures StartsWith(m, "Pay " + AmountText(f) + " to ")
    ensures EndsWith(m, " to " + MerchantText(f) + "?")
  {
    ConcatEnds("Pay " + AmountText(f) + " to ", MerchantText(f) + "?");
    ConcatEnds("Pay " + AmountText(f), " to " + MerchantText(f) + "?");
    "Pay " + AmountText(f) + " to " + MerchantText(f) + "?"
  }

  /** The alert reads "Pay KES <amount> to " for a truthy amount and
      "Pay amount to " otherwise, and ends " to <merchant>?" for a truthy
      merchant name and " to merchant?" otherwise. */
  lemma PaymentPromptFallbacks(f: Fields)
    ensures IsTruthy(Lookup(f, "amount")) ==>
      StartsWith(PaymentPrompt(f), "Pay KES " + Render(Lookup(f, "amount").value) + " to ")
    ensures !IsTruthy(Lookup(f, "amount")) ==> StartsWith(PaymentPrompt(f), "Pay amount to ")
    ensures IsTruthy(Lookup(f, "merchantName")) ==>
      EndsWith(PaymentPrompt(f), " to " + Render(Lookup(f, "merchantName").value) + "?")
    ensures !IsTruthy(Lookup(f, "merchantName")) ==> EndsWith(PaymentPrompt(f), " to merchant?")
  {
    if IsTruthy(Lookup(f, "amount")) {
      assert "Pay " + AmountText(f) + " to " == "Pay KES " + Render(Lookup(f, "amount").value) + " to ";
    } else {
      assert "Pay " + AmountText(f) + " to " == "Pay amount to ";
    }
    if !IsTruthy(Lookup(f, "merchantName")) {
      assert " to " + MerchantText(f) + "?" == " to merchant?";
    }
  }

  /** A payment code with an amount and a merchant name shows both. */
  lemma PromptWithAmountAndMerchant()
    ensures PaymentPrompt(map["type" := PaymentTag, "amount" := Num("500"), "merchantName" := Str("Java House")])
      == "Pay KES 500 to Java House?"
  {
    var f := map["type" := PaymentTag, "amount" := Num("500"), "merchantName" := Str("Java House")];
    assert Lookup(f, "amount") == Some(Num("500"));
    assert Lookup(f, "merchantName") == Some(Str("Java House"));
    assert AmountText(f) == "KES " + "500";
    assert MerchantText(f) == "Java House";
  }

  /** A zero amount is falsy: the prompt falls back to 'amount', as it does
      for a missing merchant name. */
  lemma PromptWithZeroAmount()
    ensures PaymentPrompt(map["type" := PaymentTag, "amount" := Num("0")]) == "Pay amount to merchant?"
  {
    var f := map["type" := PaymentTag, "amount" := Num("0")];
    assert Lookup(f, "amount") == Some(Num("0"));
    assert Lookup(f, "merchantName") == None;
    assert AmountText(f) == "amount";
    assert MerchantText(f) == "merchant";
  }

  /** The body of `handleBarCodeRead` once the scan gate has let a code through.
      A receive code needs a string `name` (otherwise `split` throws and the code
      is invalid); a payment code is not checked further and its payload is kept
      whole; any other object, or anything that is not an object, is invalid. */
  function Classify(data: ScanData): (r: ScanResult)
    ensures r.SendTo? <==> (data.Object? && Lookup(data.fields, "type") == Some(ReceiveTag)
      && Lookup(data.fields, "name").Some? && data.fields["name"].Str?)
    ensures r.PaymentRequest? <==> data.Object? && Lookup(data.fields, "type") == Some(PaymentTag)
    ensures r.PaymentRequest? ==> r.payment == data.fields && r.prompt == PaymentPrompt(data.fields)
    ensures r.SendTo? ==> (r.recipient.id == Lookup(data.fields, "userId")
      && r.recipient.phoneNumber == Lookup(data.fields, "phoneNumber")
      && (r.recipient.firstName, r.recipient.lastName) == SplitName(data.fields["name"].s))
  {
    match data
    case Object(f) =>
      if Lookup(f, "type") == Some(ReceiveTag) then
        match Lookup(f, "name")
        case Some(Str(name)) =>
          var (first, last) := SplitName(name);
          SendTo(ScannedRecipient(Lookup(f, "userId"), first, last, Lookup(f, "phoneNumber")))
        case _ => InvalidCode
      else if Lookup(f, "type") == Some(PaymentTag) then
        PaymentRequest(PaymentPrompt(f), f)
      else InvalidCode
    case _ => InvalidCode
  }

  class QRScannerScreen {
    var scanned: bool
    var flashOn: bool

    constructor ()
      ensures !scanned && !flashOn
    {
      scanned, flashOn := false, false;
    }

    /** `handleBarCodeRead`: ignored (`None`) while a code is being handled;
        otherwise the code is classified, and the gate stays closed whatever
        the outcome, a receive code included. */
    method HandleBarCodeRead(data: ScanData) returns (result: Option<ScanResult>)
      modifies this`scanned
      ensures scanned
      ensures old(scanned) ==> result.None?
      ensures !old(scanned) ==> result == Some(Classify(data))
    {
      if scanned {
        return None;
      }
      scanned := true;
      result := Some(Classify(data));
    }

    /** Cancel on the payment alert reopens the gate. */
    method CancelPayment()
      modifies this`scanned
      ensures !scanned
    {
      scanned := false;
    }

    /** OK on the invalid-code alert reopens the gate. */
    method DismissInvalid()
      modifies this`scanned
      ensures !scanned
    {
      scanned := false;
    }

    /** Pay on the payment alert (`handlePayment`): Send receives the payload
        exactly as scanned, and the gate stays closed. */
    method Pay(payment: Fields) returns (forwarded: Fields)
      ensures forwarded == payment && scanned == old(scanned)
    {
      forwarded := payment;
    }

    /** The torch button. */
    method ToggleFlash()
      modifies this`flashOn
      ensures flashOn == !old(flashOn)
    {
      flashOn := !flashOn;
    }
  }
}

=== FILE: receive_money.dfy ===
/** The receive screen (src/screens/receive/ReceiveMoneyScreen.tsx): the code
    payload built from the signed-in user, and the share message. Where the
    user is `null`, `user?.x` is `undefined`: a template prints it as
    "undefined" and `JSON.stringify` leaves the field out. */
module ReceiveMoney {
  import opened Common
  import opened Text
  import opened Payload
  import Session
  import QRScanner

  /** How a template literal prints `user?.x`. */
  function Show(field: Option<string>): (t: string)
    ensures field.Some? ==> t == field.value
    ensures field.None? ==> t == "undefined"
  {
    match field
    case Some(x) => x
    case None => "undefined"
  }

  function FirstName(user: Option<Session.User>): Option<string> {
    if user.Some? then Some(user.value.firstName) else None
  }

  function LastName(user: Option<Session.User>): Option<string> {
    if user.Some? then Some(user.value.lastName) else None
  }

  function PhoneNumber(user: Option<Session.User>): Option<string> {
    if user.Some? then Some(user.value.phoneNumber) else None
  }

  /** `generateQRCode`: the receive payload. Its tag is always 'receive'; id and
      phone are the user's own; the name is "first last". */
  function GenerateQRCode(user: Option<Session.User>): (p: Fields)
    ensures Lookup(p, "type") == Some(QRScanner.ReceiveTag)
    ensures Lookup(p, "name") == Some(Str(Show(FirstName(user)) + " " + Show(LastName(user))))
    ensures user.Some? ==>
      Lookup(p, "userId") == Some(Str(user.value.id)) && Lookup(p, "phoneNumber") == Some(Str(user.value.phoneNumber))
    ensures user.None? ==> "userId" !in p && "phoneNumber" !in p
    ensures p.Keys <= {"type", "userId", "name", "phoneNumber"}
  {
    var named := map["type" := QRScanner.ReceiveTag,
                     "name" := Str(Show(FirstName(user)) + " " + Show(LastName(user)))];
    match user
    case Some(u) => named["userId" := Str(u.id)]["phoneNumber" := Str(u.phoneNumber)]
    case None => named
  }

  /** Every generated code scans as a receive code. */
  lemma GeneratedCodeIsReceive(user: Option<Session.User>)
    ensures QRScanner.Classify(QRScanner.Object(GenerateQRCode(user))).SendTo?
  {
  }

  /** Scanning the code of a user whose first and last names hold no space
      gives back that user's id, names and phone. */
  lemma ScanRoundTrip(u: Session.User)
    requires ' ' !in u.firstName && ' ' !in u.lastName
    ensures QRScanner.Classify(QRScanner.Object(GenerateQRCode(Some(u))))
      == QRScanner.SendTo(QRScanner.ScannedRecipient(
           Some(Str(u.id)), u.firstName, u.lastName, Some(Str(u.phoneNumber))))
  {
    QRScanner.SplitNameOfTwoWords(u.firstName, u.lastName);
  }

  /** A signed-out code scans to a recipient with no id and no phone, named
      "undefined undefined". */
  lemma ScanSignedOutCode()
    ensures QRScanner.Classify(QRScanner.Object(GenerateQRCode(None)))
      == QRScanner.SendTo(QRScanner.ScannedRecipient(None, "undefined", "undefined", None))
  {
    QRScanner.SplitNameOfTwoWords("undefined", "undefined");
  }

  /** The message `handleShare` shares: a fixed template around the first
      name, last name and phone. */
  function ShareMessage(user: Option<Session.User>): (m: string)
    ensures Contains(m, Show(FirstName(user))) && Contains(m, Show(LastName(user)))
    ensures Contains(m, Show(PhoneNumber(user)))
    ensures StartsWith(m, "Send money to ")
  {
    var first, last, phone := Show(FirstName(user)), Show(LastName(user)), Show(PhoneNumber(user));
    var tail := "\n\nUse PesaSoft app to send money instantly!";
    var afterLast := "\nPhone: " + phone + tail;
    var afterFirst := " " + last + afterLast;
    ContainsInfix("Send money to ", first, afterFirst);
    ContainsInfix("\nPhone: ", phone, tail);
    ContainsInSuffix(" " + last, afterLast, phone);
    ContainsInfix(" ", last, afterLast);
    ContainsInSuffix("Send money to " + first, afterFirst, last);
    ContainsInSuffix("Send money to " + first, afterFirst, phone);
    "Send money to " + first + afterFirst
  }
}

=== FILE: register.dfy ===
/** The registration form (src/screens/auth/RegisterScreen.tsx): six fields,
    an ordered validation that stops at the first failure, and the submission
    through the session store's `register`. The two patterns are written out
    as predicates over characters. */
module Register {
  import opened Common
  import opened Text
  import Session

  const FillAllFieldsError: string := "Please fill in all fields"
  const PasswordMismatchError: string := "Passwords do not match"
  const ShortPasswordError: string := "Password must be at least 6 characters"
  const InvalidEmailError: string := "Please enter a valid email address"
  const InvalidPhoneError: string := "Please enter a valid Kenyan phone number"
  const RegisterFailedDefault: string := "Failed to create account"
  const MinPasswordLength: nat := 6

  datatype FormField = FirstName | LastName | Email | PhoneNumber | Password | ConfirmPassword

  datatype RegisterForm = RegisterForm(
    firstName: string, lastName: string, email: string,
    phoneNumber: string, password: string, confirmPassword: string)
  {
    function Get(f: FormField): string {
      match f
      case FirstName => firstName
      case LastName => lastName
      case Email => email
      case PhoneNumber => phoneNumber
      case Password => password
      case ConfirmPassword => confirmPassword
    }

    /** `{ ...prev, [field]: value }`. */
    function With(f: FormField, value: string): (r: RegisterForm)
      ensures r.Get(f) == value
      ensures forall g :: g != f ==> r.Get(g) == Get(g)
    {
      match f
      case FirstName => this.(firstName := value)
      case LastName => this.(lastName := value)
      case Email => this.(email := value)
      case PhoneNumber => this.(phoneNumber := value)
      case Password => this.(password := value)
      case ConfirmPassword => this.(confirmPassword := value)
    }
  }

  const EmptyForm: RegisterForm := RegisterForm("", "", "", "", "", "")

  /** What `register` is given: the form without `confirmPassword`. */
  datatype RegisterData = RegisterData(
    firstName: string, lastName: string, email: string, phoneNumber: string, password: string)

  // ---------------------------------------------------------------------
  // Email: /^[^\s@]+@[^\s@]+\.[^\s@]+$/

  /** `[^\s@]`. */
  predicate IsEmailChar(c: char) {
    !IsWhitespace(c) && c != '@'
  }

  /** `[^\s@]+`. */
  predicate EmailRun(s: string) {
    s != "" && forall i :: 0 <= i < |s| ==> IsEmailChar(s[i])
  }

  /** The pattern read literally: a run, '@' at `i`, a run, '.' at `k`, a run. */
  ghost predicate EmailPattern(e: string) {
    exists i, k :: 0 <= i < k < |e| && e[i] == '@' && e[k] == '.'
      && EmailRun(e[..i]) && EmailRun(e[i + 1..k]) && EmailRun(e[k + 1..])
  }

  /** The check as the form runs it: split at the first '@'; the part before is
      a run, the part after is a run with a '.' that is neither its first nor
      its last character. */
  predicate ValidEmail(e: string) {
    match IndexOf(e, '@')
    case None => false
    case Some(i) =>
      var d := e[i + 1..];
      EmailRun(e[..i]) && EmailRun(d) && |d| >= 3 && '.' in d[1..|d| - 1]
  }

  /** The check accepts exactly the addresses the pattern matches. */
  lemma ValidEmailIff(e: string)
    ensures ValidEmail(e) <==> EmailPattern(e)
  {
    if ValidEmail(e) {
      ValidEmailMatches(e);
    }
    if EmailPattern(e) {
      var i, k :| 0 <= i < k < |e| && e[i] == '@' && e[k] == '.'
        && EmailRun(e[..i]) && EmailRun(e[i + 1..k]) && EmailRun(e[k + 1..]);
      PatternPassesCheck(e, i, k);
    }
  }

  lemma ValidEmailMatches(e: string)
    requires ValidEmail(e)
    ensures EmailPattern(e)
  {
    var i := IndexOf(e, '@').value;
    var d := e[i + 1..];
    var j :| 0 <= j < |d| - 2 && d[1..|d| - 1][j] == '.';
    var k := i + 2 + j;
    assert e[k] == '.';
    assert EmailRun(e[i + 1..k]) by {
      assert e[i + 1..k] == d[..j + 1];
    }
    assert EmailRun(e[k + 1..]) by {
      assert e[k + 1..] == d[j + 2..];
    }
  }

  lemma PatternPassesCheck(e: string, i: nat, k: nat)
    requires i < k < |e| && e[i] == '@' && e[k] == '.'
    requires EmailRun(e[..i]) && EmailRun(e[i + 1..k]) && EmailRun(e[k + 1..])
    ensures ValidEmail(e)
  {
    var r := IndexOf(e, '@');
    assert r == Some(i) by {
      assert forall m :: 0 <= m < i ==> e[..i][m] == e[m];
      IndexOfFirst(e, '@', i);
    }
    var d := e[i + 1..];
    var a, b := e[i + 1..k], e[k + 1..];
    assert d == a + [e[k]] + b;
    forall m | 0 <= m < |d|
      ensures IsEmailChar(d[m])
    {
      if m < |a| {
        assert d[m] == a[m];
      } else if m > |a| {
        assert d[m] == b[m - |a| - 1];
      }
    }
    assert d[1..|d| - 1][|a| - 1] == '.';
  }

  // ---------------------------------------------------------------------
  // Phone: /^(\+254|0)[17]\d{8}$/

  /** `[17]\d{8}`: the nine digits after the prefix. */
  predicate KenyanSubscriber(r: string) {
    |r| == 9 && (r[0] == '1' || r[0] == '7') && AllDigits(r[1..])
  }

  /** The Kenyan mobile pattern: '+254' or '0', then the subscriber digits. */
  predicate KenyanPhone(p: string) {
    (StartsWith(p, "+254") && KenyanSubscriber(p[4..]))
    || (StartsWith(p, "0") && KenyanSubscriber(p[1..]))
  }

  /** The two prefixes are interchangeable. */
  lemma KenyanPrefixesAgree(r: string)
    ensures KenyanPhone("0" + r) <==> KenyanSubscriber(r)
    ensures KenyanPhone("+254" + r) <==> KenyanSubscriber(r)
  {
    assert ("0" + r)[1..] == r && ("+254" + r)[4..] == r;
    assert !StartsWith("0" + r, "+254") by {
      if |"0" + r| >= 4 {
        assert ("0" + r)[..4][0] == '0';
      }
    }
    assert !StartsWith("+254" + r, "0") by {
      assert ("+254" + r)[..1][0] == '+';
    }
  }

  /** A matching number has 10 characters (local form) or 13 (international form). */
  lemma KenyanPhoneLength(p: string)
    requires KenyanPhone(p)
    ensures |p| == 10 || |p| == 13
  {
  }

  // ---------------------------------------------------------------------
  // The ordered checks

  /** `validateForm`: the message of the first failing check, `None` when all pass. */
  function ValidateForm(form: RegisterForm): Option<string> {
    if form.firstName == "" || form.lastName == "" || form.email == ""
       || form.phoneNumber == "" || form.password == "" then Some(FillAllFieldsError)
    else if form.password != form.confirmPassword then Some(PasswordMismatchError)
    else if |form.password| < MinPasswordLength then Some(ShortPasswordError)
    else if !ValidEmail(form.email) then Some(InvalidEmailError)
    else if !KenyanPhone(form.phoneNumber) then Some(InvalidPhoneError)
    else None
  }

  /** The form is valid exactly when every check passes (the confirmation is
      not itself required: it must only equal the password). */
  lemma ValidateFormIff(form: RegisterForm)
    ensures ValidateForm(form).None? <==>
      (form.firstName != "" && form.lastName != "" && form.phoneNumber != ""
      && form.password == form.confirmPassword && |form.password| >= MinPasswordLength
      && EmailPattern(form.email) && KenyanPhone(form.phoneNumber))
  {
    ValidEmailIff(form.email);
    if EmailPattern(form.email) {
      assert form.email != "";
    }
  }

  /** A missing field is reported before anything else; with all fields
      present, a mismatched confirmation before the length, the length before
      the email, the email before the phone. */
  lemma ValidateFormOrder(form: RegisterForm)
    ensures (form.firstName == "" || form.lastName == "" || form.email == ""
      || form.phoneNumber == "" || form.password == "") ==> ValidateForm(form) == Some(FillAllFieldsError)
    ensures ValidateForm(form) == Some(ShortPasswordError) ==> form.password == form.confirmPassword
    ensures ValidateForm(form) == Some(InvalidEmailError) ==>
      form.password == form.confirmPassword && |form.password| >= MinPasswordLength
    ensures ValidateForm(form) == Some(InvalidPhoneError) ==> ValidEmail(form.email)
  {
  }

  /** The data submitted for a form. */
  function RegisterDataOf(form: RegisterForm): (data: RegisterData)
    ensures data.firstName == form.firstName && data.lastName == form.lastName
    ensures data.email == form.email && data.phoneNumber == form.phoneNumber
    ensures data.password == form.password
  {
    RegisterData(form.firstName, form.lastName, form.email, form.phoneNumber, form.password)
  }

  class RegisterScreen {
    var formData: RegisterForm
    var isLoading: bool

    constructor ()
      ensures formData == EmptyForm && !isLoading
    {
      formData, isLoading := EmptyForm, false;
    }

    /** `handleInputChange`: one field takes the typed value, the others are kept. */
    method HandleInputChange(f: FormField, value: string)
      modifies this`formData
      ensures formData == old(formData).With(f, value)
    {
      formData := formData.With(f, value);
    }

    /** `handleRegister`: an invalid form shows its first failure and calls
        nothing; a valid one calls the session store's `register` with the form
        minus the confirmation. A failure shows the thrown message, or 'Failed
        to create account' when it is empty; loading ends either way. */
    method HandleRegister(auth: Session.AuthProvider, reply: Session.AuthReply)
      returns (submitted: Option<RegisterData>, error: Option<string>)
      modifies this`isLoading, auth, auth.store
      ensures ValidateForm(formData).Some? ==> (submitted.None? && error == ValidateForm(formData)
        && isLoading == old(isLoading)
        && auth.State() == old(auth.State()) && auth.store.entries == old(auth.store.entries))
      ensures ValidateForm(formData).None? ==> (submitted == Some(RegisterDataOf(formData)) && !isLoading
        && (error.None? <==> reply.Accepted?))
      ensures ValidateForm(formData).None? && !reply.Accepted? ==> (error == Some(
        var m := Session.FailureMessage(reply, "Registration failed");
        if m != "" then m else RegisterFailedDefault))
      ensures ValidateForm(formData).None? && reply.Accepted? ==>
        auth.State() == Session.SessionState(Some(reply.user), reply.wallet, Some(reply.token))
    {
      var refusal := ValidateForm(formData);
      if refusal.Some? {
        return None, refusal;
      }
      isLoading := true;
      submitted := Some(RegisterDataOf(formData));
      var thrown := auth.Register(reply);
      if thrown.Some? {
        error := Some(if thrown.value != "" then thrown.value else RegisterFailedDefault);
      } else {
        error := None;
      }
      isLoading := false;
    }
  }
}

=== FILE: send_money.dfy ===
/** The send-money wizard (src/screens/send/SendMoneyScreen.tsx): step 1
    chooses a recipient from a user search, step 2 takes an amount, step 3
    shows a recap, step 4 collects a 4-digit PIN and submits. The screen's
    state variables are the fields of one object; the search and send replies
    and the wallet balance are parameters. */
module SendMoney {
  import opened Common
  import opened Text
  import opened PinPad

  /** A user as the search endpoint returns it. */
  datatype Recipient = Recipient(id: string, firstName: string, lastName: string, phoneNumber: string)

  /** The unwrapped reply of `/users/search`. */
  datatype SearchReply = Found(users: seq<Recipient>) | SearchDeclined | SearchFailed

  /** How the send call ended: `success: true`, or an error whose message
      (`""` when it has none) the screen shows. */
  datatype SendReply = SendSucceeded | SendFailed(message: string)

  /** The body of `/mpesa/send-money`; `amount` is `parseFloat(amount)`, `None` for NaN. */
  datatype SendRequest = SendRequest(recipientId: string, amount: Option<real>, description: string, pin: string)

  const SelectRecipientError: string := "Please select a recipient"
  const InvalidAmountError: string := "Please enter a valid amount"
  const InsufficientBalanceError: string := "Insufficient balance"
  const IncompletePinError: string := "Please enter your 4-digit PIN"
  const SendFailedDefault: string := "Failed to send money"

  /** The search effect fires when the recipient text is longer than 2 characters. */
  predicate SearchTriggered(text: string) {
    |text| > 2
  }

  /** The text the recipient field shows after a selection: "first last - phone". */
  function SelectionText(u: Recipient): (t: string)
    ensures SearchTriggered(t)
  {
    u.firstName + " " + u.lastName + " - " + u.phoneNumber
  }

  /** A character the amount field keeps (`/[^0-9.]/g` removes the others). */
  predicate IsAmountChar(c: char) {
    IsDigit(c) || c == '.'
  }

  /** `wallet?.balance || 0`. */
  function BalanceOrZero(balance: Option<real>): real {
    balance.GetOr(0.0)
  }

  /** The step-2 checks of `handleContinue`, in order. `parseFloat` answers NaN
      (`None`) for text with no digit before or after the first dot, and NaN
      fails both comparisons, so such text passes both checks. */
  function AmountRefusal(amount: string, balance: real): (error: Option<string>)
    requires DecimalChars(amount)
  {
    var value := ParseFloat(amount);
    if amount == "" || (value.Some? && value.value <= 0.0) then Some(InvalidAmountError)
    else if value.Some? && value.value > balance then Some(InsufficientBalanceError)
    else None
  }

  /** An accepted number lies in (0, balance]; a number in that range is accepted. */
  lemma AmountRefusalIff(amount: string, balance: real)
    requires DecimalChars(amount) && ParseFloat(amount).Some?
    ensures AmountRefusal(amount, balance).None? <==> 0.0 < ParseFloat(amount).value <= balance
  {
  }

  /** Non-positive amounts are refused as invalid, whatever the balance. */
  lemma NonPositiveAmountRefused(amount: string, balance: real)
    requires DecimalChars(amount) && ParseFloat(amount).Some? && ParseFloat(amount).value <= 0.0
    ensures AmountRefusal(amount, balance) == Some(InvalidAmountError)
  {
  }

  /** A lone dot parses to NaN and passes both checks: the wizard moves on to
      the recap with an amount that is not a number. */
  lemma {:induction false} LoneDotPassesAmountCheck(balance: real)
    ensures DecimalChars(".") && ParseFloat(".").None?
    ensures AmountRefusal(".", balance).None?
  {
    assert LeadingDigits(".") == 0;
    assert "."[1..] == "";
    assert LeadingDigits("") == 0;
  }

  /** 1500 with a balance of 1000 is refused for insufficient balance. */
  lemma {:induction false} OverBalanceScenario()
    ensures DecimalChars("1500") && AmountRefusal("1500", 1000.0) == Some(InsufficientBalanceError)
  {
    ParseFloatOfDigits("1500");
    assert "1500"[..3] == "150" && "150"[..2] == "15" && "15"[..1] == "1" && "1"[..0] == "";
    assert DigitsValue("1500") == 1500;
  }

  /** 500 with a balance of 1000 is accepted. */
  lemma {:induction false} WithinBalanceScenario()
    ensures DecimalChars("500") && AmountRefusal("500", 1000.0).None?
  {
    ParseFloatOfDigits("500");
    assert "500"[..2] == "50" && "50"[..1] == "5" && "5"[..0] == "";
    assert DigitsValue("500") == 500;
  }

  /** The Continue button's `disabled` rule. */
  predicate ContinueDisabled(step: int, selected: Option<Recipient>, amount: string)
    requires DecimalChars(amount)
  {
    (step == 1 && selected.None?)
    || (step == 2 && (amount == "" || (ParseFloat(amount).Some? && ParseFloat(amount).value <= 0.0)))
  }

  /** The button is disabled only where `handleContinue` would refuse anyway. */
  lemma DisabledOnlyWhenRefused(step: int, selected: Option<Recipient>, amount: string, balance: real)
    requires DecimalChars(amount) && ContinueDisabled(step, selected, amount)
    ensures step == 1 ==> selected.None?
    ensures step == 2 ==> AmountRefusal(amount, balance) == Some(InvalidAmountError)
  {
  }

  class SendMoneyScreen {
    var step: int
    var recipient: string
    var amount: string
    var description: string
    var pin: string
    var isLoading: bool
    var searchResults: seq<Recipient>
    var selectedRecipient: Option<Recipient>

    /** Steps 1..4; the PIN holds at most 4 digits; the amount holds only
        digits and dots; from step 2 on a recipient is selected. */
    ghost predicate Valid()
      reads this
    {
      1 <= step <= 4
      && IsPinBuffer(pin)
      && DecimalChars(amount)
      && (step >= 2 ==> selectedRecipient.Some?)
    }

    constructor ()
      ensures Valid() && step == 1 && selectedRecipient.None?
      ensures recipient == "" && amount == "" && description == "" && pin == ""
      ensures !isLoading && searchResults == []
    {
      step := 1;
      recipient, amount, description, pin := "", "", "", "";
      isLoading := false;
      searchResults := [];
      selectedRecipient := None;
    }

    /** Typing in the recipient field. */
    method SetRecipientText(text: string)
      requires Valid()
      modifies this
      ensures Valid() && recipient == text
      ensures step == old(step) && amount == old(amount) && pin == old(pin)
      ensures selectedRecipient == old(selectedRecipient) && searchResults == old(searchResults)
      ensures description == old(description) && isLoading == old(isLoading)
    {
      recipient := text;
    }

    /** The effect that runs after every change of the recipient text: a search
        when the text is longer than 2 characters (its results replace the list
        when the call succeeds), otherwise the list is emptied. */
    method SearchEffect(reply: SearchReply) returns (searched: bool)
      requires Valid()
      modifies this`searchResults
      ensures Valid()
      ensures searched <==> SearchTriggered(recipient)
      ensures !searched ==> searchResults == []
      ensures searched && reply.Found? ==> searchResults == reply.users
      ensures searched && !reply.Found? ==> searchResults == old(searchResults)
    {
      if |recipient| > 2 {
        searched := true;
        if reply.Found? {
          searchResults := reply.users;
        }
      } else {
        searched := false;
        searchResults := [];
      }
    }

    /** `handleRecipientSelect`: the user becomes the recipient, the field shows
        "first last - phone" (long enough to fire the search effect again), the
        results are emptied and the wizard is at step 2. */
    method HandleRecipientSelect(u: Recipient)
      requires Valid()
      modifies this
      ensures Valid()
      ensures selectedRecipient == Some(u) && recipient == SelectionText(u)
      ensures searchResults == [] && step == 2
      ensures amount == old(amount) && pin == old(pin) && description == old(description)
      ensures isLoading == old(isLoading)
    {
      selectedRecipient := Some(u);
      recipient := SelectionText(u);
      searchResults := [];
      step := 2;
    }

    /** `handleAmountChange`: the field keeps only digits and dots, in order. */
    method HandleAmountChange(value: string)
      requires Valid()
      modifies this`amount
      ensures Valid() && amount == Filter(value, IsAmountChar)
    {
      amount := Filter(value, IsAmountChar);
    }

    /** A quick-amount button: the field becomes that amount's text. */
    method HandleQuickAmount(quick: string)
      requires Valid()
      requires quick in ["100", "500", "1000", "2000"]
      modifies this`amount
      ensures Valid() && amount == quick
    {
      amount := quick;
    }

    /** The description field. */
    method SetDescription(text: string)
      requires Valid()
      modifies this`description
      ensures Valid() && description == text
    {
      description := text;
    }

    /** `handleContinue`: step 1 needs a selected recipient; step 2 needs an
        amount `AmountRefusal` accepts against `wallet?.balance || 0`; step 3
        always moves to 4; step 4 does nothing. A refusal changes nothing and
        returns the error shown. Only the step changes. */
    method HandleContinue(balance: Option<real>) returns (error: Option<string>)
      requires Valid()
      modifies this`step
      ensures Valid()
      ensures old(step) == 1 ==> (if old(selectedRecipient).None?
        then error == Some(SelectRecipientError) && step == 1
        else error.None? && step == 2)
      ensures old(step) == 2 ==> (error == AmountRefusal(amount, BalanceOrZero(balance))
        && step == if error.None? then 3 else 2)
      ensures old(step) == 3 ==> error.None? && step == 4
      ensures old(step) == 4 ==> error.None? && step == 4
    {
      error := None;
      if step == 1 {
        if selectedRecipient.None? {
          error := Some(SelectRecipientError);
          return;
        }
        step := 2;
      } else if step == 2 {
        error := AmountRefusal(amount, BalanceOrZero(balance));
        if error.Some? {
          return;
        }
        step := 3;
      } else if step == 3 {
        step := 4;
      }
    }

    /** `handlePinInput`: a digit is appended only while the PIN is shorter than 4. */
    method HandlePinInput(digit: char)
      requires Valid() && IsDigit(digit)
      modifies this`pin
      ensures Valid() && pin == Press(old(pin), digit)
    {
      if |pin| < PinLength {
        pin := pin + [digit];
      }
    }

    /** `handlePinBackspace`: exactly the last digit goes; an empty PIN stays empty. */
    method HandlePinBackspace()
      requires Valid()
      modifies this`pin
      ensures Valid() && pin == Backspace(old(pin))
    {
      if pin != "" {
        pin := pin[..|pin| - 1];
      }
    }

    /** `handleSendMoney`, reached from the Send button of step 4. Without 4 PIN
        digits nothing is sent and nothing changes. Otherwise the request carries
        the recipient's id, the parsed amount, the description and the PIN; on
        failure the PIN is cleared and the wizard stays at step 4 with the
        error's message (or 'Failed to send money'); loading ends either way. */
    method HandleSendMoney(reply: SendReply) returns (request: Option<SendRequest>, error: Option<string>)
      requires Valid() && step == 4
      modifies this`pin, this`isLoading
      ensures Valid() && step == 4
      ensures |old(pin)| != PinLength ==> (request.None? && error == Some(IncompletePinError)
        && pin == old(pin) && isLoading == old(isLoading))
      ensures |old(pin)| == PinLength ==> (!isLoading
        && request == Some(SendRequest(selectedRecipient.value.id, ParseFloat(amount), description, old(pin))))
      ensures |old(pin)| == PinLength && reply.SendSucceeded? ==> error.None? && pin == old(pin)
      ensures |old(pin)| == PinLength && reply.SendFailed? ==> (pin == ""
        && error == Some(if reply.message != "" then reply.message else SendFailedDefault))
    {
      if |pin| != PinLength {
        request := None;
        error := Some(IncompletePinError);
        return;
      }
      isLoading := true;
      request := Some(SendRequest(selectedRecipient.value.id, ParseFloat(amount), description, pin));
      match reply {
        case SendSucceeded =>
          error := None;
        case SendFailed(message) =>
          error := Some(if message != "" then message else SendFailedDefault);
          pin := "";
      }
      isLoading := false;
    }

    /** The header's back arrow: one step back from steps 2..4, leaving the
        recipient, amount and PIN as they are; from step 1 it leaves the screen. */
    method Back() returns (leaveScreen: bool)
      requires Valid()
      modifies this`step
      ensures Valid()
      ensures leaveScreen <==> old(step) == 1
      ensures step == if old(step) > 1 then old(step) - 1 else old(step)
    {
      leaveScreen := step == 1;
      if step > 1 {
        step := step - 1;
      }
    }
  }
}

=== FILE: storage.dfy ===
/** The device's persistent key-value store (AsyncStorage) and the three keys
    the session is mirrored into. Reads and writes of the platform store become
    reads and updates of one map. */
module Storage {
  import opened Common

  const AuthTokenKey: string := "authToken"
  const UserDataKey: string := "userData"
  const WalletDataKey: string := "walletData"

  /** The keys logout and a 401 reply remove together. */
  const SessionKeys: set<string> := {AuthTokenKey, UserDataKey, WalletDataKey}

  /** JavaScript truthiness of what `getItem` returns: a stored, non-empty string. */
  predicate Truthy(v: Option<string>) {
    v.Some? && v.value != ""
  }

  class AsyncStore {
    var entries: map<string, string>

    constructor (initial: map<string, string>)
      ensures entries == initial
    {
      entries := initial;
    }

    /** `getItem(key)`: the stored string, or `null`. */
    function GetItem(key: string): (v: Option<string>)
      reads this
      ensures v.Some? <==> key in entries
      ensures v.Some? ==> v.value == entries[key]
    {
      if key in entries then Some(entries[key]) else None
    }

    /** `setItem(key, value)`. */
    method SetItem(key: string, value: string)
      modifies this
      ensures entries == old(entries)[key := value]
    {
      entries := entries[key := value];
    }

    /** `multiRemove(keys)`: every listed key is gone, every other entry stays. */
    method MultiRemove(keys: set<string>)
      modifies this
      ensures entries == old(entries) - keys
      ensures forall k :: k in keys ==> k !in entries
    {
      entries := entries - keys;
    }
  }
}

=== FILE: text.dfy ===
/** The JavaScript string operations the screens rely on, written out:
    whitespace as the `\s` class and `trim` see it, `split(' ')`, `includes`,
    ASCII case mapping, decimal rendering (`n.toString()`) and parsing
    (`parseFloat`), and the initials rule shared by the chat and contact lists.
    Strings are sequences of characters. */
module Text {
  import opened Common

  /** JavaScript's white space and line terminators: what `\s` matches and `trim` drops. */
  predicate IsWhitespace(c: char) {
    c == ' ' || c == '\t' || c == '\n' || c == '\r' || c == '\U{000B}' || c == '\U{000C}'
    || c == '\U{00A0}' || c == '\U{1680}' || ('\U{2000}' <= c <= '\U{200A}')
    || c == '\U{2028}' || c == '\U{2029}' || c == '\U{202F}' || c == '\U{205F}'
    || c == '\U{3000}' || c == '\U{FEFF}'
  }

  predicate IsNotWhitespace(c: char) { !IsWhitespace(c) }

  /** `\d`: an ASCII decimal digit. */
  predicate IsDigit(c: char) { '0' <= c <= '9' }

  predicate AllDigits(s: string) { forall i :: 0 <= i < |s| ==> IsDigit(s[i]) }

  predicate NoWhitespace(s: string) { forall i :: 0 <= i < |s| ==> !IsWhitespace(s[i]) }

  /** `s.replace(/\s/g, '')` (and `/\s+/g`, which removes the same characters). */
  function RemoveWhitespace(s: string): (r: string)
    ensures NoWhitespace(r)
  {
    Filter(s, IsNotWhitespace)
  }

  /** `s.replace(/\D/g, '')`. */
  function KeepDigits(s: string): (r: string)
    ensures AllDigits(r)
  {
    Filter(s, IsDigit)
  }

  /** Removing white space from text that has none changes nothing. */
  lemma RemoveWhitespaceOfNone(s: string)
    requires NoWhitespace(s)
    ensures RemoveWhitespace(s) == s
  {
    FilterKeepsAll(s, IsNotWhitespace);
  }

  /** Keeping the digits of a digit string changes nothing. */
  lemma KeepDigitsOfDigits(s: string)
    requires AllDigits(s)
    ensures KeepDigits(s) == s
  {
    FilterKeepsAll(s, IsDigit);
  }

  /** `s.slice(0, n)`. */
  function Take(s: string, n: nat): (r: string)
    ensures |r| == if n < |s| then n else |s|
    ensures r <= s
  {
    if n < |s| then s[..n] else s
  }

  /** Leading white space removed (first half of `trim`). */
  function TrimStart(s: string): (r: string)
    ensures |r| <= |s| && r == s[|s| - |r|..]
    ensures r == [] || !IsWhitespace(r[0])
    ensures forall i :: 0 <= i < |s| - |r| ==> IsWhitespace(s[i])
  {
    if s != [] && IsWhitespace(s[0]) then TrimStart(s[1..]) else s
  }

  /** Trailing white space removed (second half of `trim`). */
  function TrimEnd(s: string): (r: string)
    ensures |r| <= |s| && r == s[..|r|]
    ensures r == [] || !IsWhitespace(r[|r| - 1])
    ensures forall i :: |r| <= i < |s| ==> IsWhitespace(s[i])
  {
    if s != [] && IsWhitespace(s[|s| - 1]) then TrimEnd(s[..|s| - 1]) else s
  }

  /** `s.trim()`. */
  function Trim(s: string): (r: string)
    ensures r == [] || (!IsWhitespace(r[0]) && !IsWhitespace(r[|r| - 1]))
  {
    TrimEnd(TrimStart(s))
  }

  /** `r` is `s[i..j]`, and `s` holds only white space before `i` and from `j` on. */
  predicate SliceBetweenWhitespace(s: string, r: string, i: int, j: int) {
    0 <= i <= j <= |s| && r == s[i..j]
    && (forall k :: 0 <= k < i ==> IsWhitespace(s[k]))
    && (forall k :: j <= k < |s| ==> IsWhitespace(s[k]))
  }

  /** `trim` cuts a slice out of its input, and everything it cuts away on
      either side is white space. */
  lemma TrimIsSlice(s: string)
    ensures exists i, j :: SliceBetweenWhitespace(s, Trim(s), i, j)
  {
    var t := TrimStart(s);
    var r := TrimEnd(t);
    var i := |s| - |t|;
    var j := i + |r|;
    assert r == s[i..j] by {
      assert r == t[..|r|];
      assert t == s[i..];
    }
    assert forall k :: j <= k < |s| ==> IsWhitespace(s[k]) by {
      forall k | j <= k < |s|
        ensures IsWhitespace(s[k])
      {
        assert s[k] == t[k - i];
      }
    }
    assert r == Trim(s);
    assert forall k :: 0 <= k < i ==> IsWhitespace(s[k]);
    assert SliceBetweenWhitespace(s, r, i, j);
  }

  /** A string with no white space at either end is its own trim. */
  lemma TrimOfTrimmed(s: string)
    requires s != [] ==> !IsWhitespace(s[0]) && !IsWhitespace(s[|s| - 1])
    ensures Trim(s) == s
  {
  }

  /** Leading white space goes, a trimmed rest is kept. */
  lemma TrimOfLeadingSpace(s: string)
    requires s != [] && !IsWhitespace(s[0]) && !IsWhitespace(s[|s| - 1])
    ensures Trim(" " + s) == s
  {
    assert (" " + s)[1..] == s;
    TrimOfTrimmed(s);
  }

  /** Trailing white space goes, a trimmed rest is kept. */
  lemma TrimOfTrailingSpace(s: string)
    requires s != [] && !IsWhitespace(s[0]) && !IsWhitespace(s[|s| - 1])
    ensures Trim(s + " ") == s
  {
    assert TrimStart(s + " ") == s + " ";
    assert (s + " ")[..|s|] == s;
    TrimOfTrimmed(s);
  }

  /** `toLowerCase` on one character, for the ASCII letters. */
  function LowerChar(c: char): (r: char)
    ensures 'A' <= c <= 'Z' ==> r as int == c as int + 32
    ensures !('A' <= c <= 'Z') ==> r == c
  {
    if 'A' <= c <= 'Z' then (c as int + 32) as char else c
  }

  /** `toUpperCase` on one character, for the ASCII letters. */
  function UpperChar(c: char): (r: char)
    ensures 'a' <= c <= 'z' ==> r as int == c as int - 32
    ensures !('a' <= c <= 'z') ==> r == c
  {
    if 'a' <= c <= 'z' then (c as int - 32) as char else c
  }

  function Lower(s: string): string { Map(s, LowerChar) }

  function Upper(s: string): string { Map(s, UpperChar) }

  predicate StartsWith(s: string, prefix: string) {
    |prefix| <= |s| && s[..|prefix|] == prefix
  }

  predicate EndsWith(s: string, suffix: string) {
    |suffix| <= |s| && s[|s| - |suffix|..] == suffix
  }

  /** A concatenation starts with its left part and ends with its right part. */
  lemma ConcatEnds(a: string, b: string)
    ensures StartsWith(a + b, a) && EndsWith(a + b, b)
  {
    assert (a + b)[..|a|] == a;
    assert (a + b)[|a|..] == b;
  }

  /** `s.includes(sub)`: `sub` occurs in `s` at some position. */
  function Contains(s: string, sub: string): (r: bool)
    ensures r <==> exists i :: 0 <= i <= |s| && StartsWith(s[i..], sub)
    decreases |s|
  {
    if StartsWith(s, sub) then
      assert StartsWith(s[0..], sub);
      true
    else if s == [] then
      false
    else
      var r := Contains(s[1..], sub);
      assert forall i :: 1 <= i <= |s| ==> s[i..] == s[1..][i - 1..];
      r
  }

  /** Text placed between two others is contained in the result. */
  lemma ContainsInfix(a: string, sub: string, b: string)
    ensures Contains(a + sub + b, sub)
  {
    var s := a + sub + b;
    assert s[|a|..][..|sub|] == sub;
    assert StartsWith(s[|a|..], sub);
  }

  /** Text contained in a suffix is contained in the whole. */
  lemma ContainsInSuffix(a: string, b: string, sub: string)
    requires Contains(b, sub)
    ensures Contains(a + b, sub)
  {
    var i :| 0 <= i <= |b| && StartsWith(b[i..], sub);
    assert (a + b)[|a| + i..] == b[i..];
    assert StartsWith((a + b)[|a| + i..], sub);
  }

  /** `s.indexOf(c)`: the first position of `c`, or `None` (-1) when absent. */
  function IndexOf(s: string, c: char): (r: Option<nat>)
    ensures r.Some? ==> r.value < |s| && s[r.value] == c && c !in s[..r.value]
    ensures r.None? ==> c !in s
  {
    if s == [] then None
    else if s[0] == c then Some(0)
    else
      var r := IndexOf(s[1..], c);
      if r.None? then None
      else
        assert s[..r.value + 1] == [s[0]] + s[1..][..r.value];
        Some(r.value + 1)
  }

  /** The first position holding `c` is the one `IndexOf` finds. */
  lemma {:induction false} IndexOfFirst(s: string, c: char, i: nat)
    requires i < |s| && s[i] == c
    requires forall m :: 0 <= m < i ==> s[m] != c
    ensures IndexOf(s, c) == Some(i)
  {
    if i > 0 {
      IndexOfFirst(s[1..], c, i - 1);
    }
  }

  /** Lower-casing twice is lower-casing once. */
  lemma LowerIdempotent(s: string)
    ensures Lower(Lower(s)) == Lower(s)
  {
  }

  /** Lower-casing after upper-casing is lower-casing. */
  lemma LowerOfUpper(s: string)
    ensures Lower(Upper(s)) == Lower(s)
  {
  }

  /** Case-insensitive `includes`: both sides lower-cased first. */
  predicate ContainsIgnoringCase(s: string, query: string) {
    Contains(Lower(s), Lower(query))
  }

  /** `s.split(sep)` for a one-character separator: the pieces between the
      separators, empty pieces included; never an empty list. */
  function Split(s: string, sep: char): (parts: seq<string>)
    ensures |parts| >= 1
    ensures forall i :: 0 <= i < |parts| ==> sep !in parts[i]
    ensures StartsWith(s, parts[0])
    ensures |parts| == 1 ==> parts[0] == s
    ensures |parts| > 1 ==> |parts[0]| < |s| && s[|parts[0]|] == sep
  {
    if s == [] then [""]
    else
      var rest := Split(s[1..], sep);
      if s[0] == sep then [""] + rest
      else
        assert s[..|rest[0]| + 1] == [s[0]] + s[1..][..|rest[0]|];
        [[s[0]] + rest[0]] + rest[1..]
  }

  /** `parts.join(sep)`. */
  function Join(parts: seq<string>, sep: char): string
    requires |parts| >= 1
  {
    if |parts| == 1 then parts[0] else parts[0] + [sep] + Join(parts[1..], sep)
  }

  /** Joining the pieces of a split with the separator gives back the text. */
  lemma {:induction false} JoinSplit(s: string, sep: char)
    ensures Join(Split(s, sep), sep) == s
  {
    if s != [] {
      var rest := Split(s[1..], sep);
      JoinSplit(s[1..], sep);
      if s[0] == sep {
        assert ([""] + rest)[1..] == rest;
        assert Join([""] + rest, sep) == "" + [sep] + Join(rest, sep);
      } else {
        var parts := [[s[0]] + rest[0]] + rest[1..];
        if |rest| == 1 {
          assert Join(parts, sep) == [s[0]] + rest[0];
        } else {
          assert parts[1..] == rest[1..];
          assert Join(parts, sep) == [s[0]] + rest[0] + [sep] + Join(rest[1..], sep);
          assert Join(rest, sep) == rest[0] + [sep] + Join(rest[1..], sep);
        }
        assert [s[0]] + s[1..] == s;
      }
    }
  }

  /** The pieces after the first are the split of the text after the first separator. */
  lemma {:induction false} SplitRest(s: string, sep: char)
    requires |Split(s, sep)| > 1
    ensures Split(s, sep)[1..] == Split(s[|Split(s, sep)[0]| + 1..], sep)
  {
    var rest := Split(s[1..], sep);
    if s[0] != sep {
      assert |rest| > 1;
      SplitRest(s[1..], sep);
      assert s[1..][|rest[0]| + 1..] == s[|rest[0]| + 2..];
    }
  }

  /** Text without the separator splits into itself alone. */
  lemma {:induction false} SplitWithoutSeparator(s: string, sep: char)
    requires sep !in s
    ensures Split(s, sep) == [s]
  {
    if s != [] {
      SplitWithoutSeparator(s[1..], sep);
      assert [s[0]] + s[1..] == s;
    }
  }

  /** Splitting at the first separator: the piece before it, then the split of the rest. */
  lemma {:induction false} SplitAtFirst(a: string, sep: char, t: string)
    requires sep !in a
    ensures Split(a + [sep] + t, sep) == [a] + Split(t, sep)
  {
    if a == [] {
      assert a + [sep] + t == [sep] + t;
      assert ([sep] + t)[1..] == t;
    } else {
      assert (a + [sep] + t)[1..] == a[1..] + [sep] + t;
      SplitAtFirst(a[1..], sep, t);
      assert [a[0]] + a[1..] == a;
    }
  }

  /** Two separator-free words joined by one separator split back into those two words. */
  lemma SplitTwoWords(a: string, b: string, sep: char)
    requires sep !in a && sep !in b
    ensures Split(a + [sep] + b, sep) == [a, b]
  {
    SplitAtFirst(a, sep, b);
    SplitWithoutSeparator(b, sep);
  }

  /** The character of a digit value 0..9. */
  function DigitChar(d: nat): (c: char)
    requires d < 10
    ensures IsDigit(c)
  {
    (d + '0' as int) as char
  }

  /** The value 0..9 of a digit character. */
  function DigitValue(c: char): (d: nat)
    requires IsDigit(c)
    ensures d < 10
  {
    c as int - '0' as int
  }

  /** `n.toString()` for a non-negative integer: its decimal digits, no leading zero. */
  function NatToString(n: nat): (r: string)
    ensures |r| >= 1 && AllDigits(r)
    ensures r[0] == '0' ==> n == 0
    decreases n
  {
    if n < 10 then [DigitChar(n)] else NatToString(n / 10) + [DigitChar(n % 10)]
  }

  /** The number a string of decimal digits denotes (`""` denotes 0). */
  function DigitsValue(s: string): nat
    requires AllDigits(s)
  {
    if s == [] then 0 else DigitsValue(s[..|s| - 1]) * 10 + DigitValue(s[|s| - 1])
  }

  /** Rendering a number in decimal and reading it back gives the number. */
  lemma {:induction false} NatToStringRoundTrip(n: nat)
    ensures DigitsValue(NatToString(n)) == n
    decreases n
  {
    if n >= 10 {
      NatToStringRoundTrip(n / 10);
      var s := NatToString(n);
      assert s[..|s| - 1] == NatToString(n / 10);
    }
  }

  /** The length of the run of digits that starts `s`. */
  function LeadingDigits(s: string): (k: nat)
    ensures k <= |s| && AllDigits(s[..k])
    ensures k < |s| ==> !IsDigit(s[k])
  {
    if s != [] && IsDigit(s[0]) then
      var k := 1 + LeadingDigits(s[1..]);
      assert s[..k] == [s[0]] + s[1..][..k - 1];
      k
    else 0
  }

  function Pow10(n: nat): (r: nat)
    ensures r >= 1
  {
    if n == 0 then 1 else 10 * Pow10(n - 1)
  }

  /** Characters the send-money amount field admits: digits and '.'. */
  predicate DecimalChars(s: string) {
    forall i :: 0 <= i < |s| ==> IsDigit(s[i]) || s[i] == '.'
  }

  /** `parseFloat(s)` on text made of digits and dots: the longest prefix of
      the form digits, optionally '.', digits; `None` (NaN) when that prefix
      holds no digit, that is, when the text starts neither with a digit nor
      with '.' and a digit. Decimal fractions are exact here (a real number). */
  function ParseFloat(s: string): (r: Option<real>)
    requires DecimalChars(s)
    ensures r.Some? ==> r.value >= 0.0
    ensures r.None? <==> !(s != [] && IsDigit(s[0])) && !(|s| >= 2 && s[0] == '.' && IsDigit(s[1]))
  {
    var k := LeadingDigits(s);
    var frac := if k < |s| && s[k] == '.' then s[k + 1..][..LeadingDigits(s[k + 1..])] else "";
    if k == 0 && frac == [] then None
    else Some(DigitsValue(s[..k]) as real + DigitsValue(frac) as real / Pow10(|frac|) as real)
  }

  /** A non-empty digit string parses to the number it denotes. */
  lemma {:induction false} ParseFloatOfDigits(s: string)
    requires s != [] && AllDigits(s)
    ensures ParseFloat(s) == Some(DigitsValue(s) as real)
  {
    LeadingDigitsOfDigits(s);
    assert s[..|s|] == s;
  }

  /** Text of the form digits '.' digits, with a digit on at least one side,
      parses to its integer part plus its fraction. */
  lemma {:induction false} ParseFloatOfDecimal(a: string, b: string)
    requires AllDigits(a) && AllDigits(b) && (a != [] || b != [])
    ensures DecimalChars(a + "." + b)
    ensures ParseFloat(a + "." + b) == Some(DigitsValue(a) as real + DigitsValue(b) as real / Pow10(|b|) as real)
  {
    var s := a + "." + b;
    LeadingDigitsBefore(a, "." + b);
    assert s == a + ("." + b);
    assert s[..|a|] == a;
    assert s[|a| + 1..] == b;
    LeadingDigitsOfDigits(b);
    assert b[..|b|] == b;
  }

  /** The run of digits ends where a non-digit follows. */
  lemma {:induction false} LeadingDigitsBefore(a: string, rest: string)
    requires AllDigits(a) && (rest == [] || !IsDigit(rest[0]))
    ensures LeadingDigits(a + rest) == |a|
  {
    if a != [] {
      assert (a + rest)[1..] == a[1..] + rest;
      LeadingDigitsBefore(a[1..], rest);
    }
  }

  lemma {:induction false} LeadingDigitsOfDigits(s: string)
    requires AllDigits(s)
    ensures LeadingDigits(s) == |s|
  {
    if s != [] {
      LeadingDigitsOfDigits(s[1..]);
    }
  }

  /** The first character of every non-empty word, in order (`words.map(w => w[0]).join('')`,
      where `w[0]` of an empty word is `undefined` and joins as nothing). */
  function FirstLetters(words: seq<string>): (r: string)
    ensures |r| <= |words|
  {
    if words == [] then ""
    else (if words[0] == "" then "" else [words[0][0]]) + FirstLetters(words[1..])
  }

  /** The characters of `s` that begin a word: each non-space character that
      comes first (when `afterSpace`) or right after a space. */
  function WordStartsAfter(s: string, afterSpace: bool): string
  {
    if s == [] then ""
    else (if afterSpace && s[0] != ' ' then [s[0]] else "") + WordStartsAfter(s[1..], s[0] == ' ')
  }

  /** The first character of each word of `name`, spaces at either end and
      runs of spaces contributing nothing. */
  function WordStarts(name: string): string {
    WordStartsAfter(name, true)
  }

  /** Taking the first character of each piece of `split(' ')` keeps exactly the
      word starts: empty pieces (from leading, doubled or trailing spaces)
      give nothing, and the pieces after the first start right after a space. */
  lemma {:induction false} FirstLettersOfSplit(s: string)
    ensures FirstLetters(Split(s, ' ')) == WordStartsAfter(s, true)
    ensures FirstLetters(Split(s, ' ')[1..]) == WordStartsAfter(s, false)
  {
    if s != [] {
      var rest := Split(s[1..], ' ');
      FirstLettersOfSplit(s[1..]);
      if s[0] == ' ' {
        assert Split(s, ' ') == [""] + rest;
        assert (([""] + rest)[1..]) == rest;
        assert FirstLetters([""] + rest) == "" + FirstLetters(rest);
      } else {
        var parts := [[s[0]] + rest[0]] + rest[1..];
        assert Split(s, ' ') == parts;
        assert parts[1..] == rest[1..];
        assert FirstLetters(parts) == [s[0]] + FirstLetters(rest[1..]);
      }
    }
  }

  /** `name.split(' ').map(w => w[0]).join('').toUpperCase().slice(0, 2)`: the
      first two word starts of the name, upper-cased. */
  function Initials(name: string): (r: string)
    ensures r == Take(Upper(WordStarts(name)), 2)
    ensures |r| <= 2
  {
    FirstLettersOfSplit(name);
    Take(Upper(FirstLetters(Split(name, ' '))), 2)
  }

  /** For a first and a last name joined by one space, the initials are the two
      upper-cased first letters. */
  lemma InitialsOfTwoNames(first: string, last: string)
    requires first != "" && last != ""
    requires ' ' !in first && ' ' !in last
    ensures Initials(first + " " + last) == [UpperChar(first[0]), UpperChar(last[0])]
  {
    SplitTwoWords(first, last, ' ');
    assert first + " " + last == first + [' '] + last;
    assert FirstLetters([first, last]) == [first[0]] + FirstLetters([last]);
    assert FirstLetters([last]) == [last[0]] + FirstLetters([]);
  }

  /** The initials never take a letter from an empty name. */
  lemma InitialsOfEmpty()
    ensures Initials("") == ""
  {
    assert Split("", ' ') == [""];
    assert FirstLetters([""]) == "" + FirstLetters([]);
  }
}

=== FILE: top_up.dfy ===
/** The top-up screen (src/screens/topup/TopUpScreen.tsx): a digits-only
    amount, quick-amount buttons, a method choice, and the top-up handler that
    validates the amount before anything else. Only M-Pesa calls the backend;
    its reply is a parameter. */
module TopUp {
  import opened Common
  import opened Text

  const InvalidAmountError: string := "Please enter a valid amount"
  const MinimumError: string := "Minimum top-up amount is KES 10"
  const MaximumError: string := "Maximum top-up amount is KES 150,000"
  const TopUpFailedDefault: string := "Failed to initiate top-up"
  const MinimumAmount: nat := 10
  const MaximumAmount: nat := 150000

  /** The three method ids the screen offers. */
  datatype TopUpMethod = MPesa | Card | Bank

  /** The body of `/transactions/topup`. */
  datatype TopUpRequest = TopUpRequest(amount: nat, phoneNumber: string, methodId: string)

  /** How the M-Pesa call ended: `success: true`, or an error with its message (`""` when none). */
  datatype TopUpReply = TopUpAccepted | TopUpFailed(message: string)

  /** What an attempt led to. */
  datatype TopUpOutcome =
    | Refused(message: string)
    | OpenCards
    | BankTransferPrompt
    | PromptSent
    | RequestFailed(message: string)

  /** `parseFloat(amount)` of the digits-only field: its value, or `None` (NaN) when empty. */
  function AmountValue(amount: string): (v: Option<nat>)
    requires AllDigits(amount)
    ensures v.None? <==> amount == ""
  {
    if amount == "" then None else Some(DigitsValue(amount))
  }

  /** The checks of `handleTopUp`, in order: a positive amount, at least 10,
      at most 150000. */
  function TopUpRefusal(amount: string): Option<string>
    requires AllDigits(amount)
  {
    if amount == "" || DigitsValue(amount) <= 0 then Some(InvalidAmountError)
    else if DigitsValue(amount) < MinimumAmount then Some(MinimumError)
    else if DigitsValue(amount) > MaximumAmount then Some(MaximumError)
    else None
  }

  /** An amount passes exactly when it is a number between 10 and 150000. */
  lemma TopUpRefusalIff(amount: string)
    requires AllDigits(amount)
    ensures TopUpRefusal(amount).None? <==>
      AmountValue(amount).Some? && MinimumAmount <= AmountValue(amount).value <= MaximumAmount
  {
  }

  /** The first failing check decides the message: zero is invalid rather than
      below the minimum, and an amount is below the minimum or above the
      maximum, never both. */
  lemma TopUpRefusalOrder(amount: string)
    requires AllDigits(amount) && amount != ""
    ensures DigitsValue(amount) == 0 ==> TopUpRefusal(amount) == Some(InvalidAmountError)
    ensures 0 < DigitsValue(amount) < MinimumAmount ==> TopUpRefusal(amount) == Some(MinimumError)
    ensures DigitsValue(amount) > MaximumAmount ==> TopUpRefusal(amount) == Some(MaximumError)
  {
  }

  /** The top-up button's `disabled` rule: no amount, an amount below 10, or a
      request in flight. */
  predicate ButtonDisabled(amount: string, isLoading: bool)
    requires AllDigits(amount)
  {
    amount == "" || DigitsValue(amount) < MinimumAmount || isLoading
  }

  /** With the button enabled, the only check that can still fail is the maximum. */
  lemma EnabledButtonOnlyFailsMaximum(amount: string, isLoading: bool)
    requires AllDigits(amount) && !ButtonDisabled(amount, isLoading)
    ensures TopUpRefusal(amount) == None || TopUpRefusal(amount) == Some(MaximumError)
  {
  }

  /** The button is disabled exactly for the amounts the first two checks refuse
      (while nothing is loading). */
  lemma DisabledIffRefusedBelowMinimum(amount: string)
    requires AllDigits(amount)
    ensures ButtonDisabled(amount, false) <==>
      TopUpRefusal(amount) == Some(InvalidAmountError) || TopUpRefusal(amount) == Some(MinimumError)
  {
  }

  class TopUpScreen {
    var amount: string
    var phoneNumber: string
    var selectedMethod: TopUpMethod
    var isLoading: bool

    ghost predicate Valid()
      reads this
    {
      AllDigits(amount)
    }

    /** The phone field starts as the user's phone number, or "" without one;
        M-Pesa is preselected. */
    constructor (userPhone: Option<string>)
      ensures Valid() && amount == "" && phoneNumber == userPhone.GetOr("")
      ensures selectedMethod == MPesa && !isLoading
    {
      amount := "";
      phoneNumber := userPhone.GetOr("");
      selectedMethod := MPesa;
      isLoading := false;
    }

    /** `handleAmountChange`: the field keeps only the digits typed, in order. */
    method HandleAmountChange(value: string)
      requires Valid()
      modifies this`amount
      ensures Valid() && amount == KeepDigits(value)
    {
      amount := KeepDigits(value);
    }

    /** `handleQuickAmount`: the field shows the amount's decimal text, which
        reads back as that amount. */
    method HandleQuickAmount(quick: nat)
      requires Valid()
      requires quick in [100, 500, 1000, 2000, 5000, 10000]
      modifies this`amount
      ensures Valid() && amount == NatToString(quick)
      ensures AmountValue(amount) == Some(quick)
    {
      amount := NatToString(quick);
      NatToStringRoundTrip(quick);
    }

    method SetPhoneNumber(value: string)
      modifies this`phoneNumber
      ensures phoneNumber == value
    {
      phoneNumber := value;
    }

    method SelectMethod(m: TopUpMethod)
      modifies this`selectedMethod
      ensures selectedMethod == m
    {
      selectedMethod := m;
    }

    /** `handleTopUp`. A refused amount returns its message and changes nothing.
        Otherwise M-Pesa sends `{amount, phoneNumber, method: 'mpesa'}` and
        reports the reply (a failure's message, or 'Failed to initiate
        top-up'); card opens the card list and bank shows the transfer prompt,
        neither calling the backend. Loading ends after every attempt that got
        past the checks, the early returns for card and bank included. */
    method HandleTopUp(reply: TopUpReply) returns (request: Option<TopUpRequest>, outcome: TopUpOutcome)
      requires Valid()
      modifies this`isLoading
      ensures TopUpRefusal(amount).Some? ==>
        outcome == Refused(TopUpRefusal(amount).value) && request.None? && isLoading == old(isLoading)
      ensures TopUpRefusal(amount).None? ==> !isLoading
      ensures request.Some? <==> TopUpRefusal(amount).None? && selectedMethod == MPesa
      ensures request.Some? ==> request.value == TopUpRequest(DigitsValue(amount), phoneNumber, "mpesa")
      ensures TopUpRefusal(amount).None? && selectedMethod == Card ==> outcome == OpenCards
      ensures TopUpRefusal(amount).None? && selectedMethod == Bank ==> outcome == BankTransferPrompt
      ensures request.Some? && reply.TopUpAccepted? ==> outcome == PromptSent
      ensures request.Some? && reply.TopUpFailed? ==>
        outcome == RequestFailed(if reply.message != "" then reply.message else TopUpFailedDefault)
    {
      var refusal := TopUpRefusal(amount);
      if refusal.Some? {
        return None, Refused(refusal.value);
      }
      isLoading := true;
      match selectedMethod {
        case MPesa =>
          request := Some(TopUpRequest(DigitsValue(amount), phoneNumber, "mpesa"));
          outcome := match reply {
            case TopUpAccepted => PromptSent
            case TopUpFailed(message) =>
              RequestFailed(if message != "" then message else TopUpFailedDefault)
          };
        case Card =>
          request, outcome := None, OpenCards;
        case Bank =>
          request, outcome := None, BankTransferPrompt;
      }
      isLoading := false;
    }
  }
}

=== FILE: transaction_details.dfy ===
/** The receipt of one transaction
    (src/screens/transactions/TransactionDetailsScreen.tsx): the fee and
    total, the signed amount, the type's label, the status colour and icon,
    the heading of the parties section and when "Send Again" is offered. */
module TransactionDetails {
  import opened Common
  import opened Text
  import opened Transactions
  import Storage

  /** `transaction.fee || 0`: a missing fee counts as zero. */
  function FeeOrZero(t: Transaction): (fee: real)
    ensures t.fee.None? ==> fee == 0.0
    ensures t.fee.Some? ==> fee == t.fee.value
  {
    t.fee.GetOr(0.0)
  }

  /** The total line: the amount plus the fee shown on the line above it. */
  function Total(t: Transaction): (total: real)
    ensures total - FeeOrZero(t) == t.amount
    ensures t.fee.None? ==> total == t.amount
  {
    t.amount + FeeOrZero(t)
  }

  /** A non-negative fee never makes the total smaller than the amount. */
  lemma TotalCoversAmount(t: Transaction)
    requires t.fee.Some? ==> t.fee.value >= 0.0
    ensures Total(t) >= t.amount
  {
  }

  /** `type.charAt(0).toUpperCase() + type.slice(1)`; an empty type stays empty. */
  function TypeLabel(kind: string): (text: string)
    ensures |text| == |kind|
    ensures kind != "" ==> text[0] == UpperChar(kind[0]) && text[1..] == kind[1..]
  {
    if kind == "" then "" else [UpperChar(kind[0])] + kind[1..]
  }

  /** The label is the type itself up to case, and labelling twice changes nothing more. */
  lemma TypeLabelKeepsWord(kind: string)
    ensures Lower(TypeLabel(kind)) == Lower(kind)
    ensures TypeLabel(TypeLabel(kind)) == TypeLabel(kind)
  {
    if kind != "" {
      assert Lower(TypeLabel(kind))[0] == LowerChar(UpperChar(kind[0])) == LowerChar(kind[0]);
    }
  }

  /** The label of each known type. */
  lemma KnownTypeLabels()
    ensures TypeLabel("send") == "Send" && TypeLabel("receive") == "Receive"
    ensures TypeLabel("topup") == "Topup" && TypeLabel("payment") == "Payment"
  {
  }

  /** The colour of the big amount: red for a send, green otherwise. */
  function AmountColor(kind: string): string {
    if kind == "send" then "#EF4444" else "#22C55E"
  }

  /** `getStatusColor`. */
  function StatusColor(status: string): string {
    match status
    case "completed" => "#22C55E"
    case "pending" => "#F59E0B"
    case "failed" => "#EF4444"
    case _ => DefaultColor
  }

  /** `getStatusIcon`. */
  function StatusIcon(status: string): string {
    match status
    case "completed" => "check-circle"
    case "pending" => "schedule"
    case "failed" => "error"
    case _ => "help"
  }

  const KnownStatuses: seq<string> := ["completed", "pending", "failed"]

  /** The three statuses have their own colour and icon; any other status is
      drawn grey with the 'help' icon. The receipt agrees with the list's badge
      on the three and differs only in greying unknown statuses, which the
      list shows red. */
  lemma StatusTables(status: string)
    ensures status in KnownStatuses ==> StatusIcon(status) != "help" && StatusColor(status) != DefaultColor
    ensures status !in KnownStatuses ==> StatusIcon(status) == "help" && StatusColor(status) == DefaultColor
    ensures status in KnownStatuses ==> StatusColor(status) == ListStatusColor(status)
    ensures status !in KnownStatuses ==> ListStatusColor(status) == "#EF4444"
  {
  }

  /** The receipt and the list put the same sign in front of the amount, and
      both draw a send in red. */
  lemma ReceiptAgreesWithList(t: Transaction)
    ensures AmountColor(t.kind) == "#EF4444" <==> ListAmountColor(t.kind) == "#EF4444"
    ensures AmountColor(t.kind) == "#EF4444" <==> AmountSign(t.kind) == "-"
  {
  }

  /** `transaction.description && …`: the description row appears exactly
      when the description is truthy, so a missing or empty one draws no row. */
  function ShowsDescription(t: Transaction): (shown: bool)
    ensures shown <==> Storage.Truthy(t.description)
    ensures t.description == Some("") ==> !shown
  {
    t.description.Some? && t.description.value != ""
  }

  /** The parties section appears when either party is present; its heading
      says whose details they are. */
  function PartiesHeading(t: Transaction): (heading: Option<string>)
    ensures heading.Some? <==> t.recipient.Some? || t.sender.Some?
    ensures heading.Some? ==>
      (heading.value == "Recipient Details" <==> t.kind == "send")
  {
    if t.recipient.None? && t.sender.None? then None
    else if t.kind == "send" then Some("Recipient Details")
    else Some("Sender Details")
  }

  /** "Send Again": offered for a send with a recipient, and it opens the send
      screen with that recipient. */
  function SendAgain(t: Transaction): (target: Option<Party>)
    ensures target.Some? <==> t.kind == "send" && t.recipient.Some?
    ensures target.Some? ==> t.recipient == target
  {
    if t.kind == "send" && t.recipient.Some? then t.recipient else None
  }

  /** Whenever "Send Again" is offered, the parties section is shown and is
      headed "Recipient Details". */
  lemma SendAgainUnderRecipientHeading(t: Transaction)
    requires SendAgain(t).Some?
    ensures PartiesHeading(t) == Some("Recipient Details")
  {
  }
}

=== FILE: transactions.dfy ===
/** The transaction history (src/screens/transactions/TransactionsScreen.tsx):
    the loaded list narrowed by a type chip and a free-text search, and the
    icon, colour and sign rules each row is drawn with. The same icon and
    colour tables serve the details screen. */
module Transactions {
  import opened Common
  import opened Text

  /** The other side of a transfer; either field may be missing. */
  datatype Party = Party(name: Option<string>, phoneNumber: Option<string>)

  /** A transaction as the backend sends it: `kind` is its `type` ('send',
      'receive', 'topup', 'payment' or anything else). */
  datatype Transaction = Transaction(
    id: string, kind: string, amount: real, fee: Option<real>, status: string,
    description: Option<string>, recipient: Option<Party>, sender: Option<Party>,
    createdAt: string)

  /** The chip keys; 'all' is the one that filters nothing. */
  const AllFilter: string := "all"
  const FilterKeys: seq<string> := ["all", "send", "receive", "topup", "payment"]

  /** The type chip: 'all' lets everything through, any other key only its type. */
  predicate MatchesFilter(t: Transaction, filter: string) {
    filter == AllFilter || t.kind == filter
  }

  /** `field?.toLowerCase().includes(query.toLowerCase())`: a missing field
      does not match. */
  predicate FieldMatches(field: Option<string>, query: string) {
    field.Some? && ContainsIgnoringCase(field.value, query)
  }

  function NameOf(party: Option<Party>): Option<string> {
    if party.Some? then party.value.name else None
  }

  /** The search box: an empty query lets everything through; otherwise the
      description, the recipient's name or the sender's name must contain it,
      ignoring case. */
  predicate MatchesQuery(t: Transaction, query: string) {
    query == "" ||
    FieldMatches(t.description, query) ||
    FieldMatches(NameOf(t.recipient), query) ||
    FieldMatches(NameOf(t.sender), query)
  }

  predicate Shown(t: Transaction, query: string, filter: string) {
    MatchesFilter(t, filter) && MatchesQuery(t, query)
  }

  /** The rows on screen for a list, a query and a chip. */
  function Visible(ts: seq<Transaction>, query: string, filter: string): seq<Transaction> {
    Filter(ts, (t: Transaction) => Shown(t, query, filter))
  }

  /** A transaction is on screen exactly when it was loaded and passes both the
      chip and the search. */
  lemma VisibleIff(ts: seq<Transaction>, query: string, filter: string, t: Transaction)
    ensures t in Visible(ts, query, filter) <==>
      t in ts && MatchesFilter(t, filter) && MatchesQuery(t, query)
  {
    var r := Visible(ts, query, filter);
    if t in r {
      var i :| 0 <= i < |r| && r[i] == t;
    }
    if t in ts && Shown(t, query, filter) {
      var i :| 0 <= i < |ts| && ts[i] == t;
    }
  }

  /** The rows keep the order they were loaded in. */
  lemma VisibleKeepsOrder(ts: seq<Transaction>, query: string, filter: string)
    ensures IsSubsequence(Visible(ts, query, filter), ts)
  {
    FilterIsSubsequence(ts, (t: Transaction) => Shown(t, query, filter));
  }

  /** With the 'all' chip and an empty search, everything loaded is shown. */
  lemma NothingFiltered(ts: seq<Transaction>)
    ensures Visible(ts, "", AllFilter) == ts
  {
    FilterKeepsAll(ts, (t: Transaction) => Shown(t, "", AllFilter));
  }

  /** Any other chip shows only its own type. */
  lemma ChipShowsOnlyItsType(ts: seq<Transaction>, query: string, filter: string)
    requires filter != AllFilter
    ensures forall i :: 0 <= i < |Visible(ts, query, filter)| ==>
      Visible(ts, query, filter)[i].kind == filter
  {
  }

  /** A transaction with no description and no named parties never matches a
      non-empty search. */
  lemma UnnamedNeverMatches(t: Transaction, query: string)
    requires query != ""
    requires t.description.None? && NameOf(t.recipient).None? && NameOf(t.sender).None?
    ensures !MatchesQuery(t, query)
  {
  }

  /** The search ignores the case of the query. */
  lemma SearchIgnoresCase(ts: seq<Transaction>, query: string, filter: string)
    ensures Visible(ts, Upper(query), filter) == Visible(ts, query, filter)
  {
    LowerOfUpper(query);
    assert (Upper(query) == "") == (query == "");
    FilterCongruent(ts, (t: Transaction) => Shown(t, Upper(query), filter),
                        (t: Transaction) => Shown(t, query, filter));
  }

  /** The amount's prefix: '-' for a send, '+' for everything else. */
  function AmountSign(kind: string): (sign: string)
    ensures sign == "-" <==> kind == "send"
    ensures sign == "-" || sign == "+"
  {
    if kind == "send" then "-" else "+"
  }

  /** The amount's colour in the list: red for a send, green for a receipt,
      dark grey otherwise. */
  function ListAmountColor(kind: string): string {
    if kind == "send" then "#EF4444" else if kind == "receive" then "#22C55E" else "#1F2937"
  }

  /** The status badge in the list: green when completed, amber when pending,
      red for anything else. */
  function ListStatusColor(status: string): string {
    if status == "completed" then "#22C55E" else if status == "pending" then "#F59E0B" else "#EF4444"
  }

  /** The status badge is red exactly for statuses other than completed and pending. */
  lemma ListStatusRedIff(status: string)
    ensures ListStatusColor(status) == "#EF4444" <==> status != "completed" && status != "pending"
  {
  }

  const KnownKinds: seq<string> := ["send", "receive", "topup", "payment"]
  const DefaultIcon: string := "swap-horiz"
  const DefaultColor: string := "#6B7280"

  /** `getTransactionIcon`. */
  function KindIcon(kind: string): string {
    match kind
    case "send" => "arrow-upward"
    case "receive" => "arrow-downward"
    case "topup" => "add-circle"
    case "payment" => "payment"
    case _ => DefaultIcon
  }

  /** `getTransactionColor`. */
  function KindColor(kind: string): string {
    match kind
    case "send" => "#EF4444"
    case "receive" => "#22C55E"
    case "topup" => "#3B82F6"
    case "payment" => "#F59E0B"
    case _ => DefaultColor
  }

  /** Each known type has an icon and a colour of its own, none of them the
      fallback; every other type gets the 'swap-horiz' icon in grey. */
  lemma KindTables(kind: string)
    ensures kind in KnownKinds ==> KindIcon(kind) != DefaultIcon && KindColor(kind) != DefaultColor
    ensures kind !in KnownKinds ==> KindIcon(kind) == DefaultIcon && KindColor(kind) == DefaultColor
    ensures forall i, j :: 0 <= i < j < |KnownKinds| ==>
      KindIcon(KnownKinds[i]) != KindIcon(KnownKinds[j]) &&
      KindColor(KnownKinds[i]) != KindColor(KnownKinds[j])
  {
  }

  /** How a load ended: the list, a reply without `success`, or an error. */
  datatype ListReply = Listed(transactions: seq<Transaction>) | NotListed | ListFailed

  const LoadError: string := "Failed to load transactions"

  class TransactionsScreen {
    var transactions: seq<Transaction>
    var filtered: seq<Transaction>
    var isRefreshing: bool
    var searchQuery: string
    var selectedFilter: string

    /** The filtering effect has run since the last change of the list, the
        search or the chip. */
    ghost predicate Valid()
      reads this
    {
      filtered == Visible(transactions, searchQuery, selectedFilter)
    }

    constructor ()
      ensures Valid() && transactions == [] && searchQuery == "" && selectedFilter == AllFilter
      ensures !isRefreshing
    {
      transactions, filtered, isRefreshing := [], [], false;
      searchQuery, selectedFilter := "", AllFilter;
    }

    /** `filterTransactions`: narrow by the chip unless it is 'all', then by
        the search unless it is empty. */
    method FilterTransactions()
      modifies this`filtered
      ensures Valid()
    {
      var ts, query, filter := transactions, searchQuery, selectedFilter;
      var byKind := (t: Transaction) => t.kind == filter;
      var byText := (t: Transaction) => MatchesQuery(t, query);
      var both := (t: Transaction) => Shown(t, query, filter);
      var result := ts;
      if filter != AllFilter {
        result := Filter(result, byKind);
      }
      if query != "" {
        result := Filter(result, byText);
      }
      if filter != AllFilter && query != "" {
        FilterFilter(ts, byKind, byText, both);
      } else if filter != AllFilter {
        FilterCongruent(ts, byKind, both);
      } else if query != "" {
        FilterCongruent(ts, byText, both);
      } else {
        FilterKeepsAll(ts, both);
      }
      filtered := result;
    }

    /** `loadTransactions` followed by the filtering effect: a successful reply
        replaces the list; an error leaves it and reports 'Failed to load
        transactions'. */
    method LoadTransactions(reply: ListReply) returns (error: Option<string>)
      modifies this`transactions, this`filtered
      ensures Valid()
      ensures transactions == if reply.Listed? then reply.transactions else old(transactions)
      ensures error == if reply.ListFailed? then Some(LoadError) else None
    {
      if reply.Listed? {
        transactions := reply.transactions;
      }
      error := if reply.ListFailed? then Some(LoadError) else None;
      FilterTransactions();
    }

    method SetSearchQuery(query: string)
      modifies this`searchQuery, this`filtered
      ensures Valid() && searchQuery == query
    {
      searchQuery := query;
      FilterTransactions();
    }

    method SelectFilter(key: string)
      requires key in FilterKeys
      modifies this`selectedFilter, this`filtered
      ensures Valid() && selectedFilter == key
    {
      selectedFilter := key;
      FilterTransactions();
    }
  }
}
